=== FILE: README.md ===
# PullVideoToText transcript pipeline in Dafny

This project models the text-processing core of PullVideoToText. The tool
turns auto-generated YouTube subtitles into a readable Markdown document.
The model covers the following stages:

- **VTT cleaning** (`download_transcript.py`, `clean_vtt_file`). It drops
  headers, metadata, cue timings, cue settings and cue numbers. It strips
  HTML tags and entities, joins the remaining lines with spaces and
  collapses whitespace. It also derives the `_cleaned.txt` output name.
- **File naming** (`sanitize_filename`). A YouTube video id becomes
  `transcript_<id>`. Any other URL becomes a name built from its domain and
  the last path segment, limited to safe characters and 50 characters.
- **Advanced processing** (`advanced_processor.py`):
  - an exact-duplicate pass (case- and whitespace-insensitive, first
    occurrence wins);
  - a near-duplicate pass against a similarity threshold of 0.85;
  - paragraph segmentation from cluster labels, with groups ordered by
    their earliest sentence;
  - the four-step heading fallback chain;
  - the Markdown layout of `save_processed_transcript`.
- **Simple processing** (`simple_test.py`):
  - deduplication of `". "`-separated pieces longer than ten characters;
  - fixed-size paragraphs of four pieces;
  - keyword headings ranked the way `Counter.most_common` ranks them;
  - the document `process_transcript_simple` writes.
- **Sentence formatting** (`sentence_formatter.py`, `format_sentences`):
  1. a line break after every period that does not already end a line;
  2. removal of one space at the start of each line;
  3. removal of a line that repeats the previous non-blank line.

Everything is modelled as pure functions over `seq<char>`. The outside
services become parameters:

| service | modelled as |
|---|---|
| NLTK sentence tokenizer | a list of sentences, or a `String -> seq<String>` |
| sentence-embedding similarity | a `(String, String) -> int` score in basis points, so 0.85 is 8500 |
| KMeans | the label it assigns each sentence |
| spaCy | a `Doc` of noun chunks, entities and tagged tokens |
| text generator | a `String -> Option<String>`, where `None` means it raised |

Exceptions the code can raise on an input it accepts are modelled as
`Result` errors, listed in `Outcome.Error`.

Where the code and the prose description of the pipeline differ, the model
follows the code:

- **Near-duplicates.** A sentence is compared with *every* earlier unique
  sentence, including ones already dropped. It is dropped when the maximum
  similarity is at least 0.85, not only when it exceeds it
  (`Cleaner.FarFromEarlier`).
- **Empty clusters.** A cluster with no sentence makes `min()` raise, so it
  is never dropped silently (`Segmenter.Groups`). The non-empty filter at
  advanced_processor.py:214 is therefore unreachable.
- **Empty headings.** `generate_heading` can return an empty heading, but
  only when a kept named entity has empty text (`Heading.GenerateHeading`,
  second ensures).
- **Cue settings.** The rule `^.*\s+(position|align|line|size):` also drops
  prose lines such as `the bottom line: ...`. The model keeps that
  behaviour (`Vtt.HasCueSetting`).
- **Entity removal.** Removing HTML entities once is not idempotent:
  `"&a&b;;"` becomes `"&a;"`. So `Vtt.RemoveEntities` is given no
  idempotence lemma.

Character classes are ASCII:

- `\s` and `str.isspace` are the ASCII whitespace characters.
- `\w` is letters, digits and `_`.
- `lower`, `title` and `capitalize` change only `A`-`Z` and `a`-`z`.

## Model

| member | source | states |
|---|---|---|
| Text.Split | download_transcript.py:49 | `str.split`: at least one piece, no piece contains the separator, and joining the pieces gives back the input |
| Text.SplitJoin | sentence_formatter.py:36-63 | splitting a join of separator-free pieces gives back the pieces, for a separator that cannot overlap itself |
| Text.TrimLeft | download_transcript.py:121 | `lstrip`: a suffix of the input; every dropped character is in the class and the result does not start with one |
| Text.TrimRight | advanced_processor.py:145 | the right half of `strip`: a prefix of the input; every dropped character is in the class and the result does not end with one |
| Text.Trim | advanced_processor.py:145 | `strip`: no longer than the input, with no class character at either end |
| Text.TrimIsSlice | advanced_processor.py:145 | `strip(chars)` removes exactly the class characters at each end: the result is the slice between them, every dropped character is in the class, and the result's own ends are not |
| Text.TrimExact | advanced_processor.py:266 | `strip(chars)` gives a slice whose dropped prefix and suffix are class characters and whose ends are not |
| Text.TrimmedUnique | advanced_processor.py:266 | only one slice has that property, so the stripped text is determined by it |
| Text.TrimIdempotent | advanced_processor.py:145 | stripping twice is stripping once |
| Text.KeyOfStripped | advanced_processor.py:145-148 | the dedup key of a stripped sentence is the key of the original sentence, so the kept text has the key that was recorded |
| Text.Title | advanced_processor.py:245 | `str.title`: same length; a character right after a letter is lower-cased and every other character upper-cased, so only case changes |
| Text.Capitalize | simple_test.py:54 | `str.capitalize`: same length; the first character upper-cased and every later one lower-cased |
| Text.WordsAreWords | advanced_processor.py:268 | every word `split()` yields is non-empty and holds no whitespace |
| Text.Find | download_transcript.py:49 | the separator search `str.split` performs: the first position where a pattern occurs, or none exactly when it does not occur |
| Text.ReplaceChar | download_transcript.py:133 | replacing a one-character string by another maps that character and leaves every other character in place |
| Text.JoinLength | advanced_processor.py:215 | a join holds all characters of its parts plus one separator between each two |
| Seqs.FilteredIsSubseq | advanced_processor.py:141-148 | selecting sentences by a mask keeps their relative order |
| Seqs.SubseqTrans | advanced_processor.py:150-169 | two order-preserving filter passes compose to an order-preserving filter |
| Seqs.FilteredDistinctBy | advanced_processor.py:158-167 | deleting sentences cannot create two with the same key |
| Seqs.SelectMembers | advanced_processor.py:243-250 | a comprehension yields only `f` of kept elements, and yields `f` of every kept element |
| Seqs.SelectSubseq | simple_test.py:33-34 | a comprehension is a subsequence of `f` applied to every element: it drops elements and never reorders them |
| Seqs.FilteredLast | download_transcript.py:134-137 | the last selected element sits at the last marked position |
| Dedup.DedupFirst | advanced_processor.py:141-148 | the seen-set loop keeps exactly the stripped first occurrences of each key longer than the minimum, in order; the result is duplicate-free |
| Dedup.DedupFromMatchesMask | advanced_processor.py:142-148 | the loop with its seen set equals selecting the first-occurrence positions |
| Dedup.DedupIdempotent | advanced_processor.py:141-148 | deduplicating a duplicate-free list changes nothing |
| Dedup.DedupFromDeduplicated | advanced_processor.py:144-148 | every list the loop builds has distinct keys and only kept entries |
| Cleaner.MaxEarlierScore | advanced_processor.py:163 | `max(similarity_matrix[i][:i])`: bounds every earlier score and is attained by one of them |
| Cleaner.MaxBelowIffAllBelow | advanced_processor.py:163-166 | the maximum is below 0.85 exactly when every earlier score is |
| Cleaner.NearDedup | advanced_processor.py:150-169 | the near-duplicate pass keeps the first sentence and exactly those later sentences far from all earlier ones, in order |
| Cleaner.NearFromMatchesMask | advanced_processor.py:159-167 | the loop equals selecting the far-from-earlier positions |
| Cleaner.CleanSentences | advanced_processor.py:138-171 | exactly the near-duplicate filter (`NearMask`) applied to the exact-duplicate pass's first occurrences (`FirstMask`) of the stripped sentences; hence stripped input sentences in input order, pairwise different up to case, with the first unique sentence kept |
| Cleaner.FilteredDeduplicated | advanced_processor.py:150-169 | the near-duplicate pass keeps the exact pass's guarantee |
| Cleaner.Clean | advanced_processor.py:169-171 | the kept sentences joined by single spaces; empty exactly when no sentence survives, otherwise starting with the first kept sentence and ending with the last |
| Segmenter.FloorDiv | advanced_processor.py:193 | Python's floor division, for both signs of the divisor |
| Segmenter.ClusterCount | advanced_processor.py:193-197 | division by zero exactly when the maximum is 0; a count KMeans accepts lies between 1 and half the sentence count |
| Segmenter.ClusterCountBounds | advanced_processor.py:186-193 | past the fast path, the count is `min(n // 2, max(2, n // m))` |
| Segmenter.Members | advanced_processor.py:203-206 | a cluster's sentences are exactly those with its label, in increasing position |
| Segmenter.MinKey | advanced_processor.py:209 | the sort key is the least first-occurrence index over the cluster's sentences |
| Segmenter.MinKeyOfDistinct | advanced_processor.py:209 | with distinct sentences, the sort key is the cluster's first position |
| Segmenter.ClusterOrder | advanced_processor.py:208-209 | the stable sort is a permutation of the cluster ids ordered by key |
| Segmenter.Groups | advanced_processor.py:199-209 | an error exactly when some cluster is empty; otherwise one group per cluster |
| Segmenter.ArrangePartition | advanced_processor.py:200-209 | arranging the clusters puts each sentence in exactly one group, the group of its label |
| Segmenter.GroupsPartition | advanced_processor.py:199-209 | the groups partition the sentences: each is non-empty, has one label and is in increasing order, and every sentence is in exactly one group |
| Segmenter.GroupsOrdered | advanced_processor.py:208-209 | groups are ordered by the first occurrence of their earliest sentence |
| Segmenter.GroupsOrderedDistinct | advanced_processor.py:208-209 | with distinct sentences, groups are ordered by their first sentence's position |
| Segmenter.ParagraphText | advanced_processor.py:215 | splitting a paragraph on spaces gives back its sentences when they hold no space |
| Segmenter.ParagraphTextShape | advanced_processor.py:215 | a paragraph starts with its first sentence, ends with its last, and is as long as its sentences together plus one space between each two |
| Segmenter.Paragraphs | advanced_processor.py:212-218 | one paragraph per non-empty group, in group order |
| Segmenter.Segment | advanced_processor.py:173-218 | the fast path returns the text; division by zero exactly for a zero maximum; past it, malformed labels give `InvalidLabels`, an unused cluster gives `EmptyCluster` and conversely, and otherwise the result is exactly the paragraph texts of `Groups`, 1 to n/2 of them |
| Ranking.SortIndices | advanced_processor.py:209 | a stable sort of positions by key: a permutation, sorted, ties by position |
| Ranking.Uniq | simple_test.py:48 | the distinct elements in order of first occurrence |
| Ranking.OutranksAsymmetric | simple_test.py:48-49 | no two elements outrank each other |
| Ranking.Ranked | simple_test.py:48-49 | `most_common()`: every distinct element once, each outranking all later ones |
| Ranking.RankedOutranks | simple_test.py:48-49 | sorting by negated counts gives an outranking order |
| Ranking.MostCommon | simple_test.py:49 | `most_common(n)`: the n best ranked, each outranking everything left out |
| Heading.Truncate | advanced_processor.py:231-234 | a paragraph over 500 characters becomes its first 500 characters plus `...`; others are unchanged |
| Heading.TruncateIdempotent | advanced_processor.py:231-234 | truncating twice is truncating once |
| Heading.Prompt | advanced_processor.py:253 | the prompt quotes at most the first 200 characters after the fixed lead |
| Heading.DropLabel | advanced_processor.py:265 | text without a `Heading:`/`Title:`/`Summary:` label (compared ignoring case) is unchanged; otherwise exactly the label it starts with and the whitespace after it are removed, leaving a suffix that does not start with whitespace |
| Heading.OneLabel | advanced_processor.py:265 | the three labels differ in their first letter, so a text starts with at most one of them |
| Heading.CleanGenerated | advanced_processor.py:262-266 | the cleaned suggestion is the stripped, label-free text with quote characters removed from its two ends and nothing else, and neither end is a quote |
| Heading.ChunkPhrases | advanced_processor.py:243-245 | exactly `[c.title() for c in chunks if len(c) > 3 and c.lower() not in pronouns]`: every kept chunk title-cased, in chunk order, repeats included |
| Heading.EntityPhrases | advanced_processor.py:248-250 | exactly the person, organisation, event and product entities title-cased, in entity order, repeats included |
| Heading.EmptyKeyPhrase | advanced_processor.py:242-250 | an empty key phrase can only come from a kept entity with empty text |
| Heading.MostFrequent | advanced_processor.py:274-278 | `most_common(1)`: a phrase outranking every other phrase |
| Heading.MostFrequentUnique | advanced_processor.py:274-278 | that phrase is the only one outranking all others |
| Heading.KeyWords | advanced_processor.py:285-289 | exactly the content tokens longer than two characters, lower-cased, in token order, repeats included; every entry is lower-case and longer than two characters |
| Heading.FromKeyWords | advanced_processor.py:291-294 | the first four keywords joined by spaces and title-cased: each character right after a letter lower-cased, every other one upper-cased |
| Heading.GenerateHeading | advanced_processor.py:230-301 | an accepted suggestion wins, title-cased; else the most frequent key phrase; else the fallback when the tokenizer finds no sentence; else the title-cased keywords of the first sentence, or the fallback without keywords; empty only through an empty entity |
| Layout.Metadata | advanced_processor.py:405-413 | the metadata line is empty exactly without speaker or time; a start time without an end time raises |
| Layout.Block | advanced_processor.py:401-416 | a block starts with the heading line and ends with the text; without metadata it is exactly those two; it fails exactly when a start time has no end time |
| Layout.Blocks | advanced_processor.py:400-416 | one block per section, failing exactly when some section is broken |
| Layout.Render | advanced_processor.py:394-420 | the document starts with the header and fails exactly when some section is broken |
| Layout.EmitIsJoin | advanced_processor.py:400-420 | the writer's loop produces the blocks joined by `---` separators |
| Layout.RenderShape | advanced_processor.py:394-420 | header plus blocks joined by separators, ending with the last section's text and no trailing separator |
| Vtt.RemoveTags | download_transcript.py:76 | the result has no `<...>` tag, keeps only input characters, and starts with the input's first character when that is not `<`; with `Vtt.RemoveTagsText` and `Vtt.RemoveTagsTag` the output is fixed for every input |
| Vtt.RemoveTagsNoTag | download_transcript.py:76 | text without a tag is unchanged |
| Vtt.RemoveTagsIdempotent | download_transcript.py:76 | removing tags twice is removing them once |
| Vtt.RemoveTagsText | download_transcript.py:76 | text in which no tag starts passes through unchanged, including a `<` that opens no tag, such as `<>` |
| Vtt.RemoveTagsNoOpen | download_transcript.py:76 | text before the first `<` passes through unchanged |
| Vtt.RemoveTagsEmptyBrackets | download_transcript.py:76 | an empty `<>` is not a tag and survives, while a tag right after it is removed |
| Vtt.RemoveTagsTag | download_transcript.py:76 | a complete tag `<x>` is removed and what follows it is treated on its own |
| Vtt.RemoveTagsSubseq | download_transcript.py:76 | the result is a subsequence of the input |
| Vtt.RemoveEntities | download_transcript.py:77 | characters outside entities keep their counts; text without `&` is unchanged |
| Vtt.CollapseSpaces | download_transcript.py:86 | no two whitespace characters in a row, no whitespace other than a space, non-space text unchanged |
| Vtt.CollapseKeepsGaps | download_transcript.py:86 | collapsing keeps the word boundaries: whitespace stands before, between and after the same non-space characters as in the input |
| Vtt.CollapsedUnique | download_transcript.py:86 | collapsed text is determined by its non-space characters and its word boundaries |
| Vtt.GapsAppend | download_transcript.py:85-86 | the word boundaries of a concatenation are those of the two parts, merged at the seam |
| Vtt.StripGaps | download_transcript.py:87 | stripping removes only the boundaries before the first and after the last non-space character |
| Vtt.CollapseCollapsed | download_transcript.py:86 | collapsing already-collapsed text changes nothing |
| Vtt.StripCollapsed | download_transcript.py:86-87 | stripping keeps text collapsed |
| Vtt.CleanLine | download_transcript.py:53-82 | skipped lines give nothing; any other line whose rewrite is non-empty and not all digits is kept as that rewrite, which has no whitespace at either end; a plain line is kept as stripped |
| Vtt.RewritePlain | download_transcript.py:75-77 | a stripped line with no tag and no `&` comes out of the tag, entity and strip rewrite unchanged |
| Vtt.KeptLines | download_transcript.py:49-83 | the kept lines are the rewritten lines at the positions `CleanLine` keeps |
| Vtt.KeptLinesWellFormed | download_transcript.py:52-82 | every kept line is non-blank text with no whitespace at its ends |
| Vtt.CollapseThenStrip | download_transcript.py:85-87 | collapsing then stripping gives collapsed text with no outer space and the same non-space characters |
| Vtt.CleanVtt | download_transcript.py:49-87 | the cleaned text is collapsed, has no outer space, holds exactly the non-space characters of the kept lines joined by spaces, and has a space exactly where the joined text has whitespace between two non-space characters |
| Vtt.CleanVttDetermined | download_transcript.py:85-87 | any collapsed text with those non-space characters and boundaries is the cleaned text |
| Vtt.CollapseStripGaps | download_transcript.py:86-87 | after collapsing and stripping, the boundaries are the input's without the outer ones |
| Vtt.LastIndex | download_transcript.py:90 | the last position of a character, or none when it is absent |
| Vtt.SplitExt | download_transcript.py:90 | `splitext`: root plus extension is the path; the extension is non-empty exactly when the final component has a dot after some non-dot character, and is then the final component's last dot and what follows |
| Vtt.OutputName | download_transcript.py:90-91 | the output name is the path without its extension followed by `_cleaned.txt`; a path without an extension just gains the suffix |
| FileName.LastValueIsLast | download_transcript.py:124-125 | the value is that of the last `key=value` pair for the key, as the dictionary keeps it, and empty when no pair has the key |
| FileName.VideoParam | download_transcript.py:124-125 | `dict()` raises exactly when some `=`-containing parameter splits into more than two parts; otherwise the value is `LastValue` of the `&`-split query for `v`, which `FileName.LastValueIsLast` pins to the last `v=` pair or the empty default |
| FileName.VideoId | download_transcript.py:118-125 | a short link gives the path without leading slashes; any other YouTube netloc gives exactly the `v` parameter of the query; the only error is a malformed query |
| FileName.CutId | download_transcript.py:129 | the id up to its first `&` or `?`: a prefix holding neither, which ends at the id's end or right before one of them |
| FileName.FirstPiece | download_transcript.py:129 | the first piece of a split on one character runs up to its first occurrence or to the end |
| FileName.Sanitize | download_transcript.py:142 | same length, safe characters unchanged and every other character replaced by `_` |
| FileName.SanitizeIdempotent | download_transcript.py:142 | sanitising twice is sanitising once |
| FileName.NonEmpty | download_transcript.py:134 | `[p for p in parts if p]`: exactly the non-empty parts, in order |
| FileName.NonEmptyNone | download_transcript.py:134-137 | nothing is kept exactly when every part is empty |
| FileName.NonEmptyLast | download_transcript.py:134-137 | the last kept part is the last non-empty part |
| FileName.Domain | download_transcript.py:133 | the domain is the netloc with `www.` removed and every dot turned into `_` |
| FileName.GenericClean | download_transcript.py:136-142 | sanitising the joined name is sanitising each part; the result starts with `transcript_` |
| FileName.PathParts | download_transcript.py:134 | exactly the non-empty segments of the path between slashes, in order; none holds `/` |
| FileName.GenericName | download_transcript.py:133-143 | the first 50 characters (all of them when shorter) of `transcript_`, the sanitised domain, and `_` with the sanitised last non-empty path segment; only safe characters |
| FileName.SanitizeFilename | download_transcript.py:104-145 | the YouTube case gives `transcript_<id>` when the id is non-empty, the generic name otherwise, and an error exactly when the query is malformed |
| Simple.CleanPieces | simple_test.py:11-22 | exactly the stripped `". "`-pieces at first-occurrence positions whose key is longer than ten characters, in input order; hence duplicate-free and free of `". "` |
| Simple.SimpleClean | simple_test.py:11-24 | splitting the result on `". "` gives back the kept pieces; the result is empty exactly when none is kept |
| Simple.SimpleCleanIdempotent | simple_test.py:11-24 | cleaning twice is cleaning once |
| Simple.Chunks | simple_test.py:31-32 | runs of exactly `p` pieces, the last shorter, concatenating to the input |
| Simple.RejoinRuns | simple_test.py:31-32 | joining the joined runs equals joining all pieces |
| Simple.SegmentRuns | simple_test.py:28-32 | joining the paragraphs before blank removal gives back the text |
| Simple.NonBlankSubseq | simple_test.py:33-34 | the paragraphs are stripped runs, in order |
| Simple.NonBlankNonEmpty | simple_test.py:33-34 | no paragraph is empty |
| Simple.NonBlank | simple_test.py:33-34 | exactly the stripped runs that are not blank, in order |
| Simple.SimpleSegment | simple_test.py:26-36 | a step of 0 raises, a negative step gives nothing; otherwise exactly the stripped non-blank runs of `p` pieces joined by `". "`, in order, at most ceil(n/p) of them and none empty |
| Simple.LowerRun | simple_test.py:40 | the end of the run of lower-case letters |
| Simple.CapWordsFrom | simple_test.py:40 | every match is an upper-case letter followed by lower-case letters |
| Simple.NoMatchInRun | simple_test.py:40 | no match starts inside the lower-case run of a match |
| Simple.CapWordsFromMatches | simple_test.py:40 | the scan reports exactly the word at every position where the pattern matches, in order of position |
| Simple.Keywords | simple_test.py:40-44 | every match of the pattern in the paragraph, in order, with the common words left out |
| Simple.NotCommon | simple_test.py:43-44 | exactly `[w for w in ws if w not in common_words]`: the words outside the common-word set, in order, repeats included |
| Simple.TopKeywords | simple_test.py:47-50 | up to three keywords, each outranking every later and every omitted keyword |
| Simple.CapitalizeAlpha | simple_test.py:54 | exactly `[w.capitalize() for w in ws if w.isalpha()]`, in order; each result is alphabetic and already capitalised |
| Simple.CapitalizeAlphaContents | simple_test.py:54 | exactly the alphabetic words appear, capitalised |
| Simple.FirstWords | simple_test.py:53 | `split()[:4]`: the first four words, or all of them when there are fewer |
| Simple.FallbackWords | simple_test.py:53-54 | the alphabetic words among the first four, capitalised, in order |
| Simple.FallbackWordsContents | simple_test.py:53-54 | the fallback words are exactly the alphabetic words among the first four, capitalised |
| Simple.SimpleHeading | simple_test.py:38-54 | keywords present: the top keywords joined, non-empty; otherwise the fallback words joined |
| Simple.NatToString | simple_test.py:86 | the decimal digits of the number, without leading zeros |
| Simple.SimpleSection | simple_test.py:83-88 | the heading, or `Section <i>` when it is empty; never an empty heading and never metadata |
| Simple.SimpleSections | simple_test.py:82-88 | one section per paragraph, in order, holding that paragraph with no metadata; the heading is the paragraph's own, or `Section k` counting from 1 when that is empty |
| Simple.SimpleDocument | simple_test.py:70-114 | the document starts with the simple header and is the layout of the segmented, cleaned text, which never fails |
| Formatter.BreakPeriodsOnlyInserts | sentence_formatter.py:28 | step 1 only inserts line breaks: the input is a subsequence of the output, and deleting line breaks from both gives the same text |
| Formatter.BreakPeriodsKeeps | sentence_formatter.py:28 | every character of the input survives step 1, in order |
| Formatter.BreakPeriodsSettles | sentence_formatter.py:28 | after step 1, every period is followed by a line end, maybe after whitespace |
| Formatter.BreakPeriodsFixpoint | sentence_formatter.py:28 | text where every period already ends its line is unchanged |
| Formatter.BreakPeriodsIdempotent | sentence_formatter.py:28 | step 1 twice is step 1 once |
| Formatter.ScanLines | sentence_formatter.py:32 | step 2 removes one leading space from every line after the first |
| Formatter.ScanSplitLines | sentence_formatter.py:32-36 | the lines after step 2 are the lines before it, each after the first losing one leading space |
| Formatter.LastNonBlank | sentence_formatter.py:50-55 | a line found by the backwards search is non-empty |
| Formatter.LastNonBlankSnoc | sentence_formatter.py:50-55 | appending a blank line leaves the last non-blank line unchanged; appending another line makes it that line, stripped |
| Formatter.DedupLines | sentence_formatter.py:36-61 | exactly the surviving lines in order, no more than the input, and no line repeats the previous non-blank one |
| Formatter.DedupLinesMatchesMask | sentence_formatter.py:39-61 | the loop equals selecting the surviving positions |
| Formatter.DedupLinesNoRepeats | sentence_formatter.py:48-61 | the loop never appends a repeat of the last non-blank line |
| Formatter.FormatSentences | sentence_formatter.py:13-63 | the output lines are the surviving scanned lines, no more of them, with no consecutive repeat |
| Formatter.ScannedLinesOfText | sentence_formatter.py:28-36 | the scanned lines come from the period-broken text, which keeps the input's non-break characters and has every period settled |

## Left out

- Sentence tokenizer, embeddings, cosine similarity, KMeans, spaCy and the text generator are outside services. They are parameters; their own behaviour and model loading are not modelled.
- Similarity scores are integers in basis points. Floating-point rounding near 0.85 is not modelled.
- Speaker diarization (`process_with_audio_diarization`, the `pyannote` path) is not modelled. Sections carry optional speaker and time fields only so the layout can be stated.
- `Layout.Metadata`: times are taken as already formatted strings. The `:.1f` float formatting is not modelled.
- File reading and writing, `os.makedirs`, `subprocess` calls to `yt-dlp`, argument parsing, console output and the catch-all `except` that prints and returns `None` are I/O and not modelled.
- `urlparse` is not modelled. `FileName.SanitizeFilename` takes the netloc, path and query that it would produce.
- `os.path.splitext` is modelled for POSIX paths only, with `/` as the only separator.
- Characters are ASCII. Unicode case mapping, Unicode whitespace and Unicode `\w` are not modelled.
- `Vtt.RemoveEntities`: stated by character counts and the no-`&` case, not as the exact output, because the scan's left-to-right restarts have no short closed form.
- `Text.Replace`: in general only the no-occurrence case is stated. Replacing one character by another is stated exactly (`Text.ReplaceChar`), which covers the dot replacement in the domain name. The removal of `www.` keeps the general contract; no property here depends on its exact result.
- `Text.Words`: only the shape of each word is stated, not that the words rebuild the input.
- `Segmenter.Segment`: a label vector that is not one label in `[0, k)` per sentence gives `InvalidLabels`, an error the source never reaches because KMeans never returns such a vector; what KMeans does choose is not modelled.
- Idempotence of the whole advanced cleaner is not stated. It re-runs the tokenizer and the similarity service on the cleaned text, and those are parameters. It is proved for the exact-duplicate pass (`Dedup.DedupIdempotent`) and for the simple cleaner (`Simple.SimpleCleanIdempotent`).

=== FILE: cleaner.dfy ===
/**
  `clean_repetitive_text` (advanced_processor.py): the sentence tokenizer's
  output goes through the exact-duplicate pass, then a greedy
  near-duplicate filter, and the survivors are joined by single spaces.

  The tokenizer and the embedding model are not modelled: the sentences
  arrive as a list, and the cosine similarity of two sentences' embeddings
  arrives as a function `score` on an integer scale where 10000 stands for a
  similarity of 1.0, so the threshold 0.85 is 8500.
 */
module Cleaner {
  import opened Text
  import opened Seqs
  import opened Dedup

  /** The similarity 0.85 at or above which a later sentence is dropped. */
  const Threshold: int := 8500

  /** `max(similarity_matrix[i][:j])`: the highest score of `u[i]` against `u[0..j)`. */
  function MaxEarlierScore(u: seq<String>, score: (String, String) -> int, i: nat, j: nat): (m: int)
    requires 0 < j <= i < |u|
    ensures forall l :: 0 <= l < j ==> score(u[i], u[l]) <= m
    ensures exists l :: 0 <= l < j && score(u[i], u[l]) == m
    decreases j
  {
    if j == 1 then score(u[i], u[0])
    else
      var m := MaxEarlierScore(u, score, i, j - 1);
      var s := score(u[i], u[j - 1]);
      if s > m then s else m
  }

  /** The loop over `i` in `range(1, len(unique_sentences))`, with the kept list so far. */
  function NearFrom(u: seq<String>, score: (String, String) -> int, i: nat, acc: seq<String>): seq<String>
    requires 1 <= i <= |u|
    decreases |u| - i
  {
    if i == |u| then acc
    else if MaxEarlierScore(u, score, i, i) < Threshold then NearFrom(u, score, i + 1, acc + [u[i]])
    else NearFrom(u, score, i + 1, acc)
  }

  /**
    Sentence `i` scores below the threshold against EVERY earlier sentence,
    including earlier sentences the filter itself dropped.
   */
  predicate FarFromEarlier(u: seq<String>, score: (String, String) -> int, i: nat)
    requires i < |u|
  {
    forall j :: 0 <= j < i ==> score(u[i], u[j]) < Threshold
  }

  function NearMask(u: seq<String>, score: (String, String) -> int): (m: seq<bool>)
    ensures |m| == |u|
    ensures forall i :: 0 <= i < |u| ==> m[i] == FarFromEarlier(u, score, i)
  {
    seq(|u|, i requires 0 <= i < |u| => FarFromEarlier(u, score, i))
  }

  /**
    The near-duplicate pass: exactly the sentences that score below 0.85
    against every earlier one survive, in order; the first sentence always
    survives.
   */
  function NearDedup(u: seq<String>, score: (String, String) -> int): (r: seq<String>)
    ensures r == Filtered(u, NearMask(u, score))
    ensures IsSubseq(r, u)
    ensures |u| > 0 ==> |r| > 0 && r[0] == u[0]
  {
    var mask := NearMask(u, score);
    FilteredIsSubseq(u, mask);
    if |u| > 1 then
      assert u[..1] == [u[0]] && mask[..1] == [true];
      assert Filtered(u[..1], mask[..1]) == [u[0]];
      NearFromMatchesMask(u, score, 1, [u[0]]);
      assert Filtered(u, mask) == [u[0]] + Filtered(u[1..], mask[1..]);
      NearFrom(u, score, 1, [u[0]])
    else
      assert |u| == 1 ==> Filtered(u, mask) == [u[0]] by {
        if |u| == 1 { assert u[1..] == []; }
      }
      u
  }

  /** The loop keeps exactly the sentences far from every earlier one. */
  lemma {:induction false} NearFromMatchesMask(u: seq<String>, score: (String, String) -> int, i: nat, acc: seq<String>)
    requires 1 <= i <= |u|
    requires acc == Filtered(u[..i], NearMask(u, score)[..i])
    ensures NearFrom(u, score, i, acc) == Filtered(u, NearMask(u, score))
    decreases |u| - i
  {
    var mask := NearMask(u, score);
    if i == |u| {
      assert u[..i] == u && mask[..i] == mask;
    } else {
      var keep := MaxEarlierScore(u, score, i, i) < Threshold;
      assert keep == mask[i] by {
        MaxBelowIffAllBelow(u, score, i);
      }
      FilteredPrefixStep(u, mask, i);
      NearFromMatchesMask(u, score, i + 1, if keep then acc + [u[i]] else acc);
    }
  }

  /** The maximum is below the threshold exactly when every score is. */
  lemma MaxBelowIffAllBelow(u: seq<String>, score: (String, String) -> int, i: nat)
    requires 0 < i < |u|
    ensures MaxEarlierScore(u, score, i, i) < Threshold <==> FarFromEarlier(u, score, i)
  {
    var m := MaxEarlierScore(u, score, i, i);
    var l :| 0 <= l < i && score(u[i], u[l]) == m;
  }

  /** The sentences `clean_repetitive_text` keeps, before they are joined. */
  function CleanSentences(sentences: seq<String>, score: (String, String) -> int): (r: seq<String>)
    ensures IsSubseq(r, StripAll(sentences))
    ensures Deduplicated(r, 0)
    ensures var u := DedupFirst(sentences, 0); |u| > 0 ==> |r| > 0 && r[0] == u[0]
    ensures var u := Filtered(StripAll(sentences), FirstMask(sentences, 0));
      r == Filtered(u, NearMask(u, score))
  {
    var u := DedupFirst(sentences, 0);
    var r := NearDedup(u, score);
    SubseqTrans(r, u, StripAll(sentences));
    FilteredDeduplicated(u, NearMask(u, score), 0);
    r
  }

  /** Dropping elements from a deduplicated list leaves it deduplicated. */
  lemma FilteredDeduplicated(xs: seq<String>, mask: seq<bool>, minLen: nat)
    requires |mask| == |xs|
    requires Deduplicated(xs, minLen)
    ensures Deduplicated(Filtered(xs, mask), minLen)
    ensures forall y :: y in Filtered(xs, mask) ==> y in xs
  {
    var r := Filtered(xs, mask);
    FilteredIsSubseq(xs, mask);
    SubseqIn(r, xs);
    FilteredDistinctBy(xs, mask, Key);
    forall a | 0 <= a < |r| ensures Strip(r[a]) == r[a] && |Key(r[a])| > minLen {
      assert r[a] in xs;
      var b :| 0 <= b < |xs| && xs[b] == r[a];
    }
  }

  /**
    `clean_repetitive_text`: the kept sentences joined by single spaces; the
    result is empty exactly when no sentence survives.
   */
  function Clean(sentences: seq<String>, score: (String, String) -> int): (text: String)
    ensures text == Join(CleanSentences(sentences, score), " ")
    ensures text == [] <==> CleanSentences(sentences, score) == []
    ensures var r := CleanSentences(sentences, score);
      |r| > 0 ==> StartsWith(text, r[0]) && EndsWith(text, r[|r| - 1])
  {
    var r := CleanSentences(sentences, score);
    assert |r| > 0 ==> |Join(r, " ")| > 0 && StartsWith(Join(r, " "), r[0]) && EndsWith(Join(r, " "), r[|r| - 1]) by {
      if |r| > 0 {
        assert |Key(r[0])| > 0;
        JoinStartsWithFirst(r, " ");
        JoinEndsWithLast(r, " ");
      }
    }
    Join(r, " ")
  }
}

=== FILE: dedup.dfy ===
/**
  The exact-duplicate pass shared by `clean_repetitive_text`
  (advanced_processor.py) and `simple_clean_repetitive_text` (simple_test.py):
  walk the pieces in order with a set of the keys seen so far and keep a
  piece, stripped, when its key (stripped, lower-cased) is longer than a
  minimum and not yet in the set. The advanced cleaner keeps any non-empty
  key (minimum 0); the simple one only keys longer than 10 characters.
 */
module Dedup {
  import opened Text
  import opened Seqs

  /** The keys of the pieces before position `i` that the loop records. */
  function SeenKeys(pieces: seq<String>, minLen: nat, i: nat): set<String>
    requires i <= |pieces|
  {
    set j | 0 <= j < i && |Key(pieces[j])| > minLen :: Key(pieces[j])
  }

  /** The loop body over positions `i..`, with the seen-set and the kept list so far. */
  function DedupFrom(pieces: seq<String>, minLen: nat, i: nat, seen: set<String>, acc: seq<String>): seq<String>
    requires i <= |pieces|
    decreases |pieces| - i
  {
    if i == |pieces| then acc
    else
      var k := Key(pieces[i]);
      if |k| > minLen && k !in seen then
        DedupFrom(pieces, minLen, i + 1, seen + {k}, acc + [Strip(pieces[i])])
      else
        DedupFrom(pieces, minLen, i + 1, seen, acc)
  }

  // ---------------------------------------------------------------------
  // An independent description of what the loop keeps

  /** Position `i` holds the first piece with its key, and the key is long enough. */
  predicate FirstOccurrence(pieces: seq<String>, minLen: nat, i: nat)
    requires i < |pieces|
  {
    |Key(pieces[i])| > minLen && forall j :: 0 <= j < i ==> Key(pieces[j]) != Key(pieces[i])
  }

  function FirstMask(pieces: seq<String>, minLen: nat): (m: seq<bool>)
    ensures |m| == |pieces|
    ensures forall i :: 0 <= i < |pieces| ==> m[i] == FirstOccurrence(pieces, minLen, i)
  {
    seq(|pieces|, i requires 0 <= i < |pieces| => FirstOccurrence(pieces, minLen, i))
  }

  function StripAll(pieces: seq<String>): (r: seq<String>)
    ensures |r| == |pieces|
    ensures forall i :: 0 <= i < |pieces| ==> r[i] == Strip(pieces[i])
  {
    seq(|pieces|, i requires 0 <= i < |pieces| => Strip(pieces[i]))
  }

  /** Every element is stripped and its key is longer than the minimum. */
  predicate AllKept(xs: seq<String>, minLen: nat)
  {
    forall a :: 0 <= a < |xs| ==> Strip(xs[a]) == xs[a] && |Key(xs[a])| > minLen
  }

  /** No two elements share a key. */
  predicate DistinctKeys(xs: seq<String>)
  {
    DistinctBy(xs, Key)
  }

  /** A list the pass leaves alone: stripped pieces with long, pairwise different keys. */
  predicate Deduplicated(xs: seq<String>, minLen: nat)
  {
    AllKept(xs, minLen) && DistinctKeys(xs)
  }

  /**
    The pass: the stripped pieces whose key is long enough and seen for the
    first time, in their original order.
   */
  function DedupFirst(pieces: seq<String>, minLen: nat): (r: seq<String>)
    ensures r == Filtered(StripAll(pieces), FirstMask(pieces, minLen))
    ensures IsSubseq(r, StripAll(pieces))
    ensures Deduplicated(r, minLen)
  {
    DedupFromMatchesMask(pieces, minLen, 0, {}, []);
    DedupFromDeduplicated(pieces, minLen, 0, {}, []);
    FilteredIsSubseq(StripAll(pieces), FirstMask(pieces, minLen));
    DedupFrom(pieces, minLen, 0, {}, [])
  }

  lemma SeenStep(pieces: seq<String>, minLen: nat, i: nat)
    requires i < |pieces|
    ensures SeenKeys(pieces, minLen, i + 1)
         == SeenKeys(pieces, minLen, i) + (if |Key(pieces[i])| > minLen then {Key(pieces[i])} else {})
  {
  }

  /** The loop's test at position `i` is the first-occurrence condition. */
  lemma KeepIsFirstOccurrence(pieces: seq<String>, minLen: nat, i: nat)
    requires i < |pieces|
    ensures (|Key(pieces[i])| > minLen && Key(pieces[i]) !in SeenKeys(pieces, minLen, i))
         == FirstOccurrence(pieces, minLen, i)
  {
    var k := Key(pieces[i]);
    if |k| > minLen {
      assert k in SeenKeys(pieces, minLen, i) <==> exists j :: 0 <= j < i && Key(pieces[j]) == k;
    }
  }

  /** The seen-set loop keeps exactly the first occurrences. */
  lemma {:induction false} DedupFromMatchesMask(pieces: seq<String>, minLen: nat, i: nat, seen: set<String>, acc: seq<String>)
    requires i <= |pieces|
    requires seen == SeenKeys(pieces, minLen, i)
    requires acc == Filtered(StripAll(pieces)[..i], FirstMask(pieces, minLen)[..i])
    ensures DedupFrom(pieces, minLen, i, seen, acc) == Filtered(StripAll(pieces), FirstMask(pieces, minLen))
    decreases |pieces| - i
  {
    var xs, mask := StripAll(pieces), FirstMask(pieces, minLen);
    if i == |pieces| {
      assert xs[..i] == xs && mask[..i] == mask;
    } else {
      var k := Key(pieces[i]);
      var keep := |k| > minLen && k !in seen;
      var seen' := if keep then seen + {k} else seen;
      var acc' := if keep then acc + [Strip(pieces[i])] else acc;
      MatchesMaskStep(pieces, minLen, i, seen, acc);
      assert DedupFrom(pieces, minLen, i, seen, acc) == DedupFrom(pieces, minLen, i + 1, seen', acc');
      DedupFromMatchesMask(pieces, minLen, i + 1, seen', acc');
    }
  }

  /** One iteration of the loop keeps the correspondence with the first-occurrence mask. */
  lemma MatchesMaskStep(pieces: seq<String>, minLen: nat, i: nat, seen: set<String>, acc: seq<String>)
    requires i < |pieces|
    requires seen == SeenKeys(pieces, minLen, i)
    requires acc == Filtered(StripAll(pieces)[..i], FirstMask(pieces, minLen)[..i])
    ensures var k := Key(pieces[i]);
            var keep := |k| > minLen && k !in seen;
            && (if keep then seen + {k} else seen) == SeenKeys(pieces, minLen, i + 1)
            && (if keep then acc + [Strip(pieces[i])] else acc)
               == Filtered(StripAll(pieces)[..i + 1], FirstMask(pieces, minLen)[..i + 1])
  {
    SeenStep(pieces, minLen, i);
    KeptStep(pieces, minLen, i, seen, acc);
  }

  lemma KeptStep(pieces: seq<String>, minLen: nat, i: nat, seen: set<String>, acc: seq<String>)
    requires i < |pieces|
    requires seen == SeenKeys(pieces, minLen, i)
    requires acc == Filtered(StripAll(pieces)[..i], FirstMask(pieces, minLen)[..i])
    ensures var k := Key(pieces[i]);
            (if |k| > minLen && k !in seen then acc + [Strip(pieces[i])] else acc)
            == Filtered(StripAll(pieces)[..i + 1], FirstMask(pieces, minLen)[..i + 1])
  {
    var xs, mask := StripAll(pieces), FirstMask(pieces, minLen);
    KeepIsFirstOccurrence(pieces, minLen, i);
    FilteredPrefixStep(xs, mask, i);
  }

  lemma AppendDeduplicated(acc: seq<String>, x: String, seen: set<String>, minLen: nat)
    requires Deduplicated(acc, minLen)
    requires forall a :: 0 <= a < |acc| ==> Key(acc[a]) in seen
    requires Key(x) !in seen && Strip(x) == x && |Key(x)| > minLen
    ensures Deduplicated(acc + [x], minLen)
  {
    var r := acc + [x];
    assert AllKept(r, minLen) by {
      forall a | 0 <= a < |r| ensures Strip(r[a]) == r[a] && |Key(r[a])| > minLen {
        if a < |acc| {
          assert r[a] == acc[a];
        }
      }
    }
    DistinctByAppend(acc, x, Key, seen);
  }

  lemma PrependDeduplicated(x: String, rest: seq<String>, minLen: nat)
    requires Deduplicated(rest, minLen)
    requires Strip(x) == x && |Key(x)| > minLen
    requires forall y :: y in rest ==> Key(x) != Key(y)
    ensures Deduplicated([x] + rest, minLen)
  {
    PrependKept(x, rest, minLen);
    DistinctByPrepend(x, rest, Key);
  }

  lemma PrependKept(x: String, rest: seq<String>, minLen: nat)
    requires AllKept(rest, minLen)
    requires Strip(x) == x && |Key(x)| > minLen
    ensures AllKept([x] + rest, minLen)
  {
    var r := [x] + rest;
    forall a | 0 <= a < |r| ensures Strip(r[a]) == r[a] && |Key(r[a])| > minLen {
      if a > 0 {
        assert r[a] == rest[a - 1];
      }
    }
  }

  /** What the loop keeps is stripped, long enough and free of repeated keys. */
  lemma {:induction false} DedupFromDeduplicated(pieces: seq<String>, minLen: nat, i: nat, seen: set<String>, acc: seq<String>)
    requires i <= |pieces|
    requires Deduplicated(acc, minLen)
    requires forall a :: 0 <= a < |acc| ==> Key(acc[a]) in seen
    ensures Deduplicated(DedupFrom(pieces, minLen, i, seen, acc), minLen)
    decreases |pieces| - i
  {
    if i < |pieces| {
      var k := Key(pieces[i]);
      if |k| > minLen && k !in seen {
        var x := Strip(pieces[i]);
        KeyOfStripped(pieces[i]);
        AppendDeduplicated(acc, x, seen, minLen);
        var acc' := acc + [x];
        assert forall a :: 0 <= a < |acc'| ==> Key(acc'[a]) in seen + {k} by {
          assert forall a :: 0 <= a < |acc| ==> acc'[a] == acc[a];
        }
        DedupFromDeduplicated(pieces, minLen, i + 1, seen + {k}, acc');
      } else {
        DedupFromDeduplicated(pieces, minLen, i + 1, seen, acc);
      }
    }
  }

  /** A list that is already deduplicated passes through unchanged. */
  lemma {:induction false} DedupFromFixpoint(xs: seq<String>, minLen: nat, i: nat, seen: set<String>)
    requires Deduplicated(xs, minLen)
    requires i <= |xs|
    requires seen == set j | 0 <= j < i :: Key(xs[j])
    ensures DedupFrom(xs, minLen, i, seen, xs[..i]) == xs
    decreases |xs| - i
  {
    if i == |xs| {
      assert xs[..i] == xs;
    } else {
      var k := Key(xs[i]);
      assert k !in seen;
      KeyOfStripped(xs[i]);
      assert xs[..i] + [Strip(xs[i])] == xs[..i + 1];
      assert seen + {k} == set j | 0 <= j < i + 1 :: Key(xs[j]);
      DedupFromFixpoint(xs, minLen, i + 1, seen + {k});
    }
  }

  /** Running the pass on its own output changes nothing. */
  lemma DedupIdempotent(xs: seq<String>, minLen: nat)
    requires Deduplicated(xs, minLen)
    ensures DedupFirst(xs, minLen) == xs
  {
    assert xs[..0] == [];
    DedupFromFixpoint(xs, minLen, 0, {});
  }
}

=== FILE: filename.dfy ===
/**
  `sanitize_filename` (download_transcript.py): the base name of the
  transcript file for a video URL. The URL arrives already split into its
  network location, path and query, the parts `urlparse` returns.
 */
module FileName {
  import opened Outcome
  import opened Seqs
  import opened Text

  const Prefix: String := "transcript_"
  /** The generic branch cuts the name to this many characters. */
  const MaxName: nat := 50

  predicate IsYouTube(netloc: String)
  {
    Contains(netloc, "youtube.com") || Contains(netloc, "youtu.be")
  }

  /** A string containing the separator splits into at least two pieces. */
  lemma SplitAtLeastTwo(s: String, sep: String)
    requires |sep| > 0 && Contains(s, sep)
    ensures |Split(s, sep)| >= 2
  {
    assert Join(Split(s, sep), sep) == s;
  }

  /** `param.split('=')` fails to give a key and a value. */
  predicate Malformed(param: String)
  {
    Contains(param, "=") && |Split(param, "=")| > 2
  }

  /** Parameter `i` is a `key=value` pair for `key`. */
  predicate KeyAt(params: seq<String>, i: nat, key: String)
    requires i < |params|
  {
    Contains(params[i], "=") && Split(params[i], "=")[0] == key
  }

  /** Parameter `i` is the last pair for `key`, the one the dictionary keeps. */
  predicate LastKeyAt(params: seq<String>, i: nat, key: String)
    requires i < |params|
  {
    KeyAt(params, i, key) && forall j :: i < j < |params| ==> !KeyAt(params, j, key)
  }

  /**
    `dict(...).get(key, '')` over the `key=value` parameters: the value of
    the last parameter with that key, or empty when none has it.
   */
  function LastValue(params: seq<String>, key: String): String
    requires forall i :: 0 <= i < |params| ==> !Malformed(params[i])
    decreases |params|
  {
    if |params| == 0 then []
    else
      var p := params[|params| - 1];
      var earlier := LastValue(params[..|params| - 1], key);
      assert forall i :: 0 <= i < |params| - 1 ==> params[..|params| - 1][i] == params[i];
      if Contains(p, "=") then
        SplitAtLeastTwo(p, "=");
        var kv := Split(p, "=");
        assert !Malformed(params[|params| - 1]);
        assert kv == [kv[0], kv[1]];
        if kv[0] == key then kv[1] else earlier
      else earlier
  }

  /** The dictionary keeps the value of the last pair for the key, and has none without one. */
  lemma LastValueIsLast(params: seq<String>, key: String)
    requires forall i :: 0 <= i < |params| ==> !Malformed(params[i])
    ensures (forall i :: 0 <= i < |params| ==> !KeyAt(params, i, key)) ==> LastValue(params, key) == []
    ensures forall i :: 0 <= i < |params| && LastKeyAt(params, i, key) ==>
              Split(params[i], "=") == [key, LastValue(params, key)]
  {
    forall i | 0 <= i < |params| && LastKeyAt(params, i, key)
      ensures Split(params[i], "=") == [key, LastValue(params, key)]
    {
      LastPairValue(params, key, i);
    }
    if forall i :: 0 <= i < |params| ==> !KeyAt(params, i, key) {
      NoPairNoValue(params, key);
    }
  }

  /** The last pair for the key carries the value the dictionary keeps. */
  lemma {:induction false} LastPairValue(params: seq<String>, key: String, i: nat)
    requires forall j :: 0 <= j < |params| ==> !Malformed(params[j])
    requires i < |params| && LastKeyAt(params, i, key)
    ensures Split(params[i], "=") == [key, LastValue(params, key)]
    decreases |params|
  {
    var n := |params|;
    LastValueStep(params, key);
    if i < n - 1 {
      var pre := params[..n - 1];
      EarlierLastKey(params, key, i);
      assert forall j :: 0 <= j < |pre| ==> !Malformed(pre[j]) by { KeyAtPrefix(params, key); }
      LastPairValue(pre, key, i);
      assert pre[i] == params[i];
    }
  }

  /** Without a pair for the key the dictionary gives the empty default. */
  lemma {:induction false} NoPairNoValue(params: seq<String>, key: String)
    requires forall i :: 0 <= i < |params| ==> !Malformed(params[i])
    requires forall i :: 0 <= i < |params| ==> !KeyAt(params, i, key)
    ensures LastValue(params, key) == []
    decreases |params|
  {
    if |params| > 0 {
      var pre := params[..|params| - 1];
      LastValueStep(params, key);
      KeyAtPrefix(params, key);
      NoPairNoValue(pre, key);
    }
  }

  /** An earlier last pair means the final parameter is not a pair for the key, and the pair stays last without it. */
  lemma EarlierLastKey(params: seq<String>, key: String, i: nat)
    requires i < |params| - 1 && LastKeyAt(params, i, key)
    ensures !KeyAt(params, |params| - 1, key)
    ensures LastKeyAt(params[..|params| - 1], i, key)
  {
    KeyAtPrefix(params, key);
  }

  /** Dropping the last parameter leaves the earlier ones as they were. */
  lemma KeyAtPrefix(params: seq<String>, key: String)
    requires |params| > 0
    ensures var pre := params[..|params| - 1];
      forall i :: 0 <= i < |pre| ==> pre[i] == params[i] && (KeyAt(pre, i, key) <==> KeyAt(params, i, key))
  {
  }

  /** The last parameter decides the value when it is a pair for the key; otherwise the earlier ones do. */
  lemma LastValueStep(params: seq<String>, key: String)
    requires |params| > 0
    requires forall i :: 0 <= i < |params| ==> !Malformed(params[i])
    ensures var n := |params|;
      if KeyAt(params, n - 1, key) then Split(params[n - 1], "=") == [key, LastValue(params, key)]
      else LastValue(params, key) == LastValue(params[..n - 1], key)
  {
    var p := params[|params| - 1];
    if Contains(p, "=") {
      SplitAtLeastTwo(p, "=");
      var kv := Split(p, "=");
      assert !Malformed(p);
      assert kv == [kv[0], kv[1]];
    }
  }

  predicate AnyMalformed(params: seq<String>)
  {
    exists i :: 0 <= i < |params| && Malformed(params[i])
  }

  /**
    The `v` parameter of the query. Building the dictionary raises when a
    parameter has more than one `=`.
   */
  function VideoParam(query: String): (r: Result<String>)
    ensures r.Err? <==> AnyMalformed(Split(query, "&"))
    ensures r.Err? ==> r.error == MalformedQuery
    ensures r.Ok? ==> r.value == LastValue(Split(query, "&"), "v")
  {
    var params := Split(query, "&");
    if AnyMalformed(params) then Err(MalformedQuery)
    else Ok(LastValue(params, "v"))
  }

  /** The video id: the short link's path without its leading slashes, or the `v` parameter. */
  function VideoId(netloc: String, path: String, query: String): (r: Result<String>)
    requires IsYouTube(netloc)
    ensures Contains(netloc, "youtu.be") ==> r == Ok(TrimLeft(path, Slashes))
    ensures !Contains(netloc, "youtu.be") ==> r == VideoParam(query)
    ensures r.Err? ==> r.error == MalformedQuery
  {
    if Contains(netloc, "youtu.be") then Ok(TrimLeft(path, Slashes))
    else VideoParam(query)
  }

  /**
    `video_id.split('&')[0].split('?')[0]`: the id up to its first `&` or
    `?`, that is, its longest prefix without either character.
   */
  function CutId(id: String): (c: String)
    ensures StartsWith(id, c)
    ensures '&' !in c && '?' !in c
    ensures |c| == |id| || id[|c|] == '&' || id[|c|] == '?'
  {
    var a := Split(id, "&")[0];
    var b := Split(a, "?")[0];
    FirstPiece(id, '&');
    FirstPiece(a, '?');
    b
  }

  /** The first piece of a split on one character runs up to its first occurrence or to the end. */
  lemma FirstPiece(s: String, c: char)
    ensures var a := Split(s, [c])[0];
      StartsWith(s, a) && c !in a && (|a| == |s| || s[|a|] == c)
  {
    var parts := Split(s, [c]);
    JoinStartsWithFirst(parts, [c]);
    NoCharInPiece(parts[0], c);
    if |parts| > 1 {
      assert s == parts[0] + [c] + Join(parts[1..], [c]);
    }
  }

  /** A string that does not contain the one-character string `[c]` has no `c`. */
  lemma NoCharInPiece(s: String, c: char)
    requires !Contains(s, [c])
    ensures c !in s
  {
    forall i | 0 <= i < |s| ensures s[i] != c {
      assert !OccursAt(s, [c], i);
      assert s[i..i + 1] == [s[i]];
    }
  }

  /** A character `re.sub(r'[^\w\-_]', '_', ...)` leaves alone. */
  predicate SafeChar(c: char)
  {
    IsWordChar(c) || c == '-'
  }

  /** Every character outside letters, digits, `_` and `-` becomes `_`. */
  function Sanitize(s: String): (r: String)
    ensures |r| == |s|
    ensures forall i :: 0 <= i < |s| ==> SafeChar(r[i]) && (SafeChar(s[i]) ==> r[i] == s[i])
    ensures forall i :: 0 <= i < |s| && !SafeChar(s[i]) ==> r[i] == '_'
  {
    seq(|s|, i requires 0 <= i < |s| => if SafeChar(s[i]) then s[i] else '_')
  }

  lemma SanitizeIdempotent(s: String)
    ensures Sanitize(Sanitize(s)) == Sanitize(s)
  {
  }

  /** Which of the parts are non-empty. */
  function NonEmptyMask(parts: seq<String>): (mask: seq<bool>)
    ensures |mask| == |parts|
    ensures forall i :: 0 <= i < |parts| ==> mask[i] == (parts[i] != [])
  {
    seq(|parts|, i requires 0 <= i < |parts| => parts[i] != [])
  }

  /** `[p for p in parts if p]`: the non-empty parts, in order. */
  function NonEmpty(parts: seq<String>): (r: seq<String>)
    ensures r == Filtered(parts, NonEmptyMask(parts))
    ensures forall i :: 0 <= i < |r| ==> |r[i]| > 0
  {
    if |parts| == 0 then []
    else
      assert NonEmptyMask(parts)[1..] == NonEmptyMask(parts[1..]);
      if parts[0] == [] then NonEmpty(parts[1..])
      else [parts[0]] + NonEmpty(parts[1..])
  }

  /** Every kept part is one of the parts. */
  lemma NonEmptyFrom(parts: seq<String>)
    ensures forall p :: p in NonEmpty(parts) ==> p in parts
  {
    FilteredIsSubseq(parts, NonEmptyMask(parts));
    SubseqIn(NonEmpty(parts), parts);
  }

  /** Part `j` is non-empty and every part after it is empty. */
  predicate LastNonEmptyAt(parts: seq<String>, j: nat)
  {
    j < |parts| && parts[j] != [] && forall k :: j < k < |parts| ==> parts[k] == []
  }

  /** Nothing is kept exactly when every part is empty. */
  lemma NonEmptyNone(parts: seq<String>)
    ensures NonEmpty(parts) == [] <==> forall j :: 0 <= j < |parts| ==> parts[j] == []
  {
    FilteredNone(parts, NonEmptyMask(parts));
  }

  /** When something is kept, the last kept part is the last non-empty one. */
  lemma NonEmptyLast(parts: seq<String>)
    requires NonEmpty(parts) != []
    ensures exists j: nat :: LastNonEmptyAt(parts, j) && NonEmpty(parts)[|NonEmpty(parts)| - 1] == parts[j]
  {
    FilteredLast(parts, NonEmptyMask(parts));
    var j: nat :| LastMarkedAt(NonEmptyMask(parts), j) && j < |parts| && NonEmpty(parts)[|NonEmpty(parts)| - 1] == parts[j];
    assert LastNonEmptyAt(parts, j);
  }

  /** The non-empty segments of the path between its slashes, in order. */
  function PathParts(path: String): (parts: seq<String>)
    ensures parts == Filtered(Split(path, "/"), NonEmptyMask(Split(path, "/")))
    ensures forall i :: 0 <= i < |parts| ==> |parts[i]| > 0 && !Contains(parts[i], "/")
  {
    var segments := Split(path, "/");
    var parts := NonEmpty(segments);
    NonEmptyFrom(segments);
    forall i | 0 <= i < |parts| ensures !Contains(parts[i], "/") {
      assert parts[i] in segments;
    }
    parts
  }

  /** The domain part: `netloc.replace('www.', '').replace('.', '_')`. */
  function Domain(netloc: String): (d: String)
    ensures d == MapChar(Replace(netloc, "www.", ""), '.', '_')
  {
    ReplaceChar(Replace(netloc, "www.", ""), '.', '_');
    Replace(Replace(netloc, "www.", ""), ".", "_")
  }

  /** `_` and the last non-empty path segment, or nothing when the path has none. */
  function LastSegment(path: String): String
  {
    var parts := PathParts(path);
    if |parts| > 0 then "_" + parts[|parts| - 1] else []
  }

  /** Sanitising works character by character, so it distributes over concatenation. */
  lemma SanitizeAppend(a: String, b: String)
    ensures Sanitize(a + b) == Sanitize(a) + Sanitize(b)
  {
  }

  /**
    The generic name before the cut: `transcript_`, the domain without any
    `www.` and with dots turned into `_`, then `_` and the last non-empty
    path segment, each part sanitised on its own.
   */
  function GenericFull(netloc: String, path: String): String
  {
    Prefix + Sanitize(Domain(netloc)) + Sanitize(LastSegment(path))
  }

  /** Sanitising the joined name sanitises each part. */
  lemma GenericClean(netloc: String, path: String)
    ensures Sanitize(Prefix + Domain(netloc) + LastSegment(path)) == GenericFull(netloc, path)
    ensures StartsWith(GenericFull(netloc, path), Prefix)
  {
    var domain := Domain(netloc);
    var tail := LastSegment(path);
    SanitizeAppend(Prefix + domain, tail);
    SanitizeAppend(Prefix, domain);
    assert Sanitize(Prefix) == Prefix;
  }

  /**
    The name for a URL that is not a YouTube video: the sanitised
    `transcript_{domain}_{last part}`, cut to 50 characters.
   */
  function GenericName(netloc: String, path: String): (name: String)
    ensures StartsWith(name, Prefix)
    ensures |name| <= MaxName
    ensures forall i :: 0 <= i < |name| ==> SafeChar(name[i])
    ensures |name| == if |GenericFull(netloc, path)| <= MaxName then |GenericFull(netloc, path)| else MaxName
    ensures StartsWith(GenericFull(netloc, path), name)
  {
    var clean := Sanitize(Prefix + Domain(netloc) + LastSegment(path));
    assert clean == GenericFull(netloc, path) && StartsWith(clean, Prefix) by {
      GenericClean(netloc, path);
    }
    if |clean| <= MaxName then clean else clean[..MaxName]
  }

  /**
    `sanitize_filename(url)`: for a YouTube URL with a non-empty video id,
    `transcript_` and the id up to its first `&` or `?` (neither sanitised
    nor shortened); otherwise the generic name. A malformed query on a
    youtube.com URL raises.
   */
  function SanitizeFilename(netloc: String, path: String, query: String): (r: Result<String>)
    ensures r.Ok? ==> StartsWith(r.value, Prefix)
    ensures r.Err? <==> IsYouTube(netloc) && VideoId(netloc, path, query).Err?
    ensures !IsYouTube(netloc) ==> r == Ok(GenericName(netloc, path))
    ensures IsYouTube(netloc) && VideoId(netloc, path, query).Ok? ==>
      var id := VideoId(netloc, path, query).value;
      if id != [] then r == Ok(Prefix + CutId(id)) else r == Ok(GenericName(netloc, path))
  {
    if IsYouTube(netloc) then
      match VideoId(netloc, path, query)
      case Err(e) => Err(e)
      case Ok(id) =>
        if id != [] then Ok(Prefix + CutId(id)) else Ok(GenericName(netloc, path))
    else Ok(GenericName(netloc, path))
  }
}

=== FILE: formatter.dfy ===
/**
  `format_sentences` (sentence_formatter.py): a line break after every
  period that does not already end its line, one space removed after each
  line break, and a line dropped when its stripped text repeats the last
  non-blank line kept.
 */
module Formatter {
  import opened Outcome
  import opened Seqs
  import opened Text

  // ---------------------------------------------------------------------
  // Step 1: a line break after every period that does not end its line

  /**
    The text after a period already ends the period's line: the whitespace
    run that follows reaches a line feed, or reaches the end of the text.
    The pattern's two lookaheads reject exactly these periods: `\s*\n`
    finds the line feed, and `\s*$` finds the end (or a line feed before
    the end, which the first lookahead finds anyway).
   */
  predicate Settled(t: String)
  {
    |t| == 0 || t[0] == '\n' || (IsSpace(t[0]) && Settled(t[1..]))
  }

  /** `re.sub(r'\.(?!\s*$)(?!\s*\n)', '.\n', text)` */
  function BreakPeriods(s: String): String
  {
    if |s| == 0 then []
    else if s[0] == '.' && !Settled(s[1..]) then ".\n" + BreakPeriods(s[1..])
    else [s[0]] + BreakPeriods(s[1..])
  }

  /** The text with every line feed deleted. */
  function NoBreaks(s: String): (r: String)
    ensures '\n' !in r
  {
    if |s| == 0 then []
    else (if s[0] == '\n' then [] else [s[0]]) + NoBreaks(s[1..])
  }

  /** Every period ends its line. */
  predicate AllSettled(s: String)
  {
    forall i :: 0 <= i < |s| && s[i] == '.' ==> Settled(s[i + 1..])
  }

  /** The substitution only inserts line feeds: deleting them gives the same text as deleting them from the input. */
  lemma {:induction false} BreakPeriodsOnlyInserts(s: String)
    ensures NoBreaks(BreakPeriods(s)) == NoBreaks(s)
    ensures IsSubseq(s, BreakPeriods(s))
    ensures |BreakPeriods(s)| >= |s|
    decreases |s|
  {
    BreakPeriodsKeeps(s);
    if |s| > 0 {
      BreakPeriodsOnlyInserts(s[1..]);
      var rest := BreakPeriods(s[1..]);
      var head := if s[0] == '\n' then [] else [s[0]];
      assert NoBreaks(s) == head + NoBreaks(s[1..]);
      if s[0] == '.' && !Settled(s[1..]) {
        var r := ".\n" + rest;
        assert r[0] == '.' && r[1..] == "\n" + rest;
        assert NoBreaks(r) == "." + NoBreaks("\n" + rest);
        assert ("\n" + rest)[1..] == rest;
        assert NoBreaks("\n" + rest) == NoBreaks(rest);
      } else {
        var r := [s[0]] + rest;
        assert r[0] == s[0] && r[1..] == rest;
        assert NoBreaks(r) == head + NoBreaks(rest);
      }
    }
  }

  /** The substitution only inserts: the input is a subsequence of its output. */
  lemma {:induction false} BreakPeriodsKeeps(s: String)
    ensures IsSubseq(s, BreakPeriods(s))
    decreases |s|
  {
    if |s| > 0 {
      BreakPeriodsKeeps(s[1..]);
      var rest := BreakPeriods(s[1..]);
      if s[0] == '.' && !Settled(s[1..]) {
        var r := ".\n" + rest;
        assert r[1..] == "\n" + rest && r[1..][1..] == rest;
        assert IsSubseq(s[1..], r[1..]);
      } else {
        assert ([s[0]] + rest)[1..] == rest;
      }
    }
  }

  /** The substitution neither settles nor unsettles the text it rewrites. */
  lemma {:induction false} SettledBreakPeriods(t: String)
    ensures Settled(BreakPeriods(t)) == Settled(t)
    decreases |t|
  {
    if |t| > 0 && t[0] != '\n' && IsSpace(t[0]) {
      SettledBreakPeriods(t[1..]);
      assert BreakPeriods(t)[1..] == BreakPeriods(t[1..]);
    }
  }

  /** After the substitution every period ends its line. */
  lemma {:induction false} BreakPeriodsSettles(s: String)
    ensures AllSettled(BreakPeriods(s))
    decreases |s|
  {
    if |s| > 0 {
      var rest := BreakPeriods(s[1..]);
      BreakPeriodsSettles(s[1..]);
      SettledBreakPeriods(s[1..]);
      var r := BreakPeriods(s);
      var d := |r| - |rest|;
      assert r[d..] == rest;
      forall i | 0 <= i < |r| && r[i] == '.' ensures Settled(r[i + 1..]) {
        if i >= d {
          assert r[i] == rest[i - d];
          assert r[i + 1..] == rest[i - d + 1..];
        } else if d == 2 {
          assert i == 0 && r[1..] == "\n" + rest;
        } else {
          assert i == 0 && r[1..] == rest;
        }
      }
    }
  }

  /** Text whose periods all end their lines is left alone. */
  lemma {:induction false} BreakPeriodsFixpoint(s: String)
    requires AllSettled(s)
    ensures BreakPeriods(s) == s
    decreases |s|
  {
    if |s| > 0 {
      assert AllSettled(s[1..]) by {
        forall i | 0 <= i < |s[1..]| && s[1..][i] == '.' ensures Settled(s[1..][i + 1..]) {
          assert s[i + 1] == '.' && s[1..][i + 1..] == s[i + 2..];
        }
      }
      BreakPeriodsFixpoint(s[1..]);
    }
  }

  /** Running the substitution twice is running it once. */
  lemma BreakPeriodsIdempotent(s: String)
    ensures BreakPeriods(BreakPeriods(s)) == BreakPeriods(s)
  {
    BreakPeriodsSettles(s);
    BreakPeriodsFixpoint(BreakPeriods(s));
  }

  // ---------------------------------------------------------------------
  // Step 2: one space removed after each line break

  /** `re.sub(r'\n ', '\n', text)`: a left-to-right scan that replaces each "\n " and resumes after it. */
  function DropSpaceAfterBreak(s: String): String
  {
    if |s| < 2 then s
    else if s[0] == '\n' && s[1] == ' ' then "\n" + DropSpaceAfterBreak(s[2..])
    else [s[0]] + DropSpaceAfterBreak(s[1..])
  }

  /** A line without its first character when that is a space. */
  function DropLeadingSpace(line: String): (r: String)
    ensures !Contains(line, "\n") ==> !Contains(r, "\n")
  {
    if |line| > 0 && line[0] == ' ' then
      assert line[1..|line|] == line[1..];
      ContainsSlice(line, 1, |line|, "\n");
      line[1..]
    else line
  }

  function DropLeadingSpaces(lines: seq<String>): (r: seq<String>)
    ensures |r| == |lines|
    ensures forall i :: 0 <= i < |lines| ==> r[i] == DropLeadingSpace(lines[i])
  {
    seq(|lines|, i requires 0 <= i < |lines| => DropLeadingSpace(lines[i]))
  }

  /** Text free of "\n" holds no line feed. */
  lemma NoBreakAt(s: String, i: nat)
    requires i < |s| && !Contains(s, "\n")
    ensures s[i] != '\n'
  {
    assert s[i..i + 1] == [s[i]];
    assert OccursAt(s, "\n", i) == (s[i..i + 1] == "\n");
  }

  /** Anything but a line break is copied and the scan moves on by one. */
  lemma ScanCopies(u: String)
    requires |u| > 0 && u[0] != '\n'
    ensures DropSpaceAfterBreak(u) == [u[0]] + DropSpaceAfterBreak(u[1..])
  {
    if |u| == 1 {
      assert u == [u[0]] && u[1..] == [];
    }
  }

  /** A line free of line feeds passes through the scan unchanged. */
  lemma {:induction false} ScanPassesLine(line: String, t: String)
    requires '\n' !in line
    ensures DropSpaceAfterBreak(line + t) == line + DropSpaceAfterBreak(t)
    decreases |line|
  {
    if |line| == 0 {
      assert line + t == t;
    } else {
      var rest := line[1..];
      assert '\n' !in rest && line[0] != '\n' by {
        assert line[0] in line;
        assert forall c :: c in rest ==> c in line;
      }
      ScanPassesLine(rest, t);
      var u := line + t;
      assert u[0] == line[0] && u[1..] == rest + t;
      ScanCopies(u);
      assert line + DropSpaceAfterBreak(t) == [line[0]] + (rest + DropSpaceAfterBreak(t));
    }
  }

  /** Text free of "\n" holds no line feed. */
  lemma NoBreakIn(s: String)
    requires !Contains(s, "\n")
    ensures '\n' !in s
  {
    forall i | 0 <= i < |s| ensures s[i] != '\n' {
      NoBreakAt(s, i);
    }
  }

  /** At a line break the scan removes one following space, if there is one. */
  lemma ScanAtBreak(t: String)
    ensures DropSpaceAfterBreak("\n" + t)
         == "\n" + (if |t| > 0 && t[0] == ' ' then DropSpaceAfterBreak(t[1..]) else DropSpaceAfterBreak(t))
  {
    if |t| > 0 {
      assert ("\n" + t)[1..] == t && ("\n" + t)[2..] == t[1..];
    }
  }

  /**
    Over joined lines, the scan leaves the first line alone and takes one
    leading space off every later line.
   */
  lemma {:induction false} ScanLines(lines: seq<String>)
    requires |lines| >= 1
    requires forall i :: 0 <= i < |lines| ==> '\n' !in lines[i]
    ensures DropSpaceAfterBreak(Join(lines, "\n")) == Join([lines[0]] + DropLeadingSpaces(lines[1..]), "\n")
    decreases |lines|
  {
    var l0 := lines[0];
    if |lines| == 1 {
      ScanPassesLine(l0, []);
      assert l0 + [] == l0;
    } else {
      var rest := lines[1..];
      var j := Join(rest, "\n");
      assert Join(lines, "\n") == l0 + ("\n" + j);
      ScanPassesLine(l0, "\n" + j);
      assert DropSpaceAfterBreak("\n" + j) == "\n" + Join(DropLeadingSpaces(rest), "\n") by {
        var l1 := rest[0];
        if |l1| > 0 && l1[0] == ' ' {
          var shorter := [l1[1..]] + rest[1..];
          assert forall c :: c in l1[1..] ==> c in l1;
          ScanLines(shorter);
          ScanSpacedLine(rest, shorter);
        } else {
          ScanLines(rest);
          ScanPlainLine(rest);
        }
      }
      assert ([l0] + DropLeadingSpaces(rest))[1..] == DropLeadingSpaces(rest);
    }
  }

  /** The break before a line that starts with a space. */
  lemma ScanSpacedLine(rest: seq<String>, shorter: seq<String>)
    requires |rest| >= 1 && |rest[0]| > 0 && rest[0][0] == ' '
    requires shorter == [rest[0][1..]] + rest[1..]
    requires DropSpaceAfterBreak(Join(shorter, "\n")) == Join([shorter[0]] + DropLeadingSpaces(shorter[1..]), "\n")
    ensures DropSpaceAfterBreak("\n" + Join(rest, "\n")) == "\n" + Join(DropLeadingSpaces(rest), "\n")
  {
    var j := Join(rest, "\n");
    assert Join(shorter, "\n") == j[1..] by {
      assert shorter[1..] == rest[1..];
    }
    ScanAtBreak(j);
    assert shorter[1..] == rest[1..];
    assert DropLeadingSpaces(rest) == [shorter[0]] + DropLeadingSpaces(shorter[1..]);
  }

  /** The break before a line that does not start with a space. */
  lemma ScanPlainLine(rest: seq<String>)
    requires |rest| >= 1 && !(|rest[0]| > 0 && rest[0][0] == ' ')
    requires DropSpaceAfterBreak(Join(rest, "\n")) == Join([rest[0]] + DropLeadingSpaces(rest[1..]), "\n")
    ensures DropSpaceAfterBreak("\n" + Join(rest, "\n")) == "\n" + Join(DropLeadingSpaces(rest), "\n")
  {
    var j := Join(rest, "\n");
    assert DropSpaceAfterBreak("\n" + j) == "\n" + DropSpaceAfterBreak(j) by {
      PlainJoinStart(rest);
      ScanAtBreak(j);
    }
    assert DropLeadingSpaces(rest) == [rest[0]] + DropLeadingSpaces(rest[1..]) by {
      assert DropLeadingSpace(rest[0]) == rest[0];
    }
  }

  /** Lines joined after a first line that does not start with a space do not start with one either. */
  lemma PlainJoinStart(rest: seq<String>)
    requires |rest| >= 1 && !(|rest[0]| > 0 && rest[0][0] == ' ')
    ensures var j := Join(rest, "\n"); !(|j| > 0 && j[0] == ' ')
  {
    if |rest| > 1 {
      assert Join(rest, "\n") == rest[0] + ("\n" + Join(rest[1..], "\n"));
    }
  }

  /** `\n` cannot overlap itself. */
  lemma BreakNoSelfOverlap()
    ensures NoSelfOverlap("\n")
  {
  }

  /** The lines after the scan: the first as it was, the others less one leading space. */
  lemma ScanSplitLines(s: String)
    ensures Split(DropSpaceAfterBreak(s), "\n")
         == [Split(s, "\n")[0]] + DropLeadingSpaces(Split(s, "\n")[1..])
  {
    var lines := Split(s, "\n");
    var out := [lines[0]] + DropLeadingSpaces(lines[1..]);
    assert DropSpaceAfterBreak(s) == Join(out, "\n") by {
      forall i | 0 <= i < |lines| ensures '\n' !in lines[i] {
        NoBreakIn(lines[i]);
      }
      ScanLines(lines);
    }
    assert Split(Join(out, "\n"), "\n") == out by {
      forall i | 0 <= i < |out| ensures !Contains(out[i], "\n") {
        if i > 0 {
          assert out[i] == DropLeadingSpace(lines[i]);
        }
      }
      BreakNoSelfOverlap();
      SplitJoin(out, "\n");
    }
  }

  // ---------------------------------------------------------------------
  // Step 3: consecutive duplicate lines

  predicate Blank(line: String)
  {
    Strip(line) == []
  }

  /** The stripped text of the last non-blank line, if any. */
  function LastNonBlank(lines: seq<String>): (r: Option<String>)
    ensures r.Some? ==> r.value != []
  {
    if |lines| == 0 then None
    else if !Blank(lines[|lines| - 1]) then Some(Strip(lines[|lines| - 1]))
    else LastNonBlank(lines[..|lines| - 1])
  }

  /** The loop over lines `i..`, with the lines kept so far. */
  function DedupLinesFrom(lines: seq<String>, i: nat, acc: seq<String>): seq<String>
    requires i <= |lines|
    decreases |lines| - i
  {
    if i == |lines| then acc
    else if Blank(lines[i]) then DedupLinesFrom(lines, i + 1, acc + [lines[i]])
    else if LastNonBlank(acc) == Some(Strip(lines[i])) then DedupLinesFrom(lines, i + 1, acc)
    else DedupLinesFrom(lines, i + 1, acc + [lines[i]])
  }

  /**
    Line `i` survives: it is blank, or its stripped text differs from the
    last non-blank line before it in the input.
   */
  predicate Survives(lines: seq<String>, i: nat)
    requires i < |lines|
  {
    Blank(lines[i]) || LastNonBlank(lines[..i]) != Some(Strip(lines[i]))
  }

  function SurvivorMask(lines: seq<String>): (mask: seq<bool>)
    ensures |mask| == |lines|
    ensures forall i :: 0 <= i < |lines| ==> mask[i] == Survives(lines, i)
  {
    seq(|lines|, i requires 0 <= i < |lines| => Survives(lines, i))
  }

  /** No kept non-blank line repeats the last non-blank line before it. */
  predicate NoRepeats(lines: seq<String>)
  {
    forall j :: 0 <= j < |lines| && !Blank(lines[j]) ==> LastNonBlank(lines[..j]) != Some(Strip(lines[j]))
  }

  /**
    The duplicate-line pass: the lines that survive, unmodified and in
    order. Dropping a repeat never changes the last non-blank text, so the
    loop's comparison with the last kept line is a comparison with the
    last non-blank input line.
   */
  function DedupLines(lines: seq<String>): (r: seq<String>)
    ensures r == Filtered(lines, SurvivorMask(lines))
    ensures |r| <= |lines|
    ensures NoRepeats(r)
  {
    assert lines[..0] == [];
    DedupLinesMatchesMask(lines, 0, []);
    DedupLinesNoRepeats(lines, 0, []);
    FilteredIsSubseq(lines, SurvivorMask(lines));
    DedupLinesFrom(lines, 0, [])
  }

  lemma LastNonBlankSnoc(xs: seq<String>, line: String)
    ensures LastNonBlank(xs + [line]) == if Blank(line) then LastNonBlank(xs) else Some(Strip(line))
  {
    assert (xs + [line])[..|xs|] == xs;
  }

  lemma LastNonBlankPrefix(xs: seq<String>, i: nat)
    requires i < |xs|
    ensures LastNonBlank(xs[..i + 1]) == if Blank(xs[i]) then LastNonBlank(xs[..i]) else Some(Strip(xs[i]))
  {
    assert xs[..i + 1][..i] == xs[..i];
  }

  lemma {:induction false} DedupLinesMatchesMask(lines: seq<String>, i: nat, acc: seq<String>)
    requires i <= |lines|
    requires acc == Filtered(lines[..i], SurvivorMask(lines)[..i])
    requires LastNonBlank(acc) == LastNonBlank(lines[..i])
    ensures DedupLinesFrom(lines, i, acc) == Filtered(lines, SurvivorMask(lines))
    decreases |lines| - i
  {
    if i == |lines| {
      assert lines[..i] == lines && SurvivorMask(lines)[..i] == SurvivorMask(lines);
    } else {
      var acc' := if Survives(lines, i) then acc + [lines[i]] else acc;
      DedupLinesStep(lines, i, acc);
      DedupLinesMatchesMask(lines, i + 1, acc');
    }
  }

  /** One iteration keeps the correspondence with the survivor mask. */
  lemma DedupLinesStep(lines: seq<String>, i: nat, acc: seq<String>)
    requires i < |lines|
    requires acc == Filtered(lines[..i], SurvivorMask(lines)[..i])
    requires LastNonBlank(acc) == LastNonBlank(lines[..i])
    ensures var acc' := if Survives(lines, i) then acc + [lines[i]] else acc;
            && DedupLinesFrom(lines, i, acc) == DedupLinesFrom(lines, i + 1, acc')
            && acc' == Filtered(lines[..i + 1], SurvivorMask(lines)[..i + 1])
            && LastNonBlank(acc') == LastNonBlank(lines[..i + 1])
  {
    var line := lines[i];
    var acc' := if Survives(lines, i) then acc + [line] else acc;
    assert LastNonBlank(acc') == LastNonBlank(lines[..i + 1]) by {
      LastNonBlankPrefix(lines, i);
      LastNonBlankSnoc(acc, line);
    }
    assert acc' == Filtered(lines[..i + 1], SurvivorMask(lines)[..i + 1]) by {
      FilteredPrefixStep(lines, SurvivorMask(lines), i);
    }
  }

  lemma NoRepeatsSnoc(acc: seq<String>, line: String)
    requires NoRepeats(acc)
    requires Blank(line) || LastNonBlank(acc) != Some(Strip(line))
    ensures NoRepeats(acc + [line])
  {
    var r := acc + [line];
    assert r[..|acc|] == acc;
    assert forall j :: 0 <= j < |acc| ==> r[..j] == acc[..j] && r[j] == acc[j];
  }

  lemma {:induction false} DedupLinesNoRepeats(lines: seq<String>, i: nat, acc: seq<String>)
    requires i <= |lines|
    requires NoRepeats(acc)
    ensures NoRepeats(DedupLinesFrom(lines, i, acc))
    decreases |lines| - i
  {
    if i < |lines| {
      var line := lines[i];
      if Blank(line) || LastNonBlank(acc) != Some(Strip(line)) {
        NoRepeatsSnoc(acc, line);
        DedupLinesNoRepeats(lines, i + 1, acc + [line]);
      } else {
        DedupLinesNoRepeats(lines, i + 1, acc);
      }
    }
  }

  // ---------------------------------------------------------------------
  // The whole function

  /** The lines the duplicate pass sees: the text after steps 1 and 2, split at line feeds. */
  function ScannedLines(text: String): seq<String>
  {
    Split(DropSpaceAfterBreak(BreakPeriods(text)), "\n")
  }

  /**
    `format_sentences`: the result's lines are exactly the scanned lines
    that survive the duplicate pass, unmodified and in order, and no kept
    non-blank line repeats the last non-blank line before it.
   */
  function FormatSentences(text: String): (r: String)
    ensures Split(r, "\n") == Filtered(ScannedLines(text), SurvivorMask(ScannedLines(text)))
    ensures |Split(r, "\n")| <= |ScannedLines(text)|
    ensures NoRepeats(Split(r, "\n"))
  {
    var lines := ScannedLines(text);
    var kept := DedupLines(lines);
    assert |kept| >= 1 by {
      assert Survives(lines, 0) by { assert lines[..0] == []; }
    }
    assert forall i :: 0 <= i < |kept| ==> !Contains(kept[i], "\n") by {
      FilteredIsSubseq(lines, SurvivorMask(lines));
      SubseqIn(kept, lines);
      forall i | 0 <= i < |kept| ensures !Contains(kept[i], "\n") {
        assert kept[i] in lines;
      }
    }
    BreakNoSelfOverlap();
    SplitJoin(kept, "\n");
    Join(kept, "\n")
  }

  /**
    Where the scanned lines come from: the lines of the text with a break
    after every unsettled period, the first one as it is and the others
    less one leading space; and those breaks are the only characters added.
   */
  lemma ScannedLinesOfText(text: String)
    ensures var broken := Split(BreakPeriods(text), "\n");
            ScannedLines(text) == [broken[0]] + DropLeadingSpaces(broken[1..])
    ensures NoBreaks(BreakPeriods(text)) == NoBreaks(text)
    ensures AllSettled(BreakPeriods(text))
  {
    ScanSplitLines(BreakPeriods(text));
    BreakPeriodsOnlyInserts(text);
    BreakPeriodsSettles(text);
  }
}

=== FILE: heading.dfy ===
/**
  `generate_heading` (advanced_processor.py): a heading for one paragraph,
  chosen in order of preference from the text generator's suggestion, the
  most frequent key phrase spaCy finds, the first few content words of the
  first sentence, and a fixed fallback.

  spaCy, the sentence tokenizer and the text generator are parameters:
  `nlp` gives the analysis of a text, `tokenize` its sentences, and
  `generate` the generator's output for a prompt (`None` when the
  generator raises).
 */
module Heading {
  import opened Outcome
  import opened Seqs
  import opened Text
  import opened Ranking

  /** The longest paragraph handed to the models before it is cut. */
  const MaxLength: nat := 500
  /** How much of the paragraph the prompt quotes. */
  const PromptQuote: nat := 200
  const Fallback: String := "Content Section"
  const PromptLead: String := "Generate a short, descriptive heading (3-6 words) for this text: "

  /** A named entity with its spaCy label (`ent.text` and `ent.label_`). */
  datatype Span = Span(text: String, kind: String)
  /** A token with its coarse part of speech (`token.text`, `token.pos_`). */
  datatype Token = Token(text: String, pos: String)
  /** What spaCy reports about a text: noun chunks, entities and tokens. */
  datatype Doc = Doc(chunks: seq<String>, ents: seq<Span>, tokens: seq<Token>)

  function MinNat(a: nat, b: nat): nat { if a <= b then a else b }

  /** `paragraph[:500] + "..."` when the paragraph is longer than 500 characters. */
  function Truncate(p: String): (r: String)
    ensures |r| <= MaxLength + 3
    ensures |p| <= MaxLength ==> r == p
    ensures |p| > MaxLength ==> |r| == MaxLength + 3 && r[..MaxLength] == p[..MaxLength] && r[MaxLength..] == "..."
  {
    if |p| > MaxLength then p[..MaxLength] + "..." else p
  }

  /** Cutting an already cut paragraph changes nothing. */
  lemma TruncateIdempotent(p: String)
    ensures Truncate(Truncate(p)) == Truncate(p)
  {
    if |p| > MaxLength {
      var r := Truncate(p);
      assert r[..MaxLength] == p[..MaxLength];
    }
  }

  /** The prompt: the fixed request followed by the paragraph's first 200 characters and "...". */
  function Prompt(p: String): (r: String)
    ensures StartsWith(r, PromptLead)
    ensures |r| == |PromptLead| + MinNat(|p|, PromptQuote) + 3
    ensures r[|PromptLead|..|PromptLead| + MinNat(|p|, PromptQuote)] == p[..MinNat(|p|, PromptQuote)]
  {
    PromptLead + p[..MinNat(|p|, PromptQuote)] + "..."
  }

  /** `tag` (lower case) starts `s` when case is ignored. */
  predicate HasLabel(s: String, tag: String)
  {
    |tag| <= |s| && Lower(s[..|tag|]) == tag
  }

  /** The labels a suggestion may start with, in lower case. */
  const Labels: seq<String> := ["heading:", "title:", "summary:"]

  predicate HasAnyLabel(s: String)
  {
    HasLabel(s, "heading:") || HasLabel(s, "title:") || HasLabel(s, "summary:")
  }

  /**
    `r` is what follows the first `n` characters of `s` and the whitespace
    after them: a suffix of `s`, everything between position `n` and it
    whitespace, and it does not start with whitespace.
   */
  predicate SpacesThenRest(s: String, n: nat, r: String)
  {
    && n + |r| <= |s| && r == s[|s| - |r|..]
    && (forall k :: n <= k < |s| - |r| ==> IsSpace(s[k]))
    && (r == [] || !IsSpace(r[0]))
  }

  /** `s[n:].lstrip()` is what follows `n` characters and the whitespace after them. */
  lemma LStripAfter(s: String, n: nat)
    requires n <= |s|
    ensures SpacesThenRest(s, n, LStrip(s[n..]))
  {
    var t := s[n..];
    var r := LStrip(t);
    assert r == t[|t| - |r|..];
    forall k | n <= k < |s| - |r| ensures IsSpace(s[k]) {
      assert s[k] == t[k - n];
    }
  }

  /**
    `re.sub(r'^(Heading:|Title:|Summary:)\s*', '', s, flags=re.IGNORECASE)`:
    a string without a label is unchanged; otherwise the one label it
    starts with and the whitespace after it are removed and nothing else.
   */
  function DropLabel(s: String): (r: String)
    ensures !HasAnyLabel(s) ==> r == s
    ensures HasAnyLabel(s) ==> exists t :: t in Labels && HasLabel(s, t) && SpacesThenRest(s, |t|, r)
    ensures HasAnyLabel(s) ==> |r| < |s|
  {
    if HasLabel(s, "heading:") then
      LStripAfter(s, 8);
      assert Labels[0] == "heading:";
      LStrip(s[8..])
    else if HasLabel(s, "title:") then
      LStripAfter(s, 6);
      assert Labels[1] == "title:";
      LStrip(s[6..])
    else if HasLabel(s, "summary:") then
      LStripAfter(s, 8);
      assert Labels[2] == "summary:";
      LStrip(s[8..])
    else s
  }

  /** The labels differ in their first letter, so a string starts with at most one of them. */
  lemma OneLabel(s: String, t: String, u: String)
    requires t in Labels && u in Labels && HasLabel(s, t) && HasLabel(s, u)
    ensures t == u
  {
    assert Lower(s[..|t|])[0] == t[0] && Lower(s[..|u|])[0] == u[0];
  }

  /**
    The generator's text stripped of whitespace and a leading label, then
    of the quote characters at its two ends, and of nothing else.
   */
  function CleanGenerated(g: String): (c: String)
    ensures |c| <= |g|
    ensures exists a: nat :: TrimmedAt(DropLabel(Strip(g)), a, c, Quotes)
  {
    var d := DropLabel(Strip(g));
    TrimExact(d, Quotes);
    Trim(d, Quotes)
  }

  /** A cleaned suggestion is used when it is non-empty and at most eight words long. */
  predicate Accepted(c: String)
  {
    |c| > 0 && |Words(c)| <= 8
  }

  const Pronouns: seq<String> := ["you", "your", "they", "their", "this", "that"]
  const EntityLabels: seq<String> := ["PERSON", "ORG", "EVENT", "PRODUCT"]
  const ContentTags: seq<String> := ["NOUN", "PROPN", "ADJ", "VERB"]

  predicate KeepChunk(c: String)
  {
    |c| > 3 && Lower(c) !in Pronouns
  }

  predicate KeepEntity(e: Span)
  {
    e.kind in EntityLabels
  }

  predicate KeepToken(t: Token)
  {
    t.pos in ContentTags && |t.text| > 2
  }

  /** The title-cased noun chunks longer than three characters that are not pronouns, in order. */
  function ChunkPhrases(chunks: seq<String>): (r: seq<String>)
    ensures r == Select(chunks, KeepChunk, Title)
  {
    if |chunks| == 0 then []
    else
      var rest := ChunkPhrases(chunks[1..]);
      SelectCons(chunks, KeepChunk, Title);
      if KeepChunk(chunks[0]) then [Title(chunks[0])] + rest else rest
  }

  function EntityTitle(e: Span): String
  {
    Title(e.text)
  }

  /** The title-cased person, organisation, event and product entities, in order. */
  function EntityPhrases(ents: seq<Span>): (r: seq<String>)
    ensures r == Select(ents, KeepEntity, EntityTitle)
  {
    if |ents| == 0 then []
    else
      var rest := EntityPhrases(ents[1..]);
      SelectCons(ents, KeepEntity, EntityTitle);
      if KeepEntity(ents[0]) then [Title(ents[0].text)] + rest else rest
  }

  /** `key_phrases`: chunk phrases first, then entity phrases. */
  function KeyPhrases(doc: Doc): seq<String>
  {
    ChunkPhrases(doc.chunks) + EntityPhrases(doc.ents)
  }

  /** An empty key phrase can only come from a kept entity with empty text: chunk phrases are longer than three. */
  lemma EmptyKeyPhrase(doc: Doc)
    ensures [] in KeyPhrases(doc) ==> exists e :: e in doc.ents && KeepEntity(e) && e.text == []
  {
    var cp := ChunkPhrases(doc.chunks);
    var ep := EntityPhrases(doc.ents);
    if [] in KeyPhrases(doc) {
      assert [] in cp || [] in ep;
      SelectMembers(doc.chunks, KeepChunk, Title);
      SelectMembers(doc.ents, KeepEntity, EntityTitle);
      if [] in ep {
        var e :| e in doc.ents && KeepEntity(e) && [] == EntityTitle(e);
        assert |Title(e.text)| == |e.text|;
      }
    }
  }

  /**
    `Counter(kp).most_common(1)[0][0]`: the phrase no other phrase
    outranks, the earliest of the most frequent.
   */
  function MostFrequent(kp: seq<String>): (h: String)
    requires |kp| > 0
    ensures h in kp
    ensures forall x :: x in kp && x != h ==> Outranks(kp, h, x)
  {
    assert kp[0] in Uniq(kp);
    var r := MostCommon(kp, 1);
    assert forall x :: x in kp && x != r[0] ==> x !in r;
    r[0]
  }

  /** Exactly one phrase outranks all others, so the choice is determined by the counts. */
  lemma MostFrequentUnique(kp: seq<String>, h: String)
    requires h in kp
    requires forall x :: x in kp && x != h ==> Outranks(kp, h, x)
    ensures MostFrequent(kp) == h
  {
    OutranksAsymmetric(kp, h, MostFrequent(kp));
  }

  function TokenWord(t: Token): String
  {
    Lower(t.text)
  }

  /** The lower-cased content words longer than two characters, in order. */
  function KeyWords(tokens: seq<Token>): (r: seq<String>)
    ensures r == Select(tokens, KeepToken, TokenWord)
    ensures forall i :: 0 <= i < |r| ==> |r[i]| > 2 && Lower(r[i]) == r[i]
  {
    if |tokens| == 0 then []
    else
      var rest := KeyWords(tokens[1..]);
      SelectCons(tokens, KeepToken, TokenWord);
      if KeepToken(tokens[0]) then
        LowerIdempotent(tokens[0].text);
        assert forall i :: 1 <= i < |rest| + 1 ==> ([Lower(tokens[0].text)] + rest)[i] == rest[i - 1];
        [Lower(tokens[0].text)] + rest
      else rest
  }

  lemma LowerIdempotent(s: String)
    ensures Lower(Lower(s)) == Lower(s)
  {
  }

  /** `' '.join(key_words[:4]).title()`: the first four words joined by spaces, title-cased. */
  function FromKeyWords(kw: seq<String>): (h: String)
    requires |kw| > 0
    ensures var j := Join(kw[..MinNat(|kw|, 4)], " ");
      |h| == |j| && forall i :: 0 <= i < |j| ==>
        h[i] == if i > 0 && IsLetter(j[i - 1]) then LowerChar(j[i]) else UpperChar(j[i])
    ensures |h| >= |kw[0]|
  {
    Title(Join(kw[..MinNat(|kw|, 4)], " "))
  }

  /**
    `generate_heading(paragraph)`: the accepted suggestion of the
    generator, else the most frequent key phrase, else the first content
    words of the first sentence, else "Content Section" (also when the
    tokenizer finds no sentence, which raises inside the `try`).
   */
  function GenerateHeading(paragraph: String, nlp: String -> Doc, tokenize: String -> seq<String>,
                           generate: String -> Option<String>): (h: String)
    ensures var p := Truncate(paragraph);
      var suggestion := generate(Prompt(p));
      var kp := KeyPhrases(nlp(p));
      if suggestion.Some? && Accepted(CleanGenerated(suggestion.value)) then
        h == Title(CleanGenerated(suggestion.value))
      else if |kp| > 0 then
        h in kp && forall x :: x in kp && x != h ==> Outranks(kp, h, x)
      else if |tokenize(p)| == 0 then
        h == Fallback
      else
        var kw := KeyWords(nlp(tokenize(p)[0]).tokens);
        h == if |kw| > 0 then FromKeyWords(kw) else Fallback
    ensures |h| == 0 ==> exists e :: e in nlp(Truncate(paragraph)).ents && KeepEntity(e) && e.text == []
  {
    var p := Truncate(paragraph);
    var doc := nlp(p);
    var kp := KeyPhrases(doc);
    var suggestion := generate(Prompt(p));
    if suggestion.Some? && Accepted(CleanGenerated(suggestion.value)) then
      Title(CleanGenerated(suggestion.value))
    else if |kp| > 0 then
      var h := MostFrequent(kp);
      EmptyKeyPhrase(doc);
      h
    else
      var sentences := tokenize(p);
      if |sentences| == 0 then Fallback
      else
        var kw := KeyWords(nlp(sentences[0]).tokens);
        if |kw| > 0 then FromKeyWords(kw) else Fallback
  }
}

=== FILE: layout.dfy ===
/**
  The Markdown written by `save_processed_transcript`
  (advanced_processor.py) and by `process_transcript_simple`
  (simple_test.py): a fixed header, then one block per section, with a
  horizontal rule between consecutive blocks but not after the last.

  Times arrive already formatted: the `.1f` rendering of a float is not
  modelled, only whether a time is present.
 */
module Layout {
  import opened Outcome
  import opened Text

  /**
    A `ProcessedSegment`: paragraph text, its heading, and the optional
    start time, end time and speaker that only the diarization path sets.
   */
  datatype Section = Section(heading: String, text: String, start: Option<String>,
                             end: Option<String>, speaker: Option<String>)

  const Separator: String := "---\n\n"
  const AdvancedHeader: String :=
    "# Advanced Processed Transcript\n\n" + "*Processed with Advanced Transcript Processor*\n\n" + Separator
  const SimpleHeader: String :=
    "# Simple Advanced Processed Transcript\n\n"
    + "*Processed with Simple Advanced Processor (No AI models required)*\n\n" + Separator

  /** Python truthiness of an optional string: present and non-empty. */
  predicate Truthy(s: Option<String>)
  {
    s.Some? && |s.value| > 0
  }

  predicate HasMetadata(sec: Section)
  {
    Truthy(sec.speaker) || sec.start.Some?
  }

  /**
    The italic metadata line: the speaker and the time span joined by
    " | ". Formatting a present start time with a missing end time raises.
   */
  function Metadata(sec: Section): (r: Result<String>)
    ensures r.Err? <==> sec.start.Some? && sec.end.None?
    ensures r.Ok? ==> (r.value == [] <==> !HasMetadata(sec))
    ensures r.Ok? && HasMetadata(sec) ==>
      StartsWith(r.value, "*") && EndsWith(r.value, "*\n\n")
  {
    if !HasMetadata(sec) then Ok([])
    else
      var speakerPart := if Truthy(sec.speaker) then ["**Speaker:** " + sec.speaker.value] else [];
      if sec.start.Some? && sec.end.None? then Err(MissingEndTime)
      else
        var timePart := if sec.start.Some? then ["**Time:** " + sec.start.value + "s - " + sec.end.value + "s"] else [];
        Ok("*" + Join(speakerPart + timePart, " | ") + "*\n\n")
  }

  /** One section: `## heading`, the metadata line if any, then the text. */
  function Block(sec: Section): (r: Result<String>)
    ensures r.Err? <==> sec.start.Some? && sec.end.None?
    ensures r.Ok? ==> StartsWith(r.value, "## " + sec.heading + "\n\n")
    ensures r.Ok? ==> EndsWith(r.value, sec.text + "\n\n")
    ensures r.Ok? && !HasMetadata(sec) ==> r.value == "## " + sec.heading + "\n\n" + sec.text + "\n\n"
  {
    match Metadata(sec)
    case Err(e) => Err(e)
    case Ok(meta) => Ok("## " + sec.heading + "\n\n" + meta + sec.text + "\n\n")
  }

  /** Some section would make the writer raise. */
  predicate Broken(secs: seq<Section>)
  {
    exists i :: 0 <= i < |secs| && secs[i].start.Some? && secs[i].end.None?
  }

  /** The blocks of all sections, or the first error. */
  function Blocks(secs: seq<Section>): (r: Result<seq<String>>)
    ensures r.Err? <==> Broken(secs)
    ensures r.Ok? ==> |r.value| == |secs| && forall i :: 0 <= i < |secs| ==> Block(secs[i]) == Ok(r.value[i])
  {
    if |secs| == 0 then Ok([])
    else match Block(secs[0])
      case Err(e) => Err(e)
      case Ok(b) =>
        match Blocks(secs[1..])
        case Err(e) =>
          assert exists i :: 1 <= i < |secs| && secs[i].start.Some? && secs[i].end.None? by {
            var j :| 0 <= j < |secs[1..]| && secs[1..][j].start.Some? && secs[1..][j].end.None?;
            assert secs[j + 1] == secs[1..][j];
          }
          Err(e)
        case Ok(rest) =>
          assert forall i :: 1 <= i < |secs| ==> secs[i] == secs[1..][i - 1];
          Ok([b] + rest)
  }

  /**
    The loop of the writer from section `i` on: each block, followed by the
    separator when another section comes after it.
   */
  function Emit(secs: seq<Section>, i: nat): Result<String>
    requires i <= |secs|
    decreases |secs| - i
  {
    if i == |secs| then Ok([])
    else match Block(secs[i])
      case Err(e) => Err(e)
      case Ok(b) =>
        match Emit(secs, i + 1)
        case Err(e) => Err(e)
        case Ok(rest) => Ok(b + (if i + 1 < |secs| then Separator else []) + rest)
  }

  /** The document: the header, then the sections. */
  function Render(header: String, secs: seq<Section>): (r: Result<String>)
    ensures r.Err? <==> Broken(secs)
    ensures r.Ok? ==> StartsWith(r.value, header)
  {
    EmitIsJoin(secs, 0);
    match Emit(secs, 0)
    case Err(e) => Err(e)
    case Ok(body) => Ok(header + body)
  }

  /**
    The writer's loop puts exactly one separator between consecutive
    blocks: its output is the blocks joined by the separator.
   */
  lemma {:induction false} EmitIsJoin(secs: seq<Section>, i: nat)
    requires i <= |secs|
    ensures Emit(secs, i).Err? <==> Broken(secs[i..])
    ensures Emit(secs, i).Ok? ==> Blocks(secs[i..]).Ok? && Emit(secs, i).value == Join(Blocks(secs[i..]).value, Separator)
    decreases |secs| - i
  {
    if i < |secs| {
      EmitIsJoin(secs, i + 1);
      assert secs[i..][1..] == secs[i + 1..];
      assert secs[i..][0] == secs[i];
    }
  }

  /**
    The document is the header followed by the blocks joined by the
    separator; with at least one section it ends with the last section's
    text, never with a separator.
   */
  lemma RenderShape(header: String, secs: seq<Section>)
    requires Render(header, secs).Ok?
    ensures Blocks(secs).Ok?
    ensures Render(header, secs).value == header + Join(Blocks(secs).value, Separator)
    ensures |secs| > 0 ==> EndsWith(Render(header, secs).value, secs[|secs| - 1].text + "\n\n")
  {
    EmitIsJoin(secs, 0);
    assert secs[0..] == secs;
    if |secs| > 0 {
      var bs := Blocks(secs).value;
      JoinEndsWithLast(bs, Separator);
      assert Block(secs[|secs| - 1]) == Ok(bs[|bs| - 1]);
    }
  }
}

=== FILE: outcome.dfy ===
/**
  Optional values and results shared by every part of the model.

  `Error` names each Python exception the modelled code can raise on an input
  it does not reject up front; each case says which statement raises it.
 */
module Outcome {

  /** An absent or present value: Python's `None` versus a value. */
  datatype Option<+T> = None | Some(value: T)

  /** The exceptions the modelled transformations can raise. */
  datatype Error =
    | ZeroDivision         // `len(sentences) // max_sentences_per_paragraph` with a zero divisor
    | InvalidClusterCount  // KMeans refuses `n_clusters < 1`
    | InvalidLabels        // a label vector that is not one label in [0, k) per sentence
    | EmptyCluster         // `min()` over the sentences of an empty cluster
    | ZeroStep             // `range(0, n, 0)`
    | MalformedQuery       // `dict()` over a query parameter split into more than two parts
    | MissingEndTime       // formatting `end_time` with `:.1f` while it is None

  /** The value of a computation or the exception it raises. */
  datatype Result<+T> = Ok(value: T) | Err(error: Error)
}

=== FILE: ranking.dfy ===
/**
  Ordering helpers behind two Python idioms the code relies on:
  `sorted(items, key=...)` over items listed in index order, and
  `collections.Counter(xs).most_common(n)`.

  Python's sort is stable, so sorting positions 0..n-1 by a key orders them
  by the key and breaks ties by position; `SortIndices` computes exactly that
  order. `Counter` remembers elements in first-seen order and `most_common`
  sorts them stably by decreasing count, so ties go to the element seen first.
 */
module Ranking {
  import opened Seqs

  /** Position `a` comes before position `b`: smaller key, or equal key and smaller position. */
  predicate Before(keys: seq<int>, a: nat, b: nat)
  {
    a < |keys| && b < |keys| && (keys[a] < keys[b] || (keys[a] == keys[b] && a < b))
  }

  predicate SortedBy(keys: seq<int>, r: seq<nat>)
  {
    forall i, j :: 0 <= i < j < |r| ==> Before(keys, r[i], r[j])
  }

  /** Inserts position `x` into a sorted list of other positions. */
  function Insert(keys: seq<int>, x: nat, s: seq<nat>): (r: seq<nat>)
    requires x < |keys| && x !in s
    requires forall i :: 0 <= i < |s| ==> s[i] < |keys|
    requires SortedBy(keys, s)
    ensures |r| == |s| + 1
    ensures forall y :: y in r <==> y == x || y in s
    ensures forall i :: 0 <= i < |r| ==> r[i] < |keys|
    ensures SortedBy(keys, r)
  {
    if |s| == 0 then [x]
    else if Before(keys, x, s[0]) then [x] + s
    else
      var rest := Insert(keys, x, s[1..]);
      assert Before(keys, s[0], x);
      assert forall y :: y in rest ==> Before(keys, s[0], y) by {
        forall y | y in rest ensures Before(keys, s[0], y) {
          if y != x {
            var k :| 0 <= k < |s[1..]| && s[1..][k] == y;
            assert s[k + 1] == y;
          }
        }
      }
      [s[0]] + rest
  }

  /** Positions 0..n-1 in the order `Before` prescribes. */
  function SortUpTo(keys: seq<int>, n: nat): (r: seq<nat>)
    requires n <= |keys|
    ensures |r| == n
    ensures forall y: nat :: y in r <==> y < n
    ensures forall i :: 0 <= i < |r| ==> r[i] < |keys|
    ensures SortedBy(keys, r)
  {
    if n == 0 then [] else Insert(keys, n - 1, SortUpTo(keys, n - 1))
  }

  /**
    `sorted(range(len(keys)), key=lambda i: keys[i])`: every position exactly
    once, by increasing key, ties by increasing position.
   */
  function SortIndices(keys: seq<int>): (r: seq<nat>)
    ensures |r| == |keys|
    ensures forall y: nat :: y in r <==> y < |keys|
    ensures SortedBy(keys, r)
  {
    SortUpTo(keys, |keys|)
  }

  // ---------------------------------------------------------------------
  // Counter.most_common

  lemma FirstIndexOfPrefix<T>(xs: seq<T>, n: nat, y: T)
    requires n <= |xs| && y in xs[..n]
    ensures y in xs && FirstIndex(xs, y) == FirstIndex(xs[..n], y)
  {
    var i := FirstIndex(xs[..n], y);
    assert xs[..n][i] == xs[i];
    forall k | 0 <= k < i ensures xs[k] != y {
      assert xs[..n][k] == xs[k];
    }
  }

  /** The distinct elements of `xs`, in order of first appearance (a Counter's keys). */
  function Uniq<T(==,!new)>(xs: seq<T>): (u: seq<T>)
    ensures Distinct(u)
    ensures forall x :: x in u <==> x in xs
    ensures forall a, b :: 0 <= a < b < |u| ==> FirstIndex(xs, u[a]) < FirstIndex(xs, u[b])
  {
    if |xs| == 0 then []
    else
      var init := xs[..|xs| - 1];
      var u := Uniq(init);
      var x := xs[|xs| - 1];
      assert xs == init + [x];
      assert forall y :: y in u ==> FirstIndex(xs, y) == FirstIndex(init, y) && FirstIndex(xs, y) < |xs| - 1 by {
        forall y | y in u ensures FirstIndex(xs, y) == FirstIndex(init, y) && FirstIndex(xs, y) < |xs| - 1 {
          FirstIndexOfPrefix(xs, |xs| - 1, y);
        }
      }
      if x in u then u
      else
        assert FirstIndex(xs, x) == |xs| - 1;
        u + [x]
  }

  /** `a` ranks before `b` in `Counter(xs).most_common()`. */
  predicate Outranks<T(==)>(xs: seq<T>, a: T, b: T)
  {
    a in xs && b in xs &&
    (Count(xs, a) > Count(xs, b) || (Count(xs, a) == Count(xs, b) && FirstIndex(xs, a) < FirstIndex(xs, b)))
  }

  /** No two elements outrank each other. */
  lemma OutranksAsymmetric<T>(xs: seq<T>, a: T, b: T)
    ensures !(Outranks(xs, a, b) && Outranks(xs, b, a))
  {
  }

  /** The sort key of each distinct element: its count, negated so that higher counts sort first. */
  function NegatedCounts<T(==)>(xs: seq<T>, u: seq<T>): (keys: seq<int>)
    ensures |keys| == |u|
    ensures forall k :: 0 <= k < |u| ==> keys[k] == -(Count(xs, u[k]) as int)
  {
    seq(|u|, i requires 0 <= i < |u| => -(Count(xs, u[i]) as int))
  }

  /** The elements of `u` at the given positions. */
  function Pick<T>(u: seq<T>, order: seq<nat>): (r: seq<T>)
    requires forall k :: 0 <= k < |order| ==> order[k] < |u|
    ensures |r| == |order|
    ensures forall k :: 0 <= k < |order| ==> r[k] == u[order[k]]
  {
    seq(|order|, i requires 0 <= i < |order| => u[order[i]])
  }

  /** `[x for x, _ in Counter(xs).most_common()]`: every distinct element, best ranked first. */
  function Ranked<T(==,!new)>(xs: seq<T>): (r: seq<T>)
    ensures |r| == |Uniq(xs)|
    ensures forall x :: x in xs ==> x in r
    ensures forall i :: 0 <= i < |r| ==> r[i] in xs
    ensures forall i, j :: 0 <= i < j < |r| ==> Outranks(xs, r[i], r[j])
  {
    var u := Uniq(xs);
    var keys := NegatedCounts(xs, u);
    var order := SortIndices(keys);
    assert forall k :: 0 <= k < |order| ==> order[k] < |keys| by {
      forall k | 0 <= k < |order| ensures order[k] < |keys| {
        assert order[k] in order;
      }
    }
    var r := Pick(u, order);
    RankedOutranks(xs, u, keys, order, r);
    RankedCovers(xs, u, order, r);
    assert |Uniq(xs)| == |r|;
    r
  }

  lemma RankedOutranks<T(!new)>(xs: seq<T>, u: seq<T>, keys: seq<int>, order: seq<nat>, r: seq<T>)
    requires u == Uniq(xs) && keys == NegatedCounts(xs, u)
    requires |order| == |keys| && (forall y: nat :: y in order <==> y < |keys|) && SortedBy(keys, order)
    requires forall k :: 0 <= k < |order| ==> order[k] < |keys|
    requires r == Pick(u, order)
    ensures forall i, j :: 0 <= i < j < |r| ==> Outranks(xs, r[i], r[j])
  {
    forall i, j | 0 <= i < j < |r| ensures Outranks(xs, r[i], r[j]) {
      RanksFollowOrder(xs, u, keys, order, i, j);
    }
  }

  lemma RankedCovers<T(!new)>(xs: seq<T>, u: seq<T>, order: seq<nat>, r: seq<T>)
    requires forall x :: x in xs ==> x in u
    requires |order| == |u| && (forall y: nat :: y in order <==> y < |u|)
    requires forall k :: 0 <= k < |order| ==> order[k] < |u|
    requires r == Pick(u, order)
    ensures forall x :: x in xs ==> x in r
  {
    forall x | x in xs ensures x in r {
      var p: nat :| p < |u| && u[p] == x;
      assert p in order;
      var q :| 0 <= q < |order| && order[q] == p;
      assert r[q] == x;
    }
  }

  /**
    `[x for x, _ in Counter(xs).most_common(n)]`: the `n` most frequent
    distinct elements (all of them when there are fewer), most frequent
    first, ties in order of first appearance; every element left out ranks
    below every element taken.
   */
  function MostCommon<T(==,!new)>(xs: seq<T>, n: nat): (r: seq<T>)
    ensures |r| == if n < |Uniq(xs)| then n else |Uniq(xs)|
    ensures forall i :: 0 <= i < |r| ==> r[i] in xs
    ensures forall i, j :: 0 <= i < j < |r| ==> Outranks(xs, r[i], r[j])
    ensures forall x, i :: x in xs && x !in r && 0 <= i < |r| ==> Outranks(xs, r[i], x)
  {
    var all := Ranked(xs);
    var m := if n < |all| then n else |all|;
    PrefixOutranksRest(xs, all, m);
    all[..m]
  }

  /** A prefix of a ranking outranks everything it leaves out. */
  lemma PrefixOutranksRest<T(!new)>(xs: seq<T>, all: seq<T>, m: nat)
    requires m <= |all|
    requires forall x :: x in xs ==> x in all
    requires forall i, j :: 0 <= i < j < |all| ==> Outranks(xs, all[i], all[j])
    ensures forall i, j :: 0 <= i < j < m ==> Outranks(xs, all[..m][i], all[..m][j])
    ensures forall x, i :: x in xs && x !in all[..m] && 0 <= i < m ==> Outranks(xs, all[..m][i], x)
  {
    forall x, i | x in xs && x !in all[..m] && 0 <= i < m ensures Outranks(xs, all[..m][i], x) {
      var q :| 0 <= q < |all| && all[q] == x;
      assert q >= m by {
        assert forall t :: 0 <= t < m ==> all[..m][t] == all[t];
      }
      assert all[..m][i] == all[i];
    }
  }

  /** Positions earlier in the sorted order hold elements that outrank later ones. */
  lemma RanksFollowOrder<T(!new)>(xs: seq<T>, u: seq<T>, keys: seq<int>, order: seq<nat>, i: nat, j: nat)
    requires u == Uniq(xs)
    requires keys == NegatedCounts(xs, u)
    requires |order| == |keys| && (forall y: nat :: y in order <==> y < |keys|) && SortedBy(keys, order)
    requires forall k :: 0 <= k < |order| ==> order[k] < |keys|
    requires i < j < |order|
    ensures Outranks(xs, u[order[i]], u[order[j]])
  {
    var a, b := order[i], order[j];
    assert Before(keys, a, b);
    assert a in order && b in order;
    if keys[a] == keys[b] {
      assert FirstIndex(xs, u[a]) < FirstIndex(xs, u[b]);
    }
  }
}

=== FILE: segmenter.dfy ===
/**
  `segment_into_paragraphs` (advanced_processor.py): when there are more
  sentences than the per-paragraph maximum, the sentences are clustered
  into k groups, each group becomes one paragraph with its sentences in
  their original order, and the paragraphs are sorted by their earliest
  sentence.

  The tokenizer and KMeans are not modelled: the sentences and the cluster
  label of each sentence arrive as lists.
 */
module Segmenter {
  import opened Outcome
  import opened Seqs
  import opened Text
  import opened Ranking

  /** Python's `a // b`, which rounds toward negative infinity. */
  function FloorDiv(a: int, b: int): (q: int)
    requires b != 0
    ensures b > 0 ==> q * b <= a < q * b + b
    ensures b < 0 ==> q * b >= a > q * b + b
  {
    if b > 0 then a / b else (-a) / (-b)
  }

  function Min(a: int, b: int): int { if a <= b then a else b }
  function Max(a: int, b: int): int { if a >= b then a else b }

  /**
    `min(n // 2, max(2, n // m))`, the number of clusters, or the exception
    computing or using it raises: division by zero when `m` is 0, and
    KMeans' refusal of fewer than one cluster.
   */
  function ClusterCount(n: nat, m: int): (r: Result<nat>)
    ensures r == Err(ZeroDivision) <==> m == 0
    ensures r.Ok? ==> 1 <= r.value <= n / 2
  {
    if m == 0 then Err(ZeroDivision)
    else
      var k := Min(n / 2, Max(2, FloorDiv(n, m)));
      if k < 1 then Err(InvalidClusterCount) else Ok(k)
  }

  /** With more sentences than a positive maximum, clustering always gets a usable count. */
  lemma ClusterCountBounds(n: nat, m: int)
    requires n > m >= 1
    ensures ClusterCount(n, m).Ok?
    ensures ClusterCount(n, m).value == Min(n / 2, Max(2, n / m))
  {
  }

  /** One label in [0, k) per sentence: what KMeans' `fit_predict` returns. */
  predicate ValidLabels(labels: seq<int>, n: nat, k: nat)
  {
    |labels| == n && forall i :: 0 <= i < n ==> 0 <= labels[i] < k
  }

  /** `paragraphs[c]`: the positions below `n` labelled `c`, in increasing order. */
  function Members(labels: seq<int>, c: int, n: nat): (ms: seq<nat>)
    requires n <= |labels|
    ensures forall x: nat :: x in ms <==> x < n && labels[x] == c
    ensures forall t :: 0 <= t < |ms| ==> ms[t] < n && labels[ms[t]] == c
    ensures forall s, t :: 0 <= s < t < |ms| ==> ms[s] < ms[t]
  {
    if n == 0 then []
    else
      var p := Members(labels, c, n - 1);
      if labels[n - 1] == c then p + [n - 1] else p
  }

  /** `min(sentences.index(s) for s in p)` for the paragraph at positions `ms`. */
  function MinKey(sentences: seq<String>, ms: seq<nat>): (key: nat)
    requires |ms| > 0
    requires forall t :: 0 <= t < |ms| ==> ms[t] < |sentences|
    ensures forall t :: 0 <= t < |ms| ==> key <= FirstIndex(sentences, sentences[ms[t]])
    ensures exists t :: 0 <= t < |ms| && key == FirstIndex(sentences, sentences[ms[t]])
  {
    var here := FirstIndex(sentences, sentences[ms[0]]);
    if |ms| == 1 then here
    else
      var rest := MinKey(sentences, ms[1..]);
      assert forall t :: 1 <= t < |ms| ==> ms[1..][t - 1] == ms[t];
      if here <= rest then here else rest
  }

  /** When the sentences are distinct, a paragraph's key is its first position. */
  lemma MinKeyOfDistinct(sentences: seq<String>, ms: seq<nat>)
    requires Distinct(sentences)
    requires |ms| > 0
    requires forall t :: 0 <= t < |ms| ==> ms[t] < |sentences|
    requires forall s, t :: 0 <= s < t < |ms| ==> ms[s] < ms[t]
    ensures MinKey(sentences, ms) == ms[0]
  {
    forall t | 0 <= t < |ms| ensures FirstIndex(sentences, sentences[ms[t]]) == ms[t] {
      var f := FirstIndex(sentences, sentences[ms[t]]);
      assert sentences[f] == sentences[ms[t]];
    }
  }

  /** Every cluster id below `k` labels some sentence. */
  predicate AllClustersUsed(labels: seq<int>, k: nat)
  {
    forall c :: 0 <= c < k ==> c in labels
  }

  lemma UsedHasMembers(labels: seq<int>, c: int)
    requires c in labels
    ensures |Members(labels, c, |labels|)| > 0
  {
    var i :| 0 <= i < |labels| && labels[i] == c;
    assert i in Members(labels, c, |labels|);
  }

  /** `paragraphs`: the positions of each cluster's sentences, by cluster id. */
  function AllMembers(labels: seq<int>, k: nat): (groups: seq<seq<nat>>)
    ensures |groups| == k
    ensures forall c :: 0 <= c < k ==> groups[c] == Members(labels, c, |labels|)
    ensures forall c, t :: 0 <= c < k && 0 <= t < |groups[c]| ==> groups[c][t] < |labels|
    ensures AllClustersUsed(labels, k) ==> forall c :: 0 <= c < k ==> |groups[c]| > 0
  {
    assert AllClustersUsed(labels, k) ==> forall c :: 0 <= c < k ==> |Members(labels, c, |labels|)| > 0 by {
      if AllClustersUsed(labels, k) {
        forall c | 0 <= c < k ensures |Members(labels, c, |labels|)| > 0 {
          UsedHasMembers(labels, c);
        }
      }
    }
    seq(k, c requires 0 <= c < k => Members(labels, c, |labels|))
  }

  function GroupKeys(sentences: seq<String>, groups: seq<seq<nat>>): (keys: seq<int>)
    requires forall c :: 0 <= c < |groups| ==> |groups[c]| > 0
    requires forall c, t :: 0 <= c < |groups| && 0 <= t < |groups[c]| ==> groups[c][t] < |sentences|
    ensures |keys| == |groups|
    ensures forall c :: 0 <= c < |groups| ==> keys[c] == MinKey(sentences, groups[c])
  {
    seq(|groups|, c requires 0 <= c < |groups| => MinKey(sentences, groups[c]))
  }

  /**
    The cluster ids in paragraph order: sorted by key with Python's stable
    `sorted`, and since the groups are listed by cluster id, equal keys keep
    cluster-id order.
   */
  function ClusterOrder(sentences: seq<String>, labels: seq<int>, k: nat): (order: seq<nat>)
    requires ValidLabels(labels, |sentences|, k)
    requires AllClustersUsed(labels, k)
    ensures |order| == k
    ensures forall y: nat :: y in order <==> y < k
    ensures forall p :: 0 <= p < k ==> order[p] < k
    ensures SortedBy(GroupKeys(sentences, AllMembers(labels, k)), order)
  {
    SortIndices(GroupKeys(sentences, AllMembers(labels, k)))
  }

  /**
    The sentence positions of each paragraph, paragraphs in final order. A
    cluster without sentences makes `min()` raise before any paragraph is
    emitted.
   */
  function Groups(sentences: seq<String>, labels: seq<int>, k: nat): (r: Result<seq<seq<nat>>>)
    requires ValidLabels(labels, |sentences|, k)
    ensures r.Err? <==> !AllClustersUsed(labels, k)
    ensures r.Err? ==> r.error == EmptyCluster
    ensures r.Ok? ==> |r.value| == k
  {
    if !AllClustersUsed(labels, k) then Err(EmptyCluster)
    else Ok(Arrange(AllMembers(labels, k), ClusterOrder(sentences, labels, k)))
  }

  /** The groups listed in the given order of cluster ids. */
  function Arrange(members: seq<seq<nat>>, order: seq<nat>): (gs: seq<seq<nat>>)
    requires forall p :: 0 <= p < |order| ==> order[p] < |members|
    ensures |gs| == |order|
    ensures forall p :: 0 <= p < |order| ==> gs[p] == members[order[p]]
  {
    seq(|order|, p requires 0 <= p < |order| => members[order[p]])
  }

  /** Sorted positions never repeat. */
  lemma SortedDistinct(keys: seq<int>, order: seq<nat>)
    requires SortedBy(keys, order)
    ensures forall p, q :: 0 <= p < |order| && 0 <= q < |order| && p != q ==> order[p] != order[q]
  {
    forall p, q | 0 <= p < |order| && 0 <= q < |order| && p != q ensures order[p] != order[q] {
      if p < q {
        assert Before(keys, order[p], order[q]);
      } else {
        assert Before(keys, order[q], order[p]);
      }
    }
  }

  /** Sentence `i` is in one of the groups. */
  predicate InSomeGroup(gs: seq<seq<nat>>, i: nat)
  {
    exists p :: 0 <= p < |gs| && i in gs[p]
  }

  /**
    Listing every cluster once, in any order, partitions the sentences:
    every sentence is in exactly one group, the one of its label.
   */
  lemma ArrangePartition(labels: seq<int>, k: nat, order: seq<nat>)
    requires ValidLabels(labels, |labels|, k)
    requires |order| == k
    requires forall y: nat :: y in order <==> y < k
    requires forall p :: 0 <= p < k ==> order[p] < k
    requires forall p, q :: 0 <= p < k && 0 <= q < k && p != q ==> order[p] != order[q]
    ensures var gs := Arrange(AllMembers(labels, k), order);
      && (forall i: nat :: i < |labels| ==> InSomeGroup(gs, i))
      && (forall p, i: nat :: 0 <= p < k && i in gs[p] ==> i < |labels| && labels[i] == order[p])
      && (forall p, q, i: nat :: 0 <= p < k && 0 <= q < k && i in gs[p] && i in gs[q] ==> p == q)
  {
    var gs := Arrange(AllMembers(labels, k), order);
    forall i: nat | i < |labels| ensures InSomeGroup(gs, i) {
      var c: nat := labels[i];
      assert c in order;
      var p :| 0 <= p < |order| && order[p] == c;
      assert i in gs[p];
    }
  }

  /**
    The paragraphs partition the sentences: every paragraph is non-empty,
    holds the sentences of one cluster in their original order, and every
    sentence is in exactly one paragraph.
   */
  lemma GroupsPartition(sentences: seq<String>, labels: seq<int>, k: nat)
    requires ValidLabels(labels, |sentences|, k)
    requires Groups(sentences, labels, k).Ok?
    ensures var gs := Groups(sentences, labels, k).value;
      && (forall p :: 0 <= p < k ==> |gs[p]| > 0)
      && (forall p, t :: 0 <= p < k && 0 <= t < |gs[p]| ==>
            gs[p][t] < |sentences| && labels[gs[p][t]] == labels[gs[p][0]])
      && (forall p, s, t :: 0 <= p < k && 0 <= s < t < |gs[p]| ==> gs[p][s] < gs[p][t])
      && (forall i: nat :: i < |sentences| ==> InSomeGroup(gs, i))
      && (forall p, q, i: nat :: 0 <= p < k && 0 <= q < k && i in gs[p] && i in gs[q] ==> p == q)
  {
    var order := ClusterOrder(sentences, labels, k);
    SortedDistinct(GroupKeys(sentences, AllMembers(labels, k)), order);
    ArrangePartition(labels, k, order);
  }

  /**
    The paragraphs come out in order of their earliest sentence (by
    `sentences.index`, so a repeated sentence counts at its first
    position).
   */
  lemma GroupsOrdered(sentences: seq<String>, labels: seq<int>, k: nat)
    requires ValidLabels(labels, |sentences|, k)
    requires Groups(sentences, labels, k).Ok?
    ensures var gs := Groups(sentences, labels, k).value;
      && (forall p :: 0 <= p < k ==> |gs[p]| > 0 && forall t :: 0 <= t < |gs[p]| ==> gs[p][t] < |sentences|)
      && (forall p, q :: 0 <= p < q < k ==> MinKey(sentences, gs[p]) <= MinKey(sentences, gs[q]))
  {
    var members := AllMembers(labels, k);
    var keys := GroupKeys(sentences, members);
    var order := ClusterOrder(sentences, labels, k);
    var gs := Groups(sentences, labels, k).value;
    forall p, q | 0 <= p < q < k ensures MinKey(sentences, gs[p]) <= MinKey(sentences, gs[q]) {
      assert Before(keys, order[p], order[q]);
    }
  }

  /** With distinct sentences, each paragraph starts after the previous one's first sentence. */
  lemma GroupsOrderedDistinct(sentences: seq<String>, labels: seq<int>, k: nat)
    requires ValidLabels(labels, |sentences|, k)
    requires Groups(sentences, labels, k).Ok?
    requires Distinct(sentences)
    ensures var gs := Groups(sentences, labels, k).value;
      forall p, q :: 0 <= p < q < k ==> |gs[p]| > 0 && |gs[q]| > 0 && gs[p][0] < gs[q][0]
  {
    GroupsPartition(sentences, labels, k);
    GroupsOrdered(sentences, labels, k);
    var gs := Groups(sentences, labels, k).value;
    forall p, q | 0 <= p < q < k ensures gs[p][0] < gs[q][0] {
      MinKeyOfDistinct(sentences, gs[p]);
      MinKeyOfDistinct(sentences, gs[q]);
      assert gs[p][0] in gs[p] && gs[q][0] in gs[q];
    }
  }

  /** `' '.join(paragraph_sentences)`. */
  function ParagraphText(sentences: seq<String>, g: seq<nat>): (text: String)
    requires forall t :: 0 <= t < |g| ==> g[t] < |sentences|
    ensures |g| > 0 && (forall t :: 0 <= t < |g| ==> !Contains(sentences[g[t]], " ")) ==>
              Split(text, " ") == seq(|g|, t requires 0 <= t < |g| => sentences[g[t]])
  {
    var parts := seq(|g|, t requires 0 <= t < |g| => sentences[g[t]]);
    if |g| > 0 && forall t :: 0 <= t < |g| ==> !Contains(parts[t], " ") then
      SplitJoin(parts, " ");
      Join(parts, " ")
    else Join(parts, " ")
  }

  /**
    A paragraph's text starts with its first sentence, ends with its last,
    and holds every sentence's characters and one space between each two.
   */
  lemma ParagraphTextShape(sentences: seq<String>, g: seq<nat>)
    requires forall t :: 0 <= t < |g| ==> g[t] < |sentences|
    requires |g| > 0
    ensures var text := ParagraphText(sentences, g);
      && StartsWith(text, sentences[g[0]])
      && EndsWith(text, sentences[g[|g| - 1]])
      && |text| == TotalLength(seq(|g|, t requires 0 <= t < |g| => sentences[g[t]])) + |g| - 1
  {
    var parts := seq(|g|, t requires 0 <= t < |g| => sentences[g[t]]);
    assert ParagraphText(sentences, g) == Join(parts, " ");
    JoinStartsWithFirst(parts, " ");
    JoinEndsWithLast(parts, " ");
    JoinLength(parts, " ");
  }

  /** The joined paragraphs that are non-empty lists, in order. */
  function Paragraphs(sentences: seq<String>, gs: seq<seq<nat>>): (ps: seq<String>)
    requires forall p, t :: 0 <= p < |gs| && 0 <= t < |gs[p]| ==> gs[p][t] < |sentences|
    ensures |ps| <= |gs|
    ensures (forall p :: 0 <= p < |gs| ==> |gs[p]| > 0) ==>
      |ps| == |gs| && forall p :: 0 <= p < |gs| ==> ps[p] == ParagraphText(sentences, gs[p])
  {
    if |gs| == 0 then []
    else
      var rest := Paragraphs(sentences, gs[1..]);
      if |gs[0]| > 0 then [ParagraphText(sentences, gs[0])] + rest else rest
  }

  /**
    `segment_into_paragraphs(text, m)` given the tokenizer's sentences and
    the cluster label KMeans assigns each of them.
   */
  function Segment(text: String, m: int, sentences: seq<String>, labels: seq<int>): (r: Result<seq<String>>)
    ensures |sentences| <= m ==> r == Ok([text])
    ensures r == Err(ZeroDivision) <==> m == 0 && |sentences| > 0
    ensures r.Ok? && |sentences| > m ==> 1 <= |r.value| <= |sentences| / 2
    ensures r == Err(EmptyCluster) ==> exists k :: 0 <= k < |sentences| && ValidLabels(labels, |sentences|, k) && !AllClustersUsed(labels, k)
    ensures |sentences| > m && ClusterCount(|sentences|, m).Ok? ==>
      var k := ClusterCount(|sentences|, m).value;
      && (!ValidLabels(labels, |sentences|, k) ==> r == Err(InvalidLabels))
      && (ValidLabels(labels, |sentences|, k) && !AllClustersUsed(labels, k) ==> r == Err(EmptyCluster))
      && (ValidLabels(labels, |sentences|, k) && AllClustersUsed(labels, k) ==>
            r.Ok? && r.value == Paragraphs(sentences, Groups(sentences, labels, k).value))
    ensures r.Ok? && |sentences| > m ==>
      var k := ClusterCount(|sentences|, m).value;
      && ClusterCount(|sentences|, m).Ok? && ValidLabels(labels, |sentences|, k)
      && Groups(sentences, labels, k).Ok?
      && r.value == Paragraphs(sentences, Groups(sentences, labels, k).value)
  {
    if |sentences| <= m then Ok([text])
    else match ClusterCount(|sentences|, m)
      case Err(e) => Err(e)
      case Ok(k) =>
        if !ValidLabels(labels, |sentences|, k) then Err(InvalidLabels)
        else match Groups(sentences, labels, k)
          case Err(e) => Err(e)
          case Ok(gs) =>
            GroupsPartition(sentences, labels, k);
            Ok(Paragraphs(sentences, gs))
  }
}

=== FILE: seqs.dfy ===
/**
  Generic facts about sequences used throughout the model: subsequences,
  selection by a mask of booleans, first positions and occurrence counts.
 */
module Seqs {

  /** `a` can be obtained from `b` by deleting elements (order preserved). */
  ghost predicate IsSubseq<T>(a: seq<T>, b: seq<T>)
    decreases |b|
  {
    |a| == 0 ||
    (|b| > 0 && ((a[0] == b[0] && IsSubseq(a[1..], b[1..])) || IsSubseq(a, b[1..])))
  }

  /** The elements of `xs` whose position is marked in `mask`, in order. */
  function Filtered<T>(xs: seq<T>, mask: seq<bool>): seq<T>
    requires |mask| == |xs|
  {
    if |xs| == 0 then []
    else (if mask[0] then [xs[0]] else []) + Filtered(xs[1..], mask[1..])
  }

  /** Selecting with a mask only deletes elements. */
  lemma {:induction false} FilteredIsSubseq<T>(xs: seq<T>, mask: seq<bool>)
    requires |mask| == |xs|
    ensures IsSubseq(Filtered(xs, mask), xs)
    ensures |Filtered(xs, mask)| <= |xs|
    decreases |xs|
  {
    if |xs| > 0 {
      FilteredIsSubseq(xs[1..], mask[1..]);
      var rest := Filtered(xs[1..], mask[1..]);
      if mask[0] {
        assert Filtered(xs, mask) == [xs[0]] + rest;
        assert ([xs[0]] + rest)[1..] == rest;
      } else {
        assert Filtered(xs, mask) == rest;
        if |rest| > 0 {
          assert IsSubseq(rest, xs[1..]);
        }
      }
    }
  }

  /** Selecting from a longer sequence appends the choice for the new last element. */
  lemma {:induction false} FilteredSnoc<T>(xs: seq<T>, mask: seq<bool>, x: T, b: bool)
    requires |mask| == |xs|
    ensures Filtered(xs + [x], mask + [b]) == Filtered(xs, mask) + (if b then [x] else [])
    decreases |xs|
  {
    if |xs| == 0 {
      assert xs + [x] == [x];
      assert mask + [b] == [b];
    } else {
      assert (xs + [x])[1..] == xs[1..] + [x];
      assert (mask + [b])[1..] == mask[1..] + [b];
      FilteredSnoc(xs[1..], mask[1..], x, b);
    }
  }

  /** `f` applied to every element, in order. */
  function MapSeq<T, U>(xs: seq<T>, f: T -> U): (ys: seq<U>)
    ensures |ys| == |xs|
    ensures forall i :: 0 <= i < |xs| ==> ys[i] == f(xs[i])
  {
    seq(|xs|, i requires 0 <= i < |xs| => f(xs[i]))
  }

  /** Which elements satisfy `keep`: the selection mask of a filter. */
  function Mask<T>(xs: seq<T>, keep: T -> bool): (m: seq<bool>)
    ensures |m| == |xs|
    ensures forall i :: 0 <= i < |xs| ==> m[i] == keep(xs[i])
  {
    MapSeq(xs, keep)
  }

  /** The comprehension `[f(x) for x in xs if keep(x)]`. */
  function Select<T, U>(xs: seq<T>, keep: T -> bool, f: T -> U): seq<U>
  {
    MapSeq(Filtered(xs, Mask(xs, keep)), f)
  }

  /** Filtering by a predicate over a non-empty sequence: the first element if kept, then the rest. */
  lemma FilterCons<T>(xs: seq<T>, keep: T -> bool)
    requires |xs| > 0
    ensures Filtered(xs, Mask(xs, keep)) == (if keep(xs[0]) then [xs[0]] else []) + Filtered(xs[1..], Mask(xs[1..], keep))
  {
    assert Mask(xs, keep)[1..] == Mask(xs[1..], keep);
  }

  /** A comprehension over a non-empty sequence: the first element's contribution, then the rest. */
  lemma SelectCons<T, U>(xs: seq<T>, keep: T -> bool, f: T -> U)
    requires |xs| > 0
    ensures Select(xs, keep, f) == (if keep(xs[0]) then [f(xs[0])] else []) + Select(xs[1..], keep, f)
  {
    var m := Mask(xs, keep);
    assert m[1..] == Mask(xs[1..], keep);
    var tail := Filtered(xs[1..], m[1..]);
    assert Filtered(xs, m) == (if keep(xs[0]) then [xs[0]] else []) + tail;
    if keep(xs[0]) {
      assert MapSeq([xs[0]] + tail, f) == [f(xs[0])] + MapSeq(tail, f);
    } else {
      assert MapSeq([] + tail, f) == MapSeq(tail, f);
    }
  }

  /** A comprehension picks some of the mapped elements, in their order. */
  lemma {:induction false} SelectSubseq<T, U>(xs: seq<T>, keep: T -> bool, f: T -> U)
    ensures IsSubseq(Select(xs, keep, f), MapSeq(xs, f))
    decreases |xs|
  {
    if |xs| > 0 {
      var r := Select(xs, keep, f);
      var rest := Select(xs[1..], keep, f);
      var m := MapSeq(xs, f);
      SelectCons(xs, keep, f);
      SelectSubseq(xs[1..], keep, f);
      assert m[1..] == MapSeq(xs[1..], f);
      if keep(xs[0]) {
        assert r[0] == m[0] && r[1..] == rest;
      } else {
        assert r == rest;
      }
    }
  }

  /** What a comprehension yields: `f` of a kept element, and `f` of every kept element. */
  lemma {:induction false} SelectMembers<T, U>(xs: seq<T>, keep: T -> bool, f: T -> U)
    ensures forall y :: y in Select(xs, keep, f) ==> exists x :: x in xs && keep(x) && y == f(x)
    ensures forall x :: x in xs && keep(x) ==> f(x) in Select(xs, keep, f)
    decreases |xs|
  {
    if |xs| > 0 {
      SelectCons(xs, keep, f);
      SelectMembers(xs[1..], keep, f);
      assert forall x :: x in xs[1..] ==> x in xs;
      assert forall x :: x in xs ==> x == xs[0] || x in xs[1..];
    }
  }

  /** Nothing is selected exactly when nothing is marked. */
  lemma {:induction false} FilteredNone<T>(xs: seq<T>, mask: seq<bool>)
    requires |mask| == |xs|
    ensures Filtered(xs, mask) == [] <==> forall k :: 0 <= k < |mask| ==> !mask[k]
    decreases |xs|
  {
    if |xs| > 0 {
      FilteredNone(xs[1..], mask[1..]);
      assert forall k :: 0 < k < |mask| ==> mask[k] == mask[1..][k - 1];
    }
  }

  /** Position `j` is marked and no later position is. */
  predicate LastMarkedAt(mask: seq<bool>, j: nat)
  {
    j < |mask| && mask[j] && forall k :: j < k < |mask| ==> !mask[k]
  }

  /** The last selected element sits at the last marked position. */
  lemma {:induction false} FilteredLast<T>(xs: seq<T>, mask: seq<bool>)
    requires |mask| == |xs| && Filtered(xs, mask) != []
    ensures exists j: nat :: LastMarkedAt(mask, j) && j < |xs| && Filtered(xs, mask)[|Filtered(xs, mask)| - 1] == xs[j]
    decreases |xs|
  {
    var rest := Filtered(xs[1..], mask[1..]);
    var r := Filtered(xs, mask);
    assert r == (if mask[0] then [xs[0]] else []) + rest;
    if rest == [] {
      FilteredNone(xs[1..], mask[1..]);
      assert forall k :: 0 < k < |mask| ==> mask[k] == mask[1..][k - 1];
      assert LastMarkedAt(mask, 0);
    } else {
      FilteredLast(xs[1..], mask[1..]);
      var j: nat :| LastMarkedAt(mask[1..], j) && j < |xs| - 1 && rest[|rest| - 1] == xs[1..][j];
      assert forall k :: j + 1 < k < |mask| ==> mask[k] == mask[1..][k - 1];
      assert LastMarkedAt(mask, j + 1);
    }
  }

  /** Selecting from one more element of a prefix. */
  lemma FilteredPrefixStep<T>(xs: seq<T>, mask: seq<bool>, i: nat)
    requires |mask| == |xs| && i < |xs|
    ensures Filtered(xs[..i + 1], mask[..i + 1]) == Filtered(xs[..i], mask[..i]) + (if mask[i] then [xs[i]] else [])
  {
    assert xs[..i + 1] == xs[..i] + [xs[i]];
    assert mask[..i + 1] == mask[..i] + [mask[i]];
    FilteredSnoc(xs[..i], mask[..i], xs[i], mask[i]);
  }

  /** Deleting elements is transitive. */
  lemma {:induction false} SubseqTrans<T>(a: seq<T>, b: seq<T>, c: seq<T>)
    requires IsSubseq(a, b) && IsSubseq(b, c)
    ensures IsSubseq(a, c)
    decreases |c|
  {
    if |a| == 0 {
    } else if IsSubseq(b, c[1..]) {
      SubseqTrans(a, b, c[1..]);
    } else {
      assert b[0] == c[0] && IsSubseq(b[1..], c[1..]);
      if IsSubseq(a, b[1..]) {
        SubseqTrans(a, b[1..], c[1..]);
      } else {
        SubseqTrans(a[1..], b[1..], c[1..]);
      }
    }
  }

  /** A subsequence holds only elements of the original. */
  lemma {:induction false} SubseqIn<T>(a: seq<T>, b: seq<T>)
    requires IsSubseq(a, b)
    ensures forall x :: x in a ==> x in b
    decreases |b|
  {
    if |a| > 0 {
      if a[0] == b[0] && IsSubseq(a[1..], b[1..]) {
        SubseqIn(a[1..], b[1..]);
        assert forall x :: x in a ==> x == a[0] || x in a[1..];
      } else {
        SubseqIn(a, b[1..]);
      }
    }
  }

  /** Every sequence is a subsequence of itself. */
  lemma {:induction false} SubseqRefl<T>(a: seq<T>)
    ensures IsSubseq(a, a)
    decreases |a|
  {
    if |a| > 0 {
      SubseqRefl(a[1..]);
    }
  }

  /** A suffix is a subsequence. */
  lemma {:induction false} SuffixSubseq<T>(xs: seq<T>, k: nat)
    requires k <= |xs|
    ensures IsSubseq(xs[k..], xs)
    decreases k
  {
    if k == 0 {
      SubseqRefl(xs);
      assert xs[0..] == xs;
    } else {
      SuffixSubseq(xs[1..], k - 1);
      assert xs[1..][k - 1..] == xs[k..];
      if |xs[k..]| > 0 {
        assert IsSubseq(xs[k..], xs[1..]);
      }
    }
  }

  /** Python's `xs.index(x)`: the position of the first occurrence. */
  function FirstIndex<T(==)>(xs: seq<T>, x: T): (i: nat)
    requires x in xs
    ensures i < |xs| && xs[i] == x
    ensures forall j :: 0 <= j < i ==> xs[j] != x
  {
    if xs[0] == x then 0 else 1 + FirstIndex(xs[1..], x)
  }

  /** How often `x` occurs in `xs`. */
  function Count<T(==)>(xs: seq<T>, x: T): nat
  {
    multiset(xs)[x]
  }

  /** The elements of `xs` are pairwise different. */
  predicate Distinct<T(==)>(xs: seq<T>)
  {
    forall i, j :: 0 <= i < j < |xs| ==> xs[i] != xs[j]
  }

  /** Every element of `xs` is strictly smaller than the next. */
  predicate StrictlyIncreasing(xs: seq<int>)
  {
    forall i, j :: 0 <= i < j < |xs| ==> xs[i] < xs[j]
  }

  /** No two elements of `xs` have the same image under `f`. */
  predicate DistinctBy<T, K(==)>(xs: seq<T>, f: T -> K)
  {
    forall a, b :: 0 <= a < b < |xs| ==> f(xs[a]) != f(xs[b])
  }

  /** A new first element whose image is not taken keeps the images distinct. */
  lemma DistinctByPrepend<T, K>(x: T, rest: seq<T>, f: T -> K)
    requires DistinctBy(rest, f)
    requires forall y :: y in rest ==> f(x) != f(y)
    ensures DistinctBy([x] + rest, f)
  {
    var r := [x] + rest;
    forall a, b | 0 <= a < b < |r| ensures f(r[a]) != f(r[b]) {
      assert r[b] == rest[b - 1];
      if a == 0 {
        assert rest[b - 1] in rest;
      } else {
        assert r[a] == rest[a - 1];
      }
    }
  }

  /** A new last element whose image is outside a set holding all earlier images keeps the images distinct. */
  lemma DistinctByAppend<T, K>(acc: seq<T>, x: T, f: T -> K, seen: set<K>)
    requires DistinctBy(acc, f)
    requires forall a :: 0 <= a < |acc| ==> f(acc[a]) in seen
    requires f(x) !in seen
    ensures DistinctBy(acc + [x], f)
  {
    var r := acc + [x];
    forall a, b | 0 <= a < b < |r| ensures f(r[a]) != f(r[b]) {
      assert r[a] == acc[a];
      if b < |acc| {
        assert r[b] == acc[b];
      }
    }
  }

  /** Dropping the first element keeps the images distinct. */
  lemma DistinctByTail<T, K>(xs: seq<T>, f: T -> K)
    requires |xs| > 0 && DistinctBy(xs, f)
    ensures DistinctBy(xs[1..], f)
  {
    assert forall a :: 0 <= a < |xs| - 1 ==> xs[1..][a] == xs[a + 1];
  }

  /** Selecting with a mask keeps the images distinct. */
  lemma {:induction false} FilteredDistinctBy<T, K>(xs: seq<T>, mask: seq<bool>, f: T -> K)
    requires |mask| == |xs|
    requires DistinctBy(xs, f)
    ensures DistinctBy(Filtered(xs, mask), f)
    decreases |xs|
  {
    if |xs| > 0 {
      DistinctByTail(xs, f);
      FilteredDistinctBy(xs[1..], mask[1..], f);
      var rest := Filtered(xs[1..], mask[1..]);
      if mask[0] {
        FilteredIsSubseq(xs[1..], mask[1..]);
        SubseqIn(rest, xs[1..]);
        forall y | y in rest ensures f(xs[0]) != f(y) {
          var b :| 0 <= b < |xs| - 1 && xs[1..][b] == y;
          assert xs[b + 1] == y;
        }
        DistinctByPrepend(xs[0], rest, f);
      }
    }
  }
}

=== FILE: simple.dfy ===
/**
  The model-free pipeline of simple_test.py: duplicate removal on the
  pieces between ". " separators, fixed-size paragraphs, headings from
  capitalised words, and the Markdown document.
 */
module Simple {
  import opened Outcome
  import opened Seqs
  import opened Text
  import opened Ranking
  import opened Dedup
  import opened Layout

  const Sep: String := ". "
  /** A piece is kept only when its key is longer than this. */
  const MinKeyLen: nat := 10
  /** Pieces per paragraph in `process_transcript_simple`. */
  const PiecesPerParagraph: nat := 4

  lemma SepNoSelfOverlap()
    ensures NoSelfOverlap(Sep)
  {
    assert Sep[1..] == " " && Sep[..1] == ".";
  }

  // ---------------------------------------------------------------------
  // simple_clean_repetitive_text

  /** The pieces the cleaner keeps: stripped, key longer than 10, first of their key. */
  function CleanPieces(text: String): (r: seq<String>)
    ensures r == Filtered(StripAll(Split(text, Sep)), FirstMask(Split(text, Sep), MinKeyLen))
    ensures Deduplicated(r, MinKeyLen)
    ensures IsSubseq(r, StripAll(Split(text, Sep)))
    ensures forall i :: 0 <= i < |r| ==> !Contains(r[i], Sep)
  {
    var pieces := Split(text, Sep);
    var r := DedupFirst(pieces, MinKeyLen);
    StrippedPiecesLackSep(pieces, r);
    r
  }

  /** Pieces of a split, once stripped, still do not contain the separator. */
  lemma StrippedPiecesLackSep(pieces: seq<String>, r: seq<String>)
    requires forall i :: 0 <= i < |pieces| ==> !Contains(pieces[i], Sep)
    requires IsSubseq(r, StripAll(pieces))
    ensures forall i :: 0 <= i < |r| ==> !Contains(r[i], Sep)
  {
    SubseqIn(r, StripAll(pieces));
    forall i | 0 <= i < |r| ensures !Contains(r[i], Sep) {
      assert r[i] in StripAll(pieces);
      var j :| 0 <= j < |pieces| && StripAll(pieces)[j] == r[i];
      StripContains(pieces[j], Sep);
    }
  }

  /**
    `simple_clean_repetitive_text(text)`: the kept pieces joined by ". ".
    Splitting the result again gives back exactly the kept pieces.
   */
  function SimpleClean(text: String): (r: String)
    ensures |CleanPieces(text)| > 0 ==> Split(r, Sep) == CleanPieces(text)
    ensures |CleanPieces(text)| == 0 <==> r == []
  {
    var kept := CleanPieces(text);
    if |kept| > 0 then
      SepNoSelfOverlap();
      SplitJoin(kept, Sep);
      assert |kept[0]| > 0 by { assert |Key(kept[0])| > MinKeyLen; }
      assert |Join(kept, Sep)| > 0 by { JoinStartsWithFirst(kept, Sep); }
      Join(kept, Sep)
    else Join(kept, Sep)
  }

  /** Nothing survives from a text with no long piece, in particular from the empty text. */
  lemma CleanEmpty()
    ensures CleanPieces([]) == []
  {
    assert Split([], Sep) == [[]] by {
      assert Find([], Sep).None?;
    }
    var pieces: seq<String> := [[]];
    assert Key(pieces[0]) == [];
    assert !FirstOccurrence(pieces, MinKeyLen, 0);
    assert Filtered(StripAll(pieces), FirstMask(pieces, MinKeyLen)) == [];
  }

  /** Cleaning the cleaner's output changes nothing. */
  lemma SimpleCleanIdempotent(text: String)
    ensures SimpleClean(SimpleClean(text)) == SimpleClean(text)
  {
    var kept := CleanPieces(text);
    var r := SimpleClean(text);
    if |kept| > 0 {
      assert Split(r, Sep) == kept;
      DedupIdempotent(kept, MinKeyLen);
      assert CleanPieces(r) == DedupFirst(kept, MinKeyLen);
    } else {
      CleanEmpty();
    }
  }

  // ---------------------------------------------------------------------
  // simple_paragraph_segmentation

  function Flatten(cs: seq<seq<String>>): seq<String>
  {
    if |cs| == 0 then [] else cs[0] + Flatten(cs[1..])
  }

  lemma MulMono(a: nat, b: nat, p: nat)
    requires a <= b
    ensures a * p <= b * p
  {
  }

  /** `[xs[i:i + p] for i in range(0, len(xs), p)]`: consecutive runs of `p`, the last possibly shorter. */
  function Chunks(xs: seq<String>, p: nat): (cs: seq<seq<String>>)
    requires p > 0
    ensures |xs| <= |cs| * p < |xs| + p
    ensures forall k :: 0 <= k < |cs| ==> 0 < |cs[k]| <= p
    ensures forall k :: 0 <= k < |cs| - 1 ==> |cs[k]| == p
    ensures Flatten(cs) == xs
    decreases |xs|
  {
    if |xs| == 0 then []
    else if |xs| <= p then
      assert Flatten([xs]) == xs + Flatten([]);
      [xs]
    else
      var rest := Chunks(xs[p..], p);
      assert (1 + |rest|) * p == p + |rest| * p;
      assert xs[..p] + xs[p..] == xs;
      assert ([xs[..p]] + rest)[1..] == rest;
      [xs[..p]] + rest
  }

  /** Each run joined by the separator. */
  function JoinEach(cs: seq<seq<String>>, sep: String): (ps: seq<String>)
    ensures |ps| == |cs|
    ensures forall k :: 0 <= k < |cs| ==> ps[k] == Join(cs[k], sep)
  {
    seq(|cs|, k requires 0 <= k < |cs| => Join(cs[k], sep))
  }

  /** Joining the joined runs gives the join of all pieces: the runs are consecutive. */
  lemma {:induction false} RejoinRuns(cs: seq<seq<String>>, sep: String)
    requires forall k :: 0 <= k < |cs| ==> |cs[k]| > 0
    ensures Join(JoinEach(cs, sep), sep) == Join(Flatten(cs), sep)
    decreases |cs|
  {
    if |cs| == 1 {
      assert Flatten(cs) == cs[0] + Flatten([]);
      assert cs[0] + [] == cs[0];
    } else if |cs| > 1 {
      RejoinRuns(cs[1..], sep);
      assert JoinEach(cs, sep)[1..] == JoinEach(cs[1..], sep);
      FlattenNonEmpty(cs[1..]);
      JoinAppend(cs[0], Flatten(cs[1..]), sep);
    }
  }

  lemma {:induction false} FlattenNonEmpty(cs: seq<seq<String>>)
    requires |cs| > 0 && forall k :: 0 <= k < |cs| ==> |cs[k]| > 0
    ensures |Flatten(cs)| > 0
  {
  }

  /** A run that is not blank once stripped. */
  predicate HasText(p: String)
  {
    |Strip(p)| > 0
  }

  /** `[p.strip() for p in ps if p.strip()]`: the stripped runs that are not blank, in order. */
  function NonBlank(ps: seq<String>): (r: seq<String>)
    ensures r == Select(ps, HasText, Strip)
    ensures |r| <= |ps|
  {
    if |ps| == 0 then []
    else
      var rest := NonBlank(ps[1..]);
      var s := Strip(ps[0]);
      SelectCons(ps, HasText, Strip);
      if |s| > 0 then [s] + rest else rest
  }

  /** No kept paragraph is empty. */
  lemma {:induction false} NonBlankNonEmpty(ps: seq<String>)
    ensures forall x :: x in NonBlank(ps) ==> |x| > 0
    decreases |ps|
  {
    if |ps| > 0 {
      NonBlankNonEmpty(ps[1..]);
    }
  }

  /** The kept paragraphs are stripped runs, in their original order. */
  lemma NonBlankSubseq(ps: seq<String>)
    ensures IsSubseq(NonBlank(ps), StripAll(ps))
  {
    SelectSubseq(ps, HasText, Strip);
    assert StripAll(ps) == MapSeq(ps, Strip);
  }

  /**
    `simple_paragraph_segmentation(text, p)`: the pieces in runs of `p`,
    each run joined by ". " and stripped, blank ones dropped. A step of 0
    makes `range` raise; a negative step gives no paragraph.
   */
  function SimpleSegment(text: String, p: int): (r: Result<seq<String>>)
    ensures r.Err? <==> p == 0
    ensures r.Err? ==> r.error == ZeroStep
    ensures p < 0 ==> r == Ok([])
    ensures p > 0 ==> r.Ok? && |r.value| * p < |Split(text, Sep)| + p
    ensures p > 0 ==> r == Ok(Select(JoinEach(Chunks(Split(text, Sep), p), Sep), HasText, Strip))
    ensures r.Ok? ==> forall i :: 0 <= i < |r.value| ==> |r.value[i]| > 0
  {
    if p == 0 then Err(ZeroStep)
    else if p < 0 then Ok([])
    else
      var cs := Chunks(Split(text, Sep), p);
      var ps := NonBlank(JoinEach(cs, Sep));
      NonBlankNonEmpty(JoinEach(cs, Sep));
      assert forall i :: 0 <= i < |ps| ==> ps[i] in ps;
      MulMono(|ps|, |cs|, p);
      Ok(ps)
  }

  /** Before stripping, the paragraphs joined by ". " give back the text. */
  lemma SegmentRuns(text: String, p: nat)
    requires p > 0
    ensures Join(JoinEach(Chunks(Split(text, Sep), p), Sep), Sep) == text
  {
    RejoinRuns(Chunks(Split(text, Sep), p), Sep);
  }

  // ---------------------------------------------------------------------
  // simple_heading_generation

  /** The end of the run of lower-case ASCII letters starting at `i`. */
  function LowerRun(s: String, i: nat): (j: nat)
    requires i <= |s|
    ensures i <= j <= |s|
    ensures forall k :: i <= k < j ==> IsLower(s[k])
    ensures j == |s| || !IsLower(s[j])
    decreases |s| - i
  {
    if i < |s| && IsLower(s[i]) then LowerRun(s, i + 1) else i
  }

  /**
    `\b[A-Z][a-z]+\b` matches at `i`: a word boundary, one upper-case
    letter, lower-case letters up to the next word boundary.
   */
  predicate CapWordAt(s: String, i: nat)
  {
    i < |s| && (i == 0 || !IsWordChar(s[i - 1])) && IsUpper(s[i]) &&
    var j := LowerRun(s, i + 1);
    j > i + 1 && (j == |s| || !IsWordChar(s[j]))
  }

  /** One upper-case letter followed by one or more lower-case letters. */
  predicate CapWord(w: String)
  {
    |w| >= 2 && IsUpper(w[0]) && forall k :: 1 <= k < |w| ==> IsLower(w[k])
  }

  /** The word the pattern matches at `p`. */
  function MatchAt(s: String, p: nat): String
    requires CapWordAt(s, p)
  {
    s[p..LowerRun(s, p + 1)]
  }

  /**
    The word matched at every position from `i` on where the pattern
    matches, in order of position: the reference for `findall`, stated
    without the scan's jumps.
   */
  function AllCapWords(s: String, i: nat): seq<String>
    requires i <= |s|
    decreases |s| - i
  {
    if i == |s| then []
    else (if CapWordAt(s, i) then [MatchAt(s, i)] else []) + AllCapWords(s, i + 1)
  }

  /** No match starts inside the lower-case run of a match, so jumping over it loses nothing. */
  lemma {:induction false} NoMatchInRun(s: String, i: nat, k: nat)
    requires CapWordAt(s, i) && i < k <= LowerRun(s, i + 1)
    ensures AllCapWords(s, k) == AllCapWords(s, LowerRun(s, i + 1))
    decreases LowerRun(s, i + 1) - k
  {
    if k < LowerRun(s, i + 1) {
      assert IsLower(s[k]);
      NoMatchInRun(s, i, k + 1);
    }
  }

  /** The matches from a matching position: its word, then those after its run. */
  lemma MatchStep(s: String, i: nat)
    requires CapWordAt(s, i)
    ensures AllCapWords(s, i) == [MatchAt(s, i)] + AllCapWords(s, LowerRun(s, i + 1))
  {
    NoMatchInRun(s, i, i + 1);
  }

  /**
    `re.findall(r'\b[A-Z][a-z]+\b', s[i:])`, scanning as the regex engine
    does: after a match the scan resumes at its end. It reports exactly
    the word at each position where the pattern matches, in order.
   */
  function CapWordsFrom(s: String, i: nat): (ws: seq<String>)
    requires i <= |s|
    ensures forall k :: 0 <= k < |ws| ==> CapWord(ws[k])
    decreases |s| - i
  {
    if i == |s| then []
    else if CapWordAt(s, i) then
      var j := LowerRun(s, i + 1);
      var w := s[i..j];
      assert CapWord(w);
      var rest := CapWordsFrom(s, j);
      assert forall k :: 1 <= k < |rest| + 1 ==> ([w] + rest)[k] == rest[k - 1];
      [w] + rest
    else CapWordsFrom(s, i + 1)
  }

  /** The scan reports exactly the word at each position where the pattern matches, in order. */
  lemma {:induction false} CapWordsFromMatches(s: String, i: nat)
    requires i <= |s|
    ensures CapWordsFrom(s, i) == AllCapWords(s, i)
    decreases |s| - i
  {
    if i < |s| {
      if CapWordAt(s, i) {
        var j := LowerRun(s, i + 1);
        CapWordsFromMatches(s, j);
        assert CapWordsFrom(s, i) == [s[i..j]] + CapWordsFrom(s, j);
        MatchStep(s, i);
      } else {
        CapWordsFromMatches(s, i + 1);
        assert CapWordsFrom(s, i) == CapWordsFrom(s, i + 1);
      }
    }
  }

  const CommonWords: set<String> := {"The", "And", "But", "You", "Your", "This", "That", "They", "Here", "There"}

  predicate Uncommon(w: String)
  {
    w !in CommonWords
  }

  /**
    The capitalised words of the paragraph that are not common words: every
    match of the pattern, in order, the common ones left out.
   */
  function Keywords(paragraph: String): (kw: seq<String>)
    ensures kw == Filtered(AllCapWords(paragraph, 0), Mask(AllCapWords(paragraph, 0), Uncommon))
    ensures forall k :: 0 <= k < |kw| ==> CapWord(kw[k]) && kw[k] !in CommonWords
  {
    var ws := CapWordsFrom(paragraph, 0);
    CapWordsFromMatches(paragraph, 0);
    NotCommon(ws)
  }

  /** `[w for w in ws if w not in common_words]`. */
  function NotCommon(ws: seq<String>): (r: seq<String>)
    ensures r == Filtered(ws, Mask(ws, Uncommon))
    ensures forall k :: 0 <= k < |r| ==> r[k] in ws && r[k] !in CommonWords
    ensures forall w :: w in ws && w !in CommonWords ==> w in r
  {
    if |ws| == 0 then []
    else
      var rest := NotCommon(ws[1..]);
      FilterCons(ws, Uncommon);
      if ws[0] in CommonWords then rest else [ws[0]] + rest
  }

  /**
    `[w for w, _ in Counter(kw).most_common(4)][:3]`: the three best ranked
    keywords (fewer when there are fewer distinct ones); every keyword left
    out ranks below each of them.
   */
  function TopKeywords(kw: seq<String>): (top: seq<String>)
    ensures |top| == if 3 < |Uniq(kw)| then 3 else |Uniq(kw)|
    ensures forall i :: 0 <= i < |top| ==> top[i] in kw
    ensures forall i, j :: 0 <= i < j < |top| ==> Outranks(kw, top[i], top[j])
    ensures forall x, i :: x in kw && x !in top && 0 <= i < |top| ==> Outranks(kw, top[i], x)
  {
    var m := MostCommon(kw, 4);
    var n := if |m| < 3 then |m| else 3;
    var top := m[..n];
    forall x, i | x in kw && x !in top && 0 <= i < |top| ensures Outranks(kw, top[i], x) {
      if x in m {
        var j :| 0 <= j < |m| && m[j] == x;
        assert j >= n;
      }
    }
    top
  }

  /** `paragraph.split()[:4]`: the first four whitespace-separated words. */
  function FirstWords(paragraph: String): (ws: seq<String>)
    ensures |ws| <= 4 && |ws| <= |Words(paragraph)|
    ensures ws == Words(paragraph)[..|ws|]
    ensures |ws| < 4 ==> ws == Words(paragraph)
  {
    var ws := Words(paragraph);
    ws[..if |ws| < 4 then |ws| else 4]
  }

  /** The first four words, only the alphabetic ones, capitalised, in order. */
  function FallbackWords(paragraph: String): (r: seq<String>)
    ensures r == Select(FirstWords(paragraph), IsAlpha, Capitalize)
    ensures |r| <= 4
    ensures forall i :: 0 <= i < |r| ==> IsAlpha(r[i]) && Capitalize(r[i]) == r[i]
  {
    CapitalizeAlpha(FirstWords(paragraph))
  }

  /** The fallback words are exactly the alphabetic ones among the first four, capitalised. */
  lemma FallbackWordsContents(paragraph: String)
    ensures var r := FallbackWords(paragraph);
      && (forall x :: x in r ==> exists w :: w in FirstWords(paragraph) && IsAlpha(w) && x == Capitalize(w))
      && (forall w :: w in FirstWords(paragraph) && IsAlpha(w) ==> Capitalize(w) in r)
  {
    var first := FirstWords(paragraph);
    CapitalizeAlphaContents(first);
    assert FallbackWords(paragraph) == CapitalizeAlpha(first);
  }

  /** `[w.capitalize() for w in ws if w.isalpha()]`. */
  function CapitalizeAlpha(ws: seq<String>): (r: seq<String>)
    ensures r == Select(ws, IsAlpha, Capitalize)
    ensures |r| <= |ws|
    ensures forall i :: 0 <= i < |r| ==> IsAlpha(r[i]) && Capitalize(r[i]) == r[i]
  {
    if |ws| == 0 then []
    else
      var rest := CapitalizeAlpha(ws[1..]);
      SelectCons(ws, IsAlpha, Capitalize);
      if IsAlpha(ws[0]) then
        var c := Capitalize(ws[0]);
        CapitalizeOfAlpha(ws[0]);
        assert forall i :: 1 <= i < |rest| + 1 ==> ([c] + rest)[i] == rest[i - 1];
        [c] + rest
      else rest
  }

  /** Exactly the alphabetic words appear, capitalised. */
  lemma CapitalizeAlphaContents(ws: seq<String>)
    ensures var r := CapitalizeAlpha(ws);
      && (forall x :: x in r ==> exists w :: w in ws && IsAlpha(w) && x == Capitalize(w))
      && (forall w :: w in ws && IsAlpha(w) ==> Capitalize(w) in r)
  {
    SelectMembers(ws, IsAlpha, Capitalize);
  }

  /** Capitalising an alphabetic word keeps it alphabetic, and capitalising twice changes nothing. */
  lemma CapitalizeOfAlpha(w: String)
    requires IsAlpha(w)
    ensures IsAlpha(Capitalize(w)) && Capitalize(Capitalize(w)) == Capitalize(w)
  {
    var c := Capitalize(w);
    assert forall i :: 1 <= i < |w| ==> c[i] == LowerChar(w[i]);
  }

  /**
    `simple_heading_generation(paragraph)`: the top keywords joined by
    spaces; without keywords, the capitalised alphabetic words among the
    first four. Only the fallback can give an empty heading.
   */
  function SimpleHeading(paragraph: String): (h: String)
    ensures |Keywords(paragraph)| > 0 ==> h == Join(TopKeywords(Keywords(paragraph)), " ") && |h| > 0
    ensures |Keywords(paragraph)| == 0 ==> h == Join(FallbackWords(paragraph), " ")
  {
    var kw := Keywords(paragraph);
    if |kw| > 0 then
      var top := TopKeywords(kw);
      TopKeywordsNonEmpty(kw);
      JoinStartsWithFirst(top, " ");
      Join(top, " ")
    else Join(FallbackWords(paragraph), " ")
  }

  /** A paragraph with keywords has a non-empty best keyword. */
  lemma TopKeywordsNonEmpty(kw: seq<String>)
    requires |kw| > 0 && forall k :: 0 <= k < |kw| ==> CapWord(kw[k])
    ensures |TopKeywords(kw)| > 0 && |TopKeywords(kw)[0]| > 0
  {
    var top := TopKeywords(kw);
    assert kw[0] in Uniq(kw);
    var j :| 0 <= j < |kw| && kw[j] == top[0];
    assert CapWord(kw[j]);
  }

  // ---------------------------------------------------------------------
  // process_transcript_simple

  function DigitChar(d: nat): (c: char)
    requires d < 10
    ensures IsDigit(c)
  {
    ('0' as int + d) as char
  }

  /** The number a string of decimal digits denotes. */
  function DigitsValue(s: String): nat
    requires AllDigits(s)
  {
    if |s| == 0 then 0
    else DigitsValue(s[..|s| - 1]) * 10 + (s[|s| - 1] as int - '0' as int)
  }

  /** `str(n)`: decimal digits without leading zeros that read back as `n`. */
  function NatToString(n: nat): (s: String)
    ensures |s| > 0 && AllDigits(s)
    ensures DigitsValue(s) == n
    ensures n > 0 ==> s[0] != '0'
  {
    if n < 10 then [DigitChar(n)]
    else
      var init := NatToString(n / 10);
      var s := init + [DigitChar(n % 10)];
      assert s[..|s| - 1] == init;
      s
  }

  /** The default heading of the section at 1-based position `i`. */
  function DefaultHeading(i: nat): String
  {
    "Section " + NatToString(i)
  }

  /**
    The section of the paragraph at 0-based position `k`: its heading, or
    the default when that is empty, and no metadata.
   */
  function SimpleSection(paragraph: String, k: nat): (sec: Section)
    ensures sec.text == paragraph && !HasMetadata(sec) && |sec.heading| > 0
    ensures SimpleHeading(paragraph) != [] ==> sec.heading == SimpleHeading(paragraph)
    ensures SimpleHeading(paragraph) == [] ==> sec.heading == DefaultHeading(k + 1)
  {
    var h := SimpleHeading(paragraph);
    Section(if h != [] then h else DefaultHeading(k + 1), paragraph, None, None, None)
  }

  /**
    The sections of the document, one per paragraph in order: the
    paragraph's own heading, or `Section k` counting from 1 when that is empty.
   */
  function SimpleSections(paragraphs: seq<String>): (secs: seq<Section>)
    ensures |secs| == |paragraphs|
    ensures forall k :: 0 <= k < |secs| ==> secs[k].text == paragraphs[k] && !HasMetadata(secs[k])
    ensures forall k :: 0 <= k < |secs| ==>
      secs[k].heading == if SimpleHeading(paragraphs[k]) != [] then SimpleHeading(paragraphs[k]) else DefaultHeading(k + 1)
  {
    seq(|paragraphs|, k requires 0 <= k < |paragraphs| => SimpleSection(paragraphs[k], k))
  }

  /**
    `process_transcript_simple`'s document: the simple header, then one
    block per paragraph of the cleaned text, separated by rules.
   */
  function SimpleDocument(text: String): (doc: String)
    ensures StartsWith(doc, SimpleHeader)
    ensures var ps := SimpleSegment(SimpleClean(text), PiecesPerParagraph).value;
      Render(SimpleHeader, SimpleSections(ps)) == Ok(doc)
  {
    var ps := SimpleSegment(SimpleClean(text), PiecesPerParagraph).value;
    var secs := SimpleSections(ps);
    assert !Broken(secs);
    Render(SimpleHeader, secs).value
  }
}

=== FILE: text.dfy ===
/**
  Python string operations over ASCII text: character classes, `lower`,
  `strip`, `startswith`, `in`, `split`, `join`, `replace`, `title` and
  `capitalize`.

  Whitespace is what Python's `str.isspace` accepts among the ASCII
  characters (which is also what `\s` matches and what `strip()` and
  `split()` remove): space, tab, line feed, vertical tab, form feed,
  carriage return and the four separators 0x1C to 0x1F.
 */
module Text {
  import opened Outcome
  import opened Seqs

  type String = seq<char>

  predicate IsSpace(c: char)
  {
    c == ' ' || (9 <= c as int <= 13) || (28 <= c as int <= 31)
  }

  predicate IsDigit(c: char) { '0' <= c <= '9' }
  predicate IsUpper(c: char) { 'A' <= c <= 'Z' }
  predicate IsLower(c: char) { 'a' <= c <= 'z' }
  predicate IsLetter(c: char) { IsUpper(c) || IsLower(c) }

  /** A character matched by `\w`: a letter, a digit or the underscore. */
  predicate IsWordChar(c: char) { IsLetter(c) || IsDigit(c) || c == '_' }

  function LowerChar(c: char): char
  {
    if IsUpper(c) then (c as int + 32) as char else c
  }

  function UpperChar(c: char): char
  {
    if IsLower(c) then (c as int - 32) as char else c
  }

  /** `s.lower()` */
  function Lower(s: String): (r: String)
    ensures |r| == |s|
    ensures forall i :: 0 <= i < |s| ==> r[i] == LowerChar(s[i])
  {
    seq(|s|, i requires 0 <= i < |s| => LowerChar(s[i]))
  }

  /** The string is empty or every character is a digit (the body of `^\d+$`). */
  predicate AllDigits(s: String)
  {
    forall i :: 0 <= i < |s| ==> IsDigit(s[i])
  }

  /** `s.isalpha()` */
  predicate IsAlpha(s: String)
  {
    |s| > 0 && forall i :: 0 <= i < |s| ==> IsLetter(s[i])
  }

  predicate StartsWith(s: String, prefix: String)
  {
    |prefix| <= |s| && s[..|prefix|] == prefix
  }

  predicate EndsWith(s: String, suffix: String)
  {
    |suffix| <= |s| && s[|s| - |suffix|..] == suffix
  }

  /** The character sets the modelled code passes to `strip`, `lstrip` and `rstrip`. */
  datatype CharClass =
    | Whitespace  // no argument
    | Quotes      // '"\''
    | Slashes     // '/'

  predicate InClass(c: char, cls: CharClass)
  {
    match cls
    case Whitespace => IsSpace(c)
    case Quotes => c == '"' || c == '\''
    case Slashes => c == '/'
  }

  /** `s.lstrip(chars)`: removes the leading characters of the class. */
  function TrimLeft(s: String, cls: CharClass): (r: String)
    ensures |r| <= |s| && r == s[|s| - |r|..]
    ensures forall i :: 0 <= i < |s| - |r| ==> InClass(s[i], cls)
    ensures r == [] || !InClass(r[0], cls)
  {
    if |s| > 0 && InClass(s[0], cls) then TrimLeft(s[1..], cls) else s
  }

  /** `s.rstrip(chars)`: removes the trailing characters of the class. */
  function TrimRight(s: String, cls: CharClass): (r: String)
    ensures |r| <= |s| && r == s[..|r|]
    ensures forall i :: |r| <= i < |s| ==> InClass(s[i], cls)
    ensures r == [] || !InClass(r[|r| - 1], cls)
  {
    if |s| > 0 && InClass(s[|s| - 1], cls) then TrimRight(s[..|s| - 1], cls) else s
  }

  /** `s.strip(chars)` */
  function Trim(s: String, cls: CharClass): (r: String)
    ensures |r| <= |s|
    ensures r == [] || (!InClass(r[0], cls) && !InClass(r[|r| - 1], cls))
  {
    TrimRight(TrimLeft(s, cls), cls)
  }

  /**
    `strip` removes exactly the class characters at both ends: the result is
    a slice of the original, everything before and after it is in the
    class, and its own ends are not.
   */
  lemma {:induction false} TrimIsSlice(s: String, cls: CharClass)
    ensures var a, r := |s| - |TrimLeft(s, cls)|, Trim(s, cls); a + |r| <= |s| && r == s[a..a + |r|]
    ensures forall i :: 0 <= i < |s| - |TrimLeft(s, cls)| ==> InClass(s[i], cls)
    ensures var a, r := |s| - |TrimLeft(s, cls)|, Trim(s, cls); forall i :: a + |r| <= i < |s| ==> InClass(s[i], cls)
    ensures var r := Trim(s, cls); r == [] || (!InClass(r[0], cls) && !InClass(r[|r| - 1], cls))
  {
    TrimSlice(s, cls);
    TrimDroppedRight(s, cls);
  }

  lemma {:induction false} TrimSlice(s: String, cls: CharClass)
    ensures var a := |s| - |TrimLeft(s, cls)|; a + |Trim(s, cls)| <= |s| && Trim(s, cls) == s[a..a + |Trim(s, cls)|]
  {
  }

  lemma {:induction false} TrimDroppedRight(s: String, cls: CharClass)
    ensures var a, r := |s| - |TrimLeft(s, cls)|, Trim(s, cls); forall i :: a + |r| <= i < |s| ==> InClass(s[i], cls)
  {
    var l := TrimLeft(s, cls);
    var r := TrimRight(l, cls);
    assert Trim(s, cls) == r;
    SliceOfSlice(s, l, r, cls);
  }

  /** The facts `TrimLeft` and `TrimRight` state, composed. */
  lemma {:induction false} SliceOfSlice(s: String, l: String, r: String, cls: CharClass)
    requires |l| <= |s| && l == s[|s| - |l|..]
    requires forall i :: 0 <= i < |s| - |l| ==> InClass(s[i], cls)
    requires |r| <= |l| && r == l[..|r|]
    requires forall i :: |r| <= i < |l| ==> InClass(l[i], cls)
    ensures var a := |s| - |l|;
      && a + |r| <= |s| && r == s[a..a + |r|]
      && (forall i :: a + |r| <= i < |s| ==> InClass(s[i], cls))
  {
    var a := |s| - |l|;
    forall j | a + |r| <= j < |s| ensures InClass(s[j], cls) {
      assert l[j - a] == s[j];
    }
  }

  /**
    `r` is `s` with the characters before position `a` and after `a + |r|`
    removed, all of them in the class, and `r` neither starts nor ends
    with one.
   */
  predicate TrimmedAt(s: String, a: nat, r: String, cls: CharClass)
  {
    && a + |r| <= |s| && r == s[a..a + |r|]
    && (forall i :: 0 <= i < a ==> InClass(s[i], cls))
    && (forall i :: a + |r| <= i < |s| ==> InClass(s[i], cls))
    && (r == [] || (!InClass(r[0], cls) && !InClass(r[|r| - 1], cls)))
  }

  /** `strip(chars)` removes only class characters, and all of them, from the two ends. */
  lemma TrimExact(s: String, cls: CharClass)
    ensures exists a: nat :: TrimmedAt(s, a, Trim(s, cls), cls)
  {
    TrimIsSlice(s, cls);
    assert TrimmedAt(s, |s| - |TrimLeft(s, cls)|, Trim(s, cls), cls);
  }

  /** There is only one way to remove class characters from the ends until none is left there. */
  lemma TrimmedUnique(s: String, a: nat, r: String, b: nat, q: String, cls: CharClass)
    requires TrimmedAt(s, a, r, cls) && TrimmedAt(s, b, q, cls)
    ensures r == q
  {
    if r != [] && q != [] {
      assert s[a] == r[0] && s[b] == q[0];
      assert s[a + |r| - 1] == r[|r| - 1] && s[b + |q| - 1] == q[|q| - 1];
    }
  }

  /** `s.strip()` */
  function Strip(s: String): String
  {
    Trim(s, Whitespace)
  }

  /** A stripped string neither starts nor ends with whitespace. */
  lemma StripEnds(s: String)
    ensures Strip(s) == [] || (!IsSpace(Strip(s)[0]) && !IsSpace(Strip(s)[|Strip(s)| - 1]))
  {
  }

  /** `s.lstrip()` */
  function LStrip(s: String): String
  {
    TrimLeft(s, Whitespace)
  }

  /** Stripping twice is stripping once. */
  lemma TrimIdempotent(s: String, cls: CharClass)
    ensures Trim(Trim(s, cls), cls) == Trim(s, cls)
  {
    var r := Trim(s, cls);
    assert TrimLeft(r, cls) == r;
    assert TrimRight(r, cls) == r;
  }

  /** The text of a sentence as the deduplicating passes compare it. */
  function Key(s: String): String
  {
    Lower(Strip(s))
  }

  lemma KeyOfStripped(s: String)
    ensures Strip(Strip(s)) == Strip(s)
    ensures Key(Strip(s)) == Key(s)
  {
    TrimIdempotent(s, Whitespace);
  }

  // ---------------------------------------------------------------------
  // Searching, splitting and joining

  /** `pat` occurs in `s` starting at position `i`. */
  predicate OccursAt(s: String, pat: String, i: nat)
  {
    i + |pat| <= |s| && s[i..i + |pat|] == pat
  }

  /** Python's `pat in s`. */
  predicate Contains(s: String, pat: String)
  {
    exists i: nat :: i <= |s| && OccursAt(s, pat, i)
  }

  lemma OccursShift(s: String, pat: String, i: nat)
    requires |s| > 0
    ensures OccursAt(s, pat, i + 1) <==> OccursAt(s[1..], pat, i)
  {
    if i + 1 + |pat| <= |s| {
      assert s[1..][i..i + |pat|] == s[i + 1..i + 1 + |pat|];
    }
  }

  /** A slice contains only what the whole string contains. */
  lemma ContainsSlice(s: String, a: nat, b: nat, pat: String)
    requires a <= b <= |s|
    ensures Contains(s[a..b], pat) ==> Contains(s, pat)
  {
    if Contains(s[a..b], pat) {
      var j: nat :| j <= b - a && OccursAt(s[a..b], pat, j);
      assert s[a + j..a + j + |pat|] == pat by {
        forall t | 0 <= t < |pat| ensures s[a + j + t] == pat[t] {
          assert s[a..b][j..j + |pat|][t] == pat[t];
        }
      }
      assert OccursAt(s, pat, a + j);
    }
  }

  /** Stripping cannot create an occurrence. */
  lemma StripContains(s: String, pat: String)
    ensures Contains(Strip(s), pat) ==> Contains(s, pat)
  {
    TrimIsSlice(s, Whitespace);
    var a := |s| - |TrimLeft(s, Whitespace)|;
    ContainsSlice(s, a, a + |Strip(s)|, pat);
  }

  /** `s.find(pat)`, with None in place of -1. */
  function Find(s: String, pat: String): (r: Option<nat>)
    requires |pat| > 0
    ensures r.Some? ==> OccursAt(s, pat, r.value)
    ensures r.Some? ==> forall j: nat :: j < r.value ==> !OccursAt(s, pat, j)
    ensures r.None? ==> !Contains(s, pat)
    decreases |s|
  {
    if |s| < |pat| then None
    else if s[..|pat|] == pat then Some(0)
    else
      match Find(s[1..], pat)
      case None =>
        assert !Contains(s, pat) by {
          forall j: nat | j <= |s| ensures !OccursAt(s, pat, j) {
            if j > 0 { OccursShift(s, pat, j - 1); }
          }
        }
        None
      case Some(k) =>
        OccursShift(s, pat, k);
        assert forall j: nat :: j < k + 1 ==> !OccursAt(s, pat, j) by {
          forall j: nat | j < k + 1 ensures !OccursAt(s, pat, j) {
            if j > 0 { OccursShift(s, pat, j - 1); }
          }
        }
        Some(k + 1)
  }

  /** The first occurrence is the one `Find` reports. */
  lemma FindFirst(s: String, pat: String, k: nat)
    requires |pat| > 0
    requires OccursAt(s, pat, k)
    requires forall j: nat :: j < k ==> !OccursAt(s, pat, j)
    ensures Find(s, pat) == Some(k)
  {
    assert Contains(s, pat);
  }

  /** `sep.join(parts)` */
  function Join(parts: seq<String>, sep: String): String
  {
    if |parts| == 0 then []
    else if |parts| == 1 then parts[0]
    else parts[0] + sep + Join(parts[1..], sep)
  }

  /** A join starts with its first part, so it is at least as long. */
  lemma JoinStartsWithFirst(parts: seq<String>, sep: String)
    requires |parts| > 0
    ensures StartsWith(Join(parts, sep), parts[0]) && |Join(parts, sep)| >= |parts[0]|
  {
    if |parts| > 1 {
      assert Join(parts, sep) == parts[0] + (sep + Join(parts[1..], sep));
    }
  }

  /** A join ends with its last part. */
  lemma {:induction false} JoinEndsWithLast(parts: seq<String>, sep: String)
    requires |parts| > 0
    ensures EndsWith(Join(parts, sep), parts[|parts| - 1])
    decreases |parts|
  {
    if |parts| > 1 {
      JoinEndsWithLast(parts[1..], sep);
    }
  }

  /** `s.split(sep)`: the pieces between the non-overlapping occurrences of `sep`. */
  function Split(s: String, sep: String): (parts: seq<String>)
    requires |sep| > 0
    ensures |parts| >= 1
    ensures forall i :: 0 <= i < |parts| ==> !Contains(parts[i], sep)
    ensures Join(parts, sep) == s
    decreases |s|
  {
    match Find(s, sep)
    case None => [s]
    case Some(i) =>
      var head := s[..i];
      var tail := Split(s[i + |sep|..], sep);
      assert !Contains(head, sep) by {
        forall j: nat | OccursAt(head, sep, j) ensures false {
          assert head[j..j + |sep|] == s[j..j + |sep|];
          assert OccursAt(s, sep, j);
        }
      }
      assert Join([head] + tail, sep) == head + sep + Join(tail, sep) by {
        assert ([head] + tail)[1..] == tail;
      }
      assert head + sep + s[i + |sep|..] == s;
      [head] + tail
  }

  /** A separator none of whose proper suffixes is also a prefix of it. */
  predicate NoSelfOverlap(sep: String)
  {
    forall m :: 0 < m < |sep| ==> sep[m..] != sep[..|sep| - m]
  }

  /** Splitting the join of pieces that do not contain the separator gives the pieces back. */
  lemma {:induction false} SplitJoin(parts: seq<String>, sep: String)
    requires |sep| > 0 && NoSelfOverlap(sep)
    requires |parts| >= 1
    requires forall i :: 0 <= i < |parts| ==> !Contains(parts[i], sep)
    ensures Split(Join(parts, sep), sep) == parts
    decreases |parts|
  {
    var p := parts[0];
    if |parts| == 1 {
      assert Find(p, sep).None?;
    } else {
      var rest := Join(parts[1..], sep);
      var s := p + sep + rest;
      assert Join(parts, sep) == s;
      assert OccursAt(s, sep, |p|) by {
        assert s[|p|..|p| + |sep|] == sep;
      }
      forall j: nat | j < |p| ensures !OccursAt(s, sep, j) {
        if j + |sep| <= |p| {
          assert s[j..j + |sep|] == p[j..j + |sep|];
          assert !OccursAt(p, sep, j);
        } else {
          OccurrenceAcrossJoin(p, sep, rest, j);
        }
      }
      FindFirst(s, sep, |p|);
      assert s[..|p|] == p;
      assert s[|p| + |sep|..] == rest;
      SplitJoin(parts[1..], sep);
    }
  }

  /** An occurrence of `sep` that starts inside `p` and ends inside the separator after it is a border of `sep`. */
  lemma OccurrenceAcrossJoin(p: String, sep: String, rest: String, j: nat)
    requires j < |p| < j + |sep|
    ensures OccursAt(p + sep + rest, sep, j) ==> sep[|p| - j..] == sep[..|sep| - (|p| - j)]
  {
    var s := p + sep + rest;
    var m := |p| - j;
    if OccursAt(s, sep, j) {
      forall t | 0 <= t < |sep| - m ensures sep[m..][t] == sep[..|sep| - m][t] {
        assert sep[m + t] == s[j + m + t];
        assert s[|p| + t] == sep[t];
      }
    }
  }

  /** The number of characters in all the parts together. */
  function TotalLength(parts: seq<String>): nat
  {
    if |parts| == 0 then 0 else |parts[0]| + TotalLength(parts[1..])
  }

  /** A join holds every character of its parts and one separator between each two. */
  lemma {:induction false} JoinLength(parts: seq<String>, sep: String)
    requires |parts| > 0
    ensures |Join(parts, sep)| == TotalLength(parts) + (|parts| - 1) * |sep|
    decreases |parts|
  {
    if |parts| > 1 {
      JoinLength(parts[1..], sep);
      assert TotalLength(parts[1..][1..]) == TotalLength(parts[2..]) by { assert parts[1..][1..] == parts[2..]; }
    }
  }

  /** Joining two non-empty runs of pieces puts one separator between them. */
  lemma {:induction false} JoinAppend(a: seq<String>, b: seq<String>, sep: String)
    requires |a| > 0 && |b| > 0
    ensures Join(a + b, sep) == Join(a, sep) + sep + Join(b, sep)
    decreases |a|
  {
    if |a| == 1 {
      assert (a + b)[1..] == b;
    } else {
      assert (a + b)[1..] == a[1..] + b;
      JoinAppend(a[1..], b, sep);
    }
  }

  /** `s.replace(target, replacement)`, which Python defines as `replacement.join(s.split(target))`. */
  function Replace(s: String, target: String, replacement: String): (r: String)
    requires |target| > 0
    ensures !Contains(s, target) ==> r == s
  {
    var f := Find(s, target);
    assert Contains(s, target) ==> f.Some? && Split(s, target) == [s[..f.value]] + Split(s[f.value + |target|..], target);
    Join(Split(s, target), replacement)
  }

  /** Every `a` becomes `b`; every other character stays. */
  function MapChar(s: String, a: char, b: char): (r: String)
    ensures |r| == |s|
    ensures forall i :: 0 <= i < |s| ==> r[i] == if s[i] == a then b else s[i]
  {
    seq(|s|, i requires 0 <= i < |s| => if s[i] == a then b else s[i])
  }

  /** Replacing a single character by a single character maps it at every position. */
  lemma {:induction false} ReplaceChar(s: String, a: char, b: char)
    ensures Replace(s, [a], [b]) == MapChar(s, a, b)
    decreases |s|
  {
    match Find(s, [a])
    case None =>
      assert Split(s, [a]) == [s];
      forall i | 0 <= i < |s| ensures s[i] != a {
        assert !OccursAt(s, [a], i);
        assert s[i..i + 1] == [s[i]];
      }
      assert MapChar(s, a, b) == s;
    case Some(k) =>
      var tail := s[k + 1..];
      assert Split(s, [a]) == [s[..k]] + Split(tail, [a]);
      ReplaceChar(tail, a, b);
      var ts := Split(tail, [a]);
      assert Join([s[..k]] + ts, [b]) == s[..k] + [b] + Join(ts, [b]) by {
        assert ([s[..k]] + ts)[1..] == ts;
      }
      forall i | 0 <= i < k ensures s[i] != a {
        assert !OccursAt(s, [a], i);
        assert s[i..i + 1] == [s[i]];
      }
      assert s[k..k + 1] == [a];
      MapCharSplit(s, k, a, b);
  }

  /** Mapping characters around a position where `a` stands and before which it does not. */
  lemma MapCharSplit(s: String, k: nat, a: char, b: char)
    requires k < |s| && s[k] == a
    requires forall i :: 0 <= i < k ==> s[i] != a
    ensures MapChar(s, a, b) == s[..k] + [b] + MapChar(s[k + 1..], a, b)
  {
  }

  // ---------------------------------------------------------------------
  // Words and letter case

  /** The longest prefix of `s` free of whitespace. */
  function WordPrefix(s: String): (w: String)
    ensures |w| <= |s| && w == s[..|w|]
    ensures forall i :: 0 <= i < |w| ==> !IsSpace(w[i])
    ensures |s| > 0 && !IsSpace(s[0]) ==> |w| > 0
  {
    if |s| == 0 || IsSpace(s[0]) then [] else [s[0]] + WordPrefix(s[1..])
  }

  /** `s.split()`: the maximal runs of non-whitespace characters. */
  function Words(s: String): seq<String>
    decreases |s|
  {
    var t := LStrip(s);
    if |t| == 0 then []
    else
      var w := WordPrefix(t);
      [w] + Words(t[|w|..])
  }

  /** Every word is a non-empty run without whitespace. */
  lemma {:induction false} WordsAreWords(s: String)
    ensures forall w :: w in Words(s) ==> |w| > 0 && forall i :: 0 <= i < |w| ==> !IsSpace(w[i])
    decreases |s|
  {
    var t := LStrip(s);
    if |t| > 0 {
      var w := WordPrefix(t);
      WordsAreWords(t[|w|..]);
      assert Words(s) == [w] + Words(t[|w|..]);
    }
  }

  /** `s.title()` continued after a character that was (or was not) a letter. */
  function TitleFrom(s: String, afterLetter: bool): (r: String)
    ensures |r| == |s|
    ensures forall i :: 0 <= i < |s| ==>
      r[i] == if (if i == 0 then afterLetter else IsLetter(s[i - 1])) then LowerChar(s[i]) else UpperChar(s[i])
    ensures forall i :: 0 <= i < |s| ==> LowerChar(r[i]) == LowerChar(s[i])
  {
    if |s| == 0 then []
    else
      var c := if afterLetter then LowerChar(s[0]) else UpperChar(s[0]);
      var rest := TitleFrom(s[1..], IsLetter(s[0]));
      assert forall i :: 1 <= i < |s| ==> ([c] + rest)[i] == rest[i - 1] && s[1..][i - 1] == s[i];
      [c] + rest
  }

  /**
    `s.title()`: each letter that follows a non-letter (or starts the
    string) is upper-cased and every other letter lower-cased; only the
    case changes.
   */
  function Title(s: String): (r: String)
    ensures |r| == |s|
    ensures forall i :: 0 <= i < |s| ==>
      r[i] == if i > 0 && IsLetter(s[i - 1]) then LowerChar(s[i]) else UpperChar(s[i])
    ensures Lower(r) == Lower(s)
  {
    TitleFrom(s, false)
  }

  /** `s.capitalize()`: the first character upper-cased, the rest lower-cased. */
  function Capitalize(s: String): (r: String)
    ensures |r| == |s|
    ensures forall i :: 0 <= i < |s| ==> r[i] == if i == 0 then UpperChar(s[i]) else LowerChar(s[i])
    ensures Lower(r) == Lower(s)
  {
    if |s| == 0 then [] else [UpperChar(s[0])] + Lower(s[1..])
  }
}

=== FILE: vtt.dfy ===
/**
  The text pass of `clean_vtt_file` (download_transcript.py): a WebVTT
  subtitle file (the W3C WebVTT format) becomes one line of plain text.
  Each line is stripped and dropped when it is blank, a header or note, a
  cue timing or a cue setting; the survivors lose their `<...>` tags and
  `&name;` entities, are stripped again, dropped when blank or a cue
  number, joined by spaces, and every whitespace run becomes one space.

  Reading and writing the files is not modelled; the output file name is.
  The regular expressions are modelled over ASCII (`\d` as 0-9, `\s` as
  Python's ASCII whitespace).
 */
module Vtt {
  import opened Outcome
  import opened Seqs
  import opened Text

  // ---------------------------------------------------------------------
  // re.sub(r'<[^>]+>', '', s)

  /**
    A tag starts at `i`: a `<`, then at least one character before the
    first `>` that follows it.
   */
  predicate TagAt(s: String, i: int)
  {
    0 <= i && i + 1 < |s| && s[i] == '<' && s[i + 1] != '>' && '>' in s[i + 1..]
  }

  predicate HasTag(s: String)
  {
    exists i :: 0 <= i < |s| && TagAt(s, i)
  }

  lemma TagShift(c: char, t: String, i: int)
    requires i >= 0
    ensures TagAt([c] + t, i + 1) <==> TagAt(t, i)
  {
    if 0 <= i && i + 1 < |t| {
      assert ([c] + t)[i + 2..] == t[i + 1..];
    }
  }

  /** Removes every tag, scanning left to right as `re.sub` does. */
  function RemoveTags(s: String): (r: String)
    ensures |r| <= |s|
    ensures forall c :: c in r ==> c in s
    ensures |s| > 0 && s[0] != '<' ==> |r| > 0 && r[0] == s[0]
    ensures !HasTag(r)
    decreases |s|
  {
    if |s| == 0 then []
    else if TagAt(s, 0) then
      var k := FirstIndex(s[1..], '>');
      RemoveTags(s[k + 2..])
    else
      var rest := RemoveTags(s[1..]);
      var r := [s[0]] + rest;
      assert !HasTag(r) by {
        forall i | 0 <= i < |r| ensures !TagAt(r, i) {
          if i == 0 {
            if s[0] == '<' && |s| > 1 {
              if s[1] == '>' {
                assert r[1] == '>';
              } else {
                assert '>' !in s[1..];
                assert r[1..] == rest;
              }
            }
          } else {
            TagShift(s[0], rest, i - 1);
          }
        }
      }
      r
  }

  /** A string without tags passes through unchanged, so removal is idempotent. */
  lemma {:induction false} RemoveTagsNoTag(s: String)
    requires !HasTag(s)
    ensures RemoveTags(s) == s
    decreases |s|
  {
    if |s| > 0 {
      assert !TagAt(s, 0);
      assert !HasTag(s[1..]) by {
        forall i | 0 <= i < |s| - 1 ensures !TagAt(s[1..], i) {
          assert [s[0]] + s[1..] == s;
          TagShift(s[0], s[1..], i);
        }
      }
      RemoveTagsNoTag(s[1..]);
    }
  }

  lemma RemoveTagsIdempotent(s: String)
    ensures RemoveTags(RemoveTags(s)) == RemoveTags(s)
  {
    RemoveTagsNoTag(RemoveTags(s));
  }

  /**
    Text in which no tag starts is kept as it is, even when it holds a `<`
    that opens no tag (as in `<>`); together with RemoveTagsTag this splits
    every input into kept text and removed tags.
   */
  lemma {:induction false} RemoveTagsText(a: String, b: String)
    requires forall i :: 0 <= i < |a| ==> !TagAt(a + b, i)
    ensures RemoveTags(a + b) == a + RemoveTags(b)
    decreases |a|
  {
    if |a| > 0 {
      var s := a + b;
      var t := a[1..] + b;
      assert s == [a[0]] + t;
      assert !TagAt(s, 0);
      assert RemoveTags(s) == [a[0]] + RemoveTags(t);
      forall i | 0 <= i < |a[1..]| ensures !TagAt(t, i) {
        TagShift(a[0], t, i);
        assert !TagAt(s, i + 1);
      }
      RemoveTagsText(a[1..], b);
      assert a == [a[0]] + a[1..];
    } else {
      assert a + b == b;
    }
  }

  /** Text without a `<` is in particular text in which no tag starts. */
  lemma RemoveTagsNoOpen(a: String, b: String)
    requires '<' !in a
    ensures RemoveTags(a + b) == a + RemoveTags(b)
  {
    forall i | 0 <= i < |a| ensures !TagAt(a + b, i) {
      assert (a + b)[i] == a[i];
    }
    RemoveTagsText(a, b);
  }

  /** An empty `<>` opens no tag and survives, while the tag right after it is removed. */
  lemma RemoveTagsEmptyBrackets(x: String, b: String)
    requires |x| > 0 && '>' !in x
    ensures RemoveTags("<>" + ("<" + x + ">" + b)) == "<>" + RemoveTags(b)
  {
    var a := "<>";
    var rest := "<" + x + ">" + b;
    forall i | 0 <= i < |a| ensures !TagAt(a + rest, i) {
      assert (a + rest)[1] == '>';
    }
    RemoveTagsText(a, rest);
    RemoveTagsTag(x, b);
  }

  /** A tag `<x>` is removed whole, and removal goes on after its `>`. */
  lemma RemoveTagsTag(x: String, b: String)
    requires |x| > 0 && '>' !in x
    ensures RemoveTags("<" + x + ">" + b) == RemoveTags(b)
  {
    var s := "<" + x + ">" + b;
    assert s[1..] == x + ">" + b;
    assert s[1..][|x|] == '>';
    assert TagAt(s, 0);
    var k := FirstIndex(s[1..], '>');
    assert k == |x|;
    assert s[k + 2..] == b;
  }

  /** Removal only deletes characters. */
  lemma {:induction false} RemoveTagsSubseq(s: String)
    ensures IsSubseq(RemoveTags(s), s)
    decreases |s|
  {
    if |s| > 0 {
      if TagAt(s, 0) {
        var k := FirstIndex(s[1..], '>');
        RemoveTagsSubseq(s[k + 2..]);
        SuffixSubseq(s, k + 2);
        SubseqTrans(RemoveTags(s[k + 2..]), s[k + 2..], s);
      } else {
        RemoveTagsSubseq(s[1..]);
        assert RemoveTags(s) == [s[0]] + RemoveTags(s[1..]);
        assert ([s[0]] + RemoveTags(s[1..]))[1..] == RemoveTags(s[1..]);
      }
    }
  }

  // ---------------------------------------------------------------------
  // re.sub(r'&[a-zA-Z]+;', '', s)

  /** The number of ASCII letters `s` starts with. */
  function LetterRun(s: String): (n: nat)
    ensures n <= |s|
    ensures forall i :: 0 <= i < n ==> IsLetter(s[i])
    ensures n < |s| ==> !IsLetter(s[n])
  {
    if |s| > 0 && IsLetter(s[0]) then 1 + LetterRun(s[1..]) else 0
  }

  /** An entity starts at position 0: `&`, one or more letters, `;`. */
  predicate EntityFirst(s: String)
  {
    |s| > 0 && s[0] == '&' && var n := LetterRun(s[1..]); n > 0 && n + 1 < |s| && s[n + 1] == ';'
  }

  predicate EntityChar(c: char)
  {
    c == '&' || c == ';' || IsLetter(c)
  }

  /** Removes the entities, scanning left to right as `re.sub` does. */
  function RemoveEntities(s: String): (r: String)
    ensures |r| <= |s|
    ensures '&' !in s ==> r == s
    ensures forall c :: !EntityChar(c) ==> Count(r, c) == Count(s, c)
    decreases |s|
  {
    if |s| == 0 then []
    else if EntityFirst(s) then
      var n := LetterRun(s[1..]) + 2;
      assert s == s[..n] + s[n..];
      assert forall c :: !EntityChar(c) ==> Count(s[..n], c) == 0 by {
        forall i | 0 <= i < n ensures EntityChar(s[..n][i]) {
          if 0 < i < n - 1 {
            assert s[..n][i] == s[1..][i - 1];
          }
        }
      }
      RemoveEntities(s[n..])
    else
      assert s == [s[0]] + s[1..];
      [s[0]] + RemoveEntities(s[1..])
  }

  // ---------------------------------------------------------------------
  // re.sub(r'\s+', ' ', s)

  /** The characters of `s` that are not whitespace, in order. */
  function NonSpace(s: String): (r: String)
    ensures |r| <= |s|
  {
    if |s| == 0 then []
    else (if IsSpace(s[0]) then [] else [s[0]]) + NonSpace(s[1..])
  }

  lemma {:induction false} NonSpaceAppend(a: String, b: String)
    ensures NonSpace(a + b) == NonSpace(a) + NonSpace(b)
    decreases |a|
  {
    if |a| == 0 {
      assert a + b == b;
    } else {
      var c := a + b;
      assert c[0] == a[0] && c[1..] == a[1..] + b;
      var head := if IsSpace(a[0]) then [] else [a[0]];
      assert NonSpace(c) == head + NonSpace(a[1..] + b);
      assert NonSpace(a) == head + NonSpace(a[1..]);
      NonSpaceAppend(a[1..], b);
    }
  }

  lemma {:induction false} NonSpaceOfSpaces(s: String)
    requires forall i :: 0 <= i < |s| ==> IsSpace(s[i])
    ensures NonSpace(s) == []
    decreases |s|
  {
    if |s| > 0 {
      NonSpaceOfSpaces(s[1..]);
    }
  }

  /**
    Where `s` has whitespace relative to its non-space characters: entry `k`
    says whether whitespace occurs right before non-space character `k`,
    and the last entry whether it occurs after the last one.
   */
  function Gaps(s: String): (g: seq<bool>)
    ensures |g| == |NonSpace(s)| + 1
    decreases |s|
  {
    if |s| == 0 then [false]
    else if IsSpace(s[0]) then Gaps(s[1..])[0 := true]
    else [false] + Gaps(s[1..])
  }

  /** Leading whitespace only marks the first gap. */
  lemma {:induction false} GapsDropSpaces(s: String, a: nat)
    requires 0 < a <= |s|
    requires forall i :: 0 <= i < a ==> IsSpace(s[i])
    ensures Gaps(s) == Gaps(s[a..])[0 := true]
    decreases a
  {
    if a > 1 {
      GapsDropSpaces(s[1..], a - 1);
      assert s[1..][a - 1..] == s[a..];
    }
  }

  /** A string that is empty or starts with a non-space character has no whitespace before its first one. */
  lemma GapsNoLead(s: String)
    requires |s| == 0 || !IsSpace(s[0])
    ensures Gaps(s)[0] == false
  {
  }

  /** Gaps `gx` followed by gaps `gy`, the last of `gx` merged with the first of `gy`. */
  function Seam(gx: seq<bool>, gy: seq<bool>): (g: seq<bool>)
    requires |gx| > 0 && |gy| > 0
    ensures |g| == |gx| + |gy| - 1
  {
    gx[..|gx| - 1] + [gx[|gx| - 1] || gy[0]] + gy[1..]
  }

  /** The gaps of a concatenation: the seam gap has whitespace when either side has it there. */
  lemma {:induction false} GapsAppend(x: String, y: String)
    ensures Gaps(x + y) == Seam(Gaps(x), Gaps(y))
    decreases |x|
  {
    var gy := Gaps(y);
    if |x| == 0 {
      assert x + y == y;
      assert gy == [gy[0]] + gy[1..];
    } else {
      var s := x + y;
      assert s[0] == x[0] && s[1..] == x[1..] + y;
      GapsAppend(x[1..], y);
      var g1 := Gaps(x[1..]);
      if IsSpace(x[0]) {
        assert Gaps(s) == Seam(g1, gy)[0 := true];
        assert Gaps(x) == g1[0 := true];
        SeamMarkFirst(g1, gy);
      } else {
        assert Gaps(s) == [false] + Seam(g1, gy);
        assert Gaps(x) == [false] + g1;
        SeamCons(g1, gy);
      }
    }
  }

  lemma SeamMarkFirst(g1: seq<bool>, gy: seq<bool>)
    requires |g1| > 0 && |gy| > 0
    ensures Seam(g1, gy)[0 := true] == Seam(g1[0 := true], gy)
  {
    var n := |g1| - 1;
    if n > 0 {
      assert g1[0 := true][..n] == g1[..n][0 := true];
    }
  }

  lemma SeamCons(g1: seq<bool>, gy: seq<bool>)
    requires |g1| > 0 && |gy| > 0
    ensures [false] + Seam(g1, gy) == Seam([false] + g1, gy)
  {
    var n := |g1| - 1;
    assert ([false] + g1)[..n + 1] == [false] + g1[..n];
  }

  /** A run of whitespace has one gap, marked when the run is not empty. */
  lemma {:induction false} GapsSpaces(t: String)
    requires forall i :: 0 <= i < |t| ==> IsSpace(t[i])
    ensures Gaps(t) == [|t| > 0]
    decreases |t|
  {
    if |t| > 0 {
      GapsSpaces(t[1..]);
    }
  }

  /** A string that is empty or ends with a non-space character has no whitespace after its last one. */
  lemma GapsNoTrail(s: String)
    requires |s| == 0 || !IsSpace(s[|s| - 1])
    ensures Gaps(s)[|NonSpace(s)|] == false
  {
    if |s| > 0 {
      var init := s[..|s| - 1];
      assert s == init + [s[|s| - 1]];
      GapsAppend(init, [s[|s| - 1]]);
      assert Gaps([s[|s| - 1]]) == [false, false];
    }
  }

  predicate AllSpace(t: String)
  {
    forall i :: 0 <= i < |t| ==> IsSpace(t[i])
  }

  /** A string is its leading whitespace, its stripped text and its trailing whitespace. */
  lemma StripPadding(s: String)
    ensures var r, a := Strip(s), |s| - |LStrip(s)|;
      a + |r| <= |s| && s == s[..a] + r + s[a + |r|..] && AllSpace(s[..a]) && AllSpace(s[a + |r|..])
  {
    var r, a := Strip(s), |s| - |LStrip(s)|;
    TrimIsSlice(s, Whitespace);
    PaddedSlice(s, a, r);
  }

  /** A slice with only whitespace around it splits the string into padding, slice, padding. */
  lemma PaddedSlice(s: String, a: nat, r: String)
    requires a + |r| <= |s| && r == s[a..a + |r|]
    requires forall i :: 0 <= i < a ==> IsSpace(s[i])
    requires forall i :: a + |r| <= i < |s| ==> IsSpace(s[i])
    ensures s == s[..a] + r + s[a + |r|..] && AllSpace(s[..a]) && AllSpace(s[a + |r|..])
  {
    var p, q := s[..a], s[a + |r|..];
    assert forall i :: 0 <= i < |p| ==> p[i] == s[i];
    assert forall i :: 0 <= i < |q| ==> q[i] == s[a + |r| + i];
    assert s[..a] + r == s[..a + |r|];
    assert s == s[..a + |r|] + s[a + |r|..];
  }

  /** Gaps of a padded string: the padding only marks the outer gaps. */
  lemma GapsPadded(pre: String, r: String, post: String)
    requires AllSpace(pre) && AllSpace(post)
    requires r == [] || (!IsSpace(r[0]) && !IsSpace(r[|r| - 1]))
    ensures NonSpace(pre + (r + post)) == NonSpace(r)
    ensures Gaps(r) == Gaps(pre + (r + post))[0 := false][|NonSpace(r)| := false]
  {
    var t := r + post;
    assert NonSpace(pre + t) == NonSpace(r) by {
      NonSpaceOfSpaces(pre);
      NonSpaceOfSpaces(post);
      NonSpaceAppend(r, post);
      NonSpaceAppend(pre, t);
    }
    var gm := Gaps(r);
    assert gm[0] == false && gm[|gm| - 1] == false by {
      GapsNoLead(r);
      GapsNoTrail(r);
    }
    assert Gaps(t) == Seam(gm, [|post| > 0]) by {
      GapsSpaces(post);
      GapsAppend(r, post);
    }
    assert Gaps(pre + t) == Seam([|pre| > 0], Gaps(t)) by {
      GapsSpaces(pre);
      GapsAppend(pre, t);
    }
    SeamEnds(gm, |pre| > 0, |post| > 0);
  }

  /** Stripping clears the first and the last gap and keeps the others. */
  lemma StripGaps(s: String)
    ensures Gaps(Strip(s)) == Gaps(s)[0 := false][|NonSpace(s)| := false]
  {
    var r := Strip(s);
    var a := |s| - |LStrip(s)|;
    StripPadding(s);
    var pre, post := s[..a], s[a + |r|..];
    assert s == pre + (r + post);
    StripEnds(s);
    GapsPadded(pre, r, post);
    StripKeepsText(s);
  }

  /** Clearing the outer gaps of `gm` merged with one gap on each side gives `gm` back when its own outer gaps are clear. */
  lemma SeamEnds(gm: seq<bool>, p: bool, q: bool)
    requires |gm| > 0 && gm[0] == false && gm[|gm| - 1] == false
    ensures Seam([p], Seam(gm, [q]))[0 := false][|gm| - 1 := false] == gm
  {
    var k := |gm| - 1;
    assert Seam(gm, [q]) == gm[k := q];
    assert Seam([p], gm[k := q]) == gm[k := q][0 := p || gm[k := q][0]];
  }

  /** Whitespace is never adjacent to whitespace, and the only whitespace is the space. */
  predicate Collapsed(s: String)
  {
    (forall i :: 0 <= i < |s| && IsSpace(s[i]) ==> s[i] == ' ') &&
    (forall i, j :: 0 <= i < |s| && 0 <= j < |s| && j == i + 1 ==> !IsSpace(s[i]) || !IsSpace(s[j]))
  }

  /** Replaces each maximal run of whitespace by one space. */
  function CollapseSpaces(s: String): (r: String)
    ensures Collapsed(r)
    ensures NonSpace(r) == NonSpace(s)
    ensures |r| > 0 && IsSpace(r[0]) <==> |s| > 0 && IsSpace(s[0])
    decreases |s|
  {
    if |s| == 0 then []
    else if IsSpace(s[0]) then
      var t := LStrip(s);
      var rest := CollapseSpaces(t);
      assert NonSpace(t) == NonSpace(s) by {
        var m := |s| - |t|;
        assert s == s[..m] + t;
        NonSpaceAppend(s[..m], t);
        NonSpaceOfSpaces(s[..m]);
      }
      ConsCollapsed(' ', rest);
      [' '] + rest
    else
      var rest := CollapseSpaces(s[1..]);
      assert NonSpace(s) == [s[0]] + NonSpace(s[1..]);
      ConsCollapsed(s[0], rest);
      [s[0]] + rest
  }

  /** Putting a character in front of a collapsed string, a space only before a non-space. */
  lemma ConsCollapsed(c: char, rest: String)
    requires Collapsed(rest)
    requires IsSpace(c) ==> c == ' ' && (rest == [] || !IsSpace(rest[0]))
    ensures Collapsed([c] + rest)
    ensures NonSpace([c] + rest) == (if IsSpace(c) then [] else [c]) + NonSpace(rest)
  {
    var r := [c] + rest;
    assert r[1..] == rest;
    assert forall i :: 1 <= i < |r| ==> r[i] == rest[i - 1];
  }

  /** Collapsing keeps whitespace in exactly the gaps that had it. */
  lemma {:induction false} CollapseKeepsGaps(s: String)
    ensures Gaps(CollapseSpaces(s)) == Gaps(s)
    decreases |s|
  {
    if |s| > 0 {
      var r := CollapseSpaces(s);
      if IsSpace(s[0]) {
        var t := LStrip(s);
        var m := |s| - |t|;
        CollapseKeepsGaps(t);
        assert r == [' '] + CollapseSpaces(t);
        assert r[1..] == CollapseSpaces(t);
        GapsDropSpaces(s, m);
        assert s[m..] == t;
      } else {
        CollapseKeepsGaps(s[1..]);
        assert r == [s[0]] + CollapseSpaces(s[1..]);
        assert r[1..] == CollapseSpaces(s[1..]);
      }
    }
  }

  /**
    A collapsed string is determined by its non-space characters and its
    gaps, so `CollapseSpaces`' contract fixes its result.
   */
  lemma {:induction false} CollapsedUnique(a: String, b: String)
    requires Collapsed(a) && Collapsed(b)
    requires NonSpace(a) == NonSpace(b) && Gaps(a) == Gaps(b)
    ensures a == b
    decreases |a| + |b|
  {
    if |a| > 0 && |b| > 0 {
      SliceCollapsed(a, 1, |a|, a[1..]);
      SliceCollapsed(b, 1, |b|, b[1..]);
      if IsSpace(a[0]) {
        if !IsSpace(b[0]) {
          GapsNoLead(b);
          assert false;
        }
        assert |a| == 1 || !IsSpace(a[1]);
        assert |b| == 1 || !IsSpace(b[1]);
        GapsNoLead(a[1..]);
        GapsNoLead(b[1..]);
        assert Gaps(a[1..]) == Gaps(a)[0 := false];
        assert Gaps(b[1..]) == Gaps(b)[0 := false];
        assert NonSpace(a) == NonSpace(a[1..]);
        assert NonSpace(b) == NonSpace(b[1..]);
        CollapsedUnique(a[1..], b[1..]);
        assert a == [a[0]] + a[1..] && b == [b[0]] + b[1..];
      } else {
        if IsSpace(b[0]) {
          GapsNoLead(a);
          assert false;
        }
        assert Gaps(a) == [false] + Gaps(a[1..]);
        assert Gaps(b) == [false] + Gaps(b[1..]);
        assert Gaps(a[1..]) == Gaps(a)[1..];
        assert NonSpace(a) == [a[0]] + NonSpace(a[1..]);
        assert NonSpace(b) == [b[0]] + NonSpace(b[1..]);
        assert NonSpace(a[1..]) == NonSpace(a)[1..];
        CollapsedUnique(a[1..], b[1..]);
        assert a == [a[0]] + a[1..] && b == [b[0]] + b[1..];
      }
    } else if |a| > 0 {
      CollapsedAllSpaces(a);
      assert false;
    } else if |b| > 0 {
      CollapsedAllSpaces(b);
      assert false;
    }
  }

  /** A non-empty collapsed string with no non-space character is one space, with whitespace in its only gap. */
  lemma CollapsedAllSpaces(a: String)
    requires |a| > 0 && Collapsed(a) && NonSpace(a) == []
    ensures Gaps(a) == [true]
  {
  }

  /** Collapsing again changes nothing. */
  lemma {:induction false} CollapseCollapsed(s: String)
    requires Collapsed(s)
    ensures CollapseSpaces(s) == s
    decreases |s|
  {
    if |s| > 0 {
      SliceCollapsed(s, 1, |s|, s[1..]);
      CollapseCollapsed(s[1..]);
      if IsSpace(s[0]) {
        assert s[0] == ' ';
        assert |s| == 1 || !IsSpace(s[1]);
        assert LStrip(s) == s[1..];
        assert CollapseSpaces(s) == [' '] + CollapseSpaces(s[1..]);
      } else {
        assert CollapseSpaces(s) == [s[0]] + CollapseSpaces(s[1..]);
      }
      assert s == [s[0]] + s[1..];
    }
  }

  /** Dropping leading whitespace loses no other character. */
  lemma {:induction false} NonSpaceDropLeading(s: String, a: nat)
    requires a <= |s|
    requires forall i :: 0 <= i < a ==> IsSpace(s[i])
    ensures NonSpace(s[a..]) == NonSpace(s)
    decreases a
  {
    if a > 0 {
      var t := s[1..];
      assert NonSpace(s) == NonSpace(t);
      assert forall i :: 0 <= i < a - 1 ==> t[i] == s[i + 1];
      NonSpaceDropLeading(t, a - 1);
      assert t[a - 1..] == s[a..];
    }
  }

  /** Dropping trailing whitespace loses no other character. */
  lemma {:induction false} NonSpaceDropTrailing(s: String, b: nat)
    requires b <= |s|
    requires forall i :: b <= i < |s| ==> IsSpace(s[i])
    ensures NonSpace(s[..b]) == NonSpace(s)
    decreases b
  {
    if b == 0 {
      NonSpaceOfSpaces(s);
    } else {
      var t := s[1..];
      assert forall i :: b - 1 <= i < |t| ==> t[i] == s[i + 1];
      NonSpaceDropTrailing(t, b - 1);
      assert s[..b][1..] == t[..b - 1] && s[..b][0] == s[0];
    }
  }

  /** Stripping removes only whitespace. */
  lemma StripKeepsText(s: String)
    ensures NonSpace(Strip(s)) == NonSpace(s)
  {
    var l := TrimLeft(s, Whitespace);
    NonSpaceDropLeading(s, |s| - |l|);
    NonSpaceDropTrailing(l, |TrimRight(l, Whitespace)|);
  }

  /** A slice of a collapsed string is collapsed. */
  lemma SliceCollapsed(s: String, a: nat, b: nat, t: String)
    requires a <= b <= |s| && t == s[a..b]
    requires Collapsed(s)
    ensures Collapsed(t)
  {
    assert forall i :: 0 <= i < b - a ==> t[i] == s[a + i];
  }

  lemma StripCollapsed(s: String)
    requires Collapsed(s)
    ensures Collapsed(Strip(s))
  {
    var l := TrimLeft(s, Whitespace);
    SliceCollapsed(s, |s| - |l|, |s|, l);
    var r := TrimRight(l, Whitespace);
    SliceCollapsed(l, 0, |r|, r);
  }

  // ---------------------------------------------------------------------
  // Classifying one line

  /** `n` ASCII digits start at position `i`. */
  predicate DigitsAt(s: String, i: nat, n: nat)
  {
    i + n <= |s| && forall k :: i <= k < i + n ==> IsDigit(s[k])
  }

  /** `\d{2}:\d{2}:\d{2}\.\d{3}` matches at the start of `s`. */
  predicate TimestampFirst(s: String)
  {
    |s| >= 12 && DigitsAt(s, 0, 2) && s[2] == ':' && DigitsAt(s, 3, 2) && s[5] == ':'
    && DigitsAt(s, 6, 2) && s[8] == '.' && DigitsAt(s, 9, 3)
  }

  /**
    A cue timing line: two timestamps around `-->`, whitespace allowed
    around the arrow; anything may follow the second timestamp.
   */
  predicate IsCueTiming(l: String)
  {
    TimestampFirst(l) &&
    var rest := LStrip(l[12..]);
    StartsWith(rest, "-->") && TimestampFirst(LStrip(rest[3..]))
  }

  predicate IsHeader(l: String)
  {
    StartsWith(l, "WEBVTT") || StartsWith(l, "Kind:") || StartsWith(l, "Language:") || StartsWith(l, "NOTE")
  }

  predicate SettingFirst(s: String)
  {
    StartsWith(s, "position:") || StartsWith(s, "align:") || StartsWith(s, "line:") || StartsWith(s, "size:")
  }

  /**
    `^.*\s+(position|align|line|size):` matches: some whitespace character
    is directly followed by a setting name and a colon. Ordinary prose such
    as "the size: large" matches too.
   */
  predicate HasCueSetting(l: String)
  {
    exists i :: 0 <= i < |l| && IsSpace(l[i]) && SettingFirst(l[i + 1..])
  }

  /** A stripped line the cleaner skips before rewriting it. */
  predicate Skipped(l: String)
  {
    |l| == 0 || IsHeader(l) || IsCueTiming(l) || HasCueSetting(l)
  }

  /** The line with tags and entities removed, stripped. */
  function Rewrite(l: String): String
  {
    Strip(RemoveEntities(RemoveTags(l)))
  }

  /** The text a raw line contributes, if any. */
  function CleanLine(raw: String): (r: Option<String>)
    ensures Skipped(Strip(raw)) ==> r.None?
    ensures var l := Strip(raw);
      !Skipped(l) && |Rewrite(l)| > 0 && !AllDigits(Rewrite(l)) ==> r.Some?
    ensures r.Some? ==> r.value == Rewrite(Strip(raw))
    ensures r.Some? ==> |r.value| > 0 && !AllDigits(r.value)
                        && !IsSpace(r.value[0]) && !IsSpace(r.value[|r.value| - 1])
    ensures var l := Strip(raw);
      !Skipped(l) && !HasTag(l) && '&' !in l && !AllDigits(l) ==> r == Some(l)
  {
    var l := Strip(raw);
    if Skipped(l) then None
    else
      var c := Rewrite(l);
      RewritePlain(raw);
      StripEnds(RemoveEntities(RemoveTags(l)));
      if |c| == 0 || AllDigits(c) then None else Some(c)
  }

  /** A stripped line without tags or `&` is its own rewrite. */
  lemma RewritePlain(raw: String)
    ensures var l := Strip(raw); !HasTag(l) && '&' !in l ==> Rewrite(l) == l
  {
    var l := Strip(raw);
    if !HasTag(l) && '&' !in l {
      RemoveTagsNoTag(l);
      TrimIdempotent(raw, Whitespace);
    }
  }

  /** Each line's rewritten text, whether kept or not. */
  function Rewritten(lines: seq<String>): (xs: seq<String>)
    ensures |xs| == |lines|
    ensures forall i :: 0 <= i < |lines| ==> xs[i] == Rewrite(Strip(lines[i]))
  {
    seq(|lines|, i requires 0 <= i < |lines| => Rewrite(Strip(lines[i])))
  }

  /** Which lines are kept. */
  function KeepMask(lines: seq<String>): (mask: seq<bool>)
    ensures |mask| == |lines|
    ensures forall i :: 0 <= i < |lines| ==> mask[i] == CleanLine(lines[i]).Some?
  {
    seq(|lines|, i requires 0 <= i < |lines| => CleanLine(lines[i]).Some?)
  }

  /** The texts of the kept lines, in input order. */
  function KeptLines(lines: seq<String>): (r: seq<String>)
    ensures r == Filtered(Rewritten(lines), KeepMask(lines))
  {
    if |lines| == 0 then []
    else
      var rest := KeptLines(lines[1..]);
      assert Rewritten(lines)[1..] == Rewritten(lines[1..]);
      assert KeepMask(lines)[1..] == KeepMask(lines[1..]);
      match CleanLine(lines[0])
      case Some(c) => [c] + rest
      case None => rest
  }

  /** A line text worth keeping: non-empty and not a cue number. */
  predicate TextLine(c: String)
  {
    |c| > 0 && !AllDigits(c)
  }

  /** Every kept text is non-empty and not a cue number. */
  lemma {:induction false} KeptLinesWellFormed(lines: seq<String>)
    ensures forall c :: c in KeptLines(lines) ==> TextLine(c)
  {
    if |lines| > 0 {
      KeptLinesWellFormed(lines[1..]);
      var rest := KeptLines(lines[1..]);
      match CleanLine(lines[0])
      case Some(c) =>
        assert TextLine(c);
        assert KeptLines(lines) == [c] + rest;
      case None =>
        assert KeptLines(lines) == rest;
    }
  }

  /**
    `clean_vtt_file`'s text: the kept lines joined by spaces, whitespace runs
    collapsed, the ends stripped. No character other than whitespace is
    lost or reordered on the way from the joined lines.
   */
  function CleanVtt(content: String): (text: String)
    ensures Collapsed(text)
    ensures StripEndsClean(text)
    ensures NonSpace(text) == NonSpace(Join(KeptLines(Split(content, "\n")), " "))
    ensures var joined := Join(KeptLines(Split(content, "\n")), " ");
      Gaps(text) == Gaps(joined)[0 := false][|NonSpace(joined)| := false]
  {
    var joined := Join(KeptLines(Split(content, "\n")), " ");
    CollapseThenStrip(joined);
    CollapseStripGaps(joined);
    Strip(CollapseSpaces(joined))
  }

  /**
    The four facts above pin the cleaned text down: any collapsed text with
    the same non-space characters and the same gaps is that text.
   */
  lemma CleanVttDetermined(content: String, t: String)
    requires var joined := Join(KeptLines(Split(content, "\n")), " ");
      && Collapsed(t) && NonSpace(t) == NonSpace(joined)
      && Gaps(t) == Gaps(joined)[0 := false][|NonSpace(joined)| := false]
    ensures t == CleanVtt(content)
  {
    CollapsedUnique(t, CleanVtt(content));
  }

  /** Neither end is whitespace. */
  predicate StripEndsClean(t: String)
  {
    t == [] || (!IsSpace(t[0]) && !IsSpace(t[|t| - 1]))
  }

  /**
    Collapsing and then stripping gives collapsed text with no space at
    either end and the same non-space characters.
   */
  lemma CollapseThenStrip(s: String)
    ensures Collapsed(Strip(CollapseSpaces(s)))
    ensures StripEndsClean(Strip(CollapseSpaces(s)))
    ensures NonSpace(Strip(CollapseSpaces(s))) == NonSpace(s)
  {
    var collapsed := CollapseSpaces(s);
    assert NonSpace(Strip(collapsed)) == NonSpace(s) by { StripKeepsText(collapsed); }
    assert Collapsed(Strip(collapsed)) by { StripCollapsed(collapsed); }
    assert StripEndsClean(Strip(collapsed)) by { StripEnds(collapsed); }
  }

  /** Collapsing and then stripping keeps whitespace in exactly the inner gaps that had it. */
  lemma CollapseStripGaps(s: String)
    ensures Gaps(Strip(CollapseSpaces(s))) == Gaps(s)[0 := false][|NonSpace(s)| := false]
  {
    var collapsed := CollapseSpaces(s);
    StripGaps(collapsed);
    CollapseKeepsGaps(s);
  }

  // ---------------------------------------------------------------------
  // Output file name

  /** The last position of `c` in `s`. */
  function LastIndex(s: String, c: char): (r: Option<nat>)
    ensures r.None? <==> c !in s
    ensures r.Some? ==> r.value < |s| && s[r.value] == c && c !in s[r.value + 1..]
  {
    if |s| == 0 then None
    else if s[|s| - 1] == c then Some(|s| - 1)
    else
      assert s == s[..|s| - 1] + [s[|s| - 1]];
      var r := LastIndex(s[..|s| - 1], c);
      if r.Some? then
        assert s[r.value + 1..] == s[..|s| - 1][r.value + 1..] + [s[|s| - 1]];
        r
      else r
  }

  /** Where the last path component starts: after the last `/`, or at 0. */
  function ComponentStart(p: String): (start: nat)
    ensures start <= |p|
    ensures '/' !in p[start..]
    ensures start > 0 ==> p[start - 1] == '/'
  {
    match LastIndex(p, '/')
    case None => 0
    case Some(k) => k + 1
  }

  /** The last path component has a dot with some character other than a dot before it. */
  predicate HasExtension(p: String)
  {
    exists i, k :: ComponentStart(p) <= k < i < |p| && p[i] == '.' && p[k] != '.'
  }

  predicate NonDotBetween(p: String, lo: nat, hi: nat)
    requires hi <= |p|
  {
    exists k :: lo <= k < hi && p[k] != '.'
  }

  /**
    `posixpath.splitext(p)`: the extension is the last `.` of the last path
    component and what follows, unless only dots precede it in that
    component.
   */
  function SplitExt(p: String): (r: (String, String))
    ensures r.0 + r.1 == p
    ensures r.1 == [] || (r.1[0] == '.' && '/' !in r.1 && '.' !in r.1[1..])
    ensures r.1 != [] <==> HasExtension(p)
  {
    var start := ComponentStart(p);
    var dot := LastIndex(p, '.');
    if dot.Some? && dot.value >= start && NonDotBetween(p, start, dot.value) then
      assert '/' !in p[dot.value..] by {
        assert p[dot.value..] == p[start..][dot.value - start..];
      }
      (p[..dot.value], p[dot.value..])
    else
      assert !HasExtension(p);
      (p, [])
  }

  /** `f"{os.path.splitext(path)[0]}_cleaned.txt"`: the path without its extension, then `_cleaned.txt`. */
  function OutputName(path: String): (name: String)
    ensures name == path[..|path| - |SplitExt(path).1|] + "_cleaned.txt"
    ensures !HasExtension(path) ==> name == path + "_cleaned.txt"
  {
    SplitExt(path).0 + "_cleaned.txt"
  }
}
